=== FILE: README.md ===
# Helios scene core in Dafny

This project models the core of Helios, a Vulkan ray-tracing renderer and scene editor.
It covers four areas:

- the scene graph and its per-frame update;
- the GPU-side registration that `Scene::create_gpu_resources` performs for the ray tracer;
- the resource manager that turns scene, material and mesh descriptions into nodes;
- the application shell around them: window events, the progressive path-integrator
  bake, the top-level acceleration structure step and the editor's node operations.

Everything is modelled as pure data and functions. Floating-point maths and Vulkan are
out of scope:

- Vectors are stored, never evaluated.
- Matrices and quaternions are terms of a free algebra (`Types.Mat`, `Types.Quat`), so
  the model states *which* matrices are composed and in which order.
- GPU buffers are the sequences of records written to them.
- Files on disk are maps from path to parsed description (`Assets.Disk`).

Modules, following the program's structure:

| module | models |
|---|---|
| `Types` | shared vocabulary: matrices as terms, textures, materials, meshes, `IndexOf`/`Dedup` |
| `SceneGraph` | `Node` and its subclasses, `add_child`/`remove_child`/`find_child`, dirty flags, mutators, cleanups |
| `Traversal` | `RenderState`, the recursive `update` of every node class, escalation of `SceneState` |
| `Registrar` | the registration pass of `create_gpu_resources`: mesh slots, material dedup, texture slots, area lights |
| `Upload` | the rest of `create_gpu_resources`: instance records, light records, descriptor writes |
| `SceneUpdate` | `Scene::update`: traversal, light count, forced updates, upload |
| `Assets` | `ResourceManager`: texture formats, caches, material and mesh loading, node creation from a scene description |
| `Editor` | the editor's node menu, node naming, camera keys, inspector edits and scene serialiser |
| `PathIntegrator` | the tile grid and progressive sample accumulation of the path integrator |
| `Tlas` | the renderer's TLAS copy/build/refit command sequence |
| `Application` | window-size, iconify, key and mouse callbacks and `handle_events`' resize debounce |

## Model

| member | source | states |
|---|---|---|
| SceneGraph.NodeTypeOfValue | include/resource/scene.h:24-33 | the integer cast names a node type exactly for 0..6, and names the enumerator with that value |
| SceneGraph.NodeTypeValueRoundTrip | include/resource/scene.h:24-33 | every node type survives the round trip through its integer value |
| SceneGraph.DefaultKind | include/resource/scene.h:95-258 | each node class's member defaults: empty mesh and override, empty IBL image, inner cone below outer, near below far and a field of view between 0 and 180 degrees, and white unit-intensity lights |
| SceneGraph.NewNode | src/engine/resource/scene.cpp:58-61 | a constructed node takes the counter's value as its id and starts enabled, transform-dirty and hierarchy-dirty, with no children and the default transform |
| SceneGraph.AddChild | src/engine/resource/scene.cpp:77-82 | the child is appended last and the parent becomes hierarchy-dirty, with nothing else changed |
| SceneGraph.Cleanup | src/engine/resource/scene.cpp:476-500 | a mesh node queues its mesh and then its override for deletion, an IBL node queues its image, and every other node queues nothing |
| SceneGraph.ChildIndex | src/engine/resource/scene.cpp:130-137 | the search loop stops at the first direct child with the name, or at the child count when none has it |
| SceneGraph.RemoveChild | src/engine/resource/scene.cpp:126-145 | the parent becomes hierarchy-dirty even when nothing matches; only the first child with the name is removed and cleaned up, and the others keep their order |
| SceneGraph.RemoveAfterAdd | src/engine/resource/scene.cpp:77-145 | removing a just-added child by a fresh name finds it at the end, and what remains is the child list from before the add |
| SceneGraph.FirstMatchFinds | src/engine/resource/scene.cpp:86-122 | the reference search answers with a listed node that matches, and with nothing exactly when no listed node matches |
| SceneGraph.FindChildIsFirstMatch | src/engine/resource/scene.cpp:86-122 | `find_child` (by name or by type) returns the first match of a pre-order depth-first walk of the strict descendants |
| SceneGraph.FindChildNeverSelf | src/engine/resource/scene.cpp:86-122 | `find_child` never answers with the node it is asked on, and answers nothing exactly when no descendant matches |
| SceneGraph.FindNode | src/engine/resource/scene.cpp:1401-1409 | the root wins when it carries the name; otherwise the first descendant that carries it; nothing exactly when no node does |
| SceneGraph.FindCamera | src/engine/resource/scene.cpp:1411-1417 | the root if it is a camera, otherwise a camera below it; nothing exactly when the tree has no camera |
| SceneGraph.MarkTransformsDirty | src/engine/resource/scene.cpp:163-169 | every node of the subtree becomes transform-dirty and nothing else in the tree changes |
| SceneGraph.ApplyOp | src/engine/resource/scene.cpp:298-420 | the mutators change only position, orientation and scale, never the cached matrices |
| SceneGraph.EditTransform | src/engine/resource/scene.cpp:298-420 | a mutator sets the transform, marks the whole subtree transform-dirty, and leaves the hierarchy flag, the enabled flag and the rest of the tree alone |
| SceneGraph.SetMesh | src/engine/resource/scene.cpp:502-511 | the new mesh replaces the old one after the node's full cleanup, which also queues the override that the node keeps |
| SceneGraph.SetMaterialOverride | src/engine/resource/scene.cpp:513-520 | the override is replaced and only the previous override is queued for deletion |
| SceneGraph.SetImage | src/engine/resource/scene.cpp:690-697 | the previous cubemap is queued for deletion and the new one stored |
| SceneGraph.SetRootNode | src/engine/resource/scene.cpp:1384-1392 | the new root is installed and the previous root (if any) runs only its own cleanup, not its children's |
| Traversal.DisabledChangesSurface | include/resource/scene.h:73-76 | a disabled subtree is skipped by the traversal, node and state untouched even when dirty; once enabled again, its pending changes escalate the next traversal |
| Traversal.Clear | src/engine/resource/scene.cpp:728-750 | every list and slot is emptied, the light count is zero and the state is ready; the viewport is kept |
| Traversal.Setup | src/engine/resource/scene.cpp:752-760 | every list is empty, there is no camera or IBL, the light count is zero and the state is ready, and the viewport has the new size |
| Traversal.SetupForgetsPrevious | src/engine/resource/scene.cpp:752-760 | the state after `setup` depends on the viewport size alone: nothing of the previous frame survives |
| Traversal.LocalUpdate | src/engine/resource/scene.cpp:186-202 | a transform-dirty node rebuilds T*R and (T*R)*S, keeps its old model matrix as the previous one, lowers the flag and escalates the state; a clean node changes nothing |
| Traversal.CameraUpdate | src/engine/resource/scene.cpp:632-648 | a camera's projection uses the viewport of the render state, and its view is the inverse of its unscaled global frame |
| Traversal.GlobalTransform | src/engine/resource/scene.cpp:246-268 | the global matrix is the parent's unscaled frame times the local model matrix, or the local matrix when there is no parent |
| Traversal.UpdateNodeGathers | src/engine/resource/scene.cpp:437-688 | a traversal lists exactly the reachable (enabled, under enabled ancestors) mesh nodes holding a mesh and light nodes, in pre-order, and the camera and IBL slots end up holding the first one reached; a disabled node's subtree is skipped untouched |
| Traversal.UpdateNodeLists | src/engine/resource/scene.cpp:149-268 | each list gains exactly the visits of the reference definition, in pre-order: every reached node of the list's kind with its transform as its own update refreshed it (T*R and (T*R)*S rebuilt when dirty) and, as its parent frame, the refreshed unscaled matrix of its immediate parent when that parent is a TransformNode, and none for the root or a child of an IBL node |
| Traversal.VisibleVisitsIds | src/engine/resource/scene.cpp:437-688 | the listed visits name exactly the reached ids, so the two reference definitions agree |
| Traversal.UpdateNodeState | src/engine/resource/scene.cpp:149-202 | after a traversal the state is hierarchy-updated exactly when it already was or some reached node was dirty; otherwise it is unchanged, so transforms-updated is never produced |
| Traversal.UpdateNodeCleans | src/engine/resource/scene.cpp:149-202 | no reached node is dirty after a traversal, and ids, enabled flags and node types are kept |
| Traversal.ReupdateIsReady | src/engine/resource/scene.cpp:875-911 | re-traversing an untouched graph into a cleared render state leaves it ready |
| Traversal.NewNodeEscalates | src/engine/resource/scene.cpp:58-61 | a newly constructed node escalates the scene state on its first traversal |
| Traversal.GlobalTransformOneLevel | src/engine/resource/scene.cpp:246-268 | in a root -> a -> b chain the mesh is listed with only a's unscaled matrix as its frame, so the root's transform does not enter its global transform |
| Registrar.LightTypeCode | src/engine/resource/scene.cpp:14-20 | every light record's type code is one of the five `LightType` values |
| Registrar.LightTypeCodeIdentifiesKind | src/engine/resource/scene.cpp:14-20 | two light records share a type code exactly when they are lights of the same kind, so the code identifies the kind |
| Registrar.LookupOrInsert | src/engine/resource/scene.cpp:1133-1146 | `operator[]` yields the stored slot for a known key, and inserts and yields 0 for an unknown one, keeping every existing entry |
| Registrar.AddTexture | src/engine/resource/scene.cpp:993-1106 | a texture gets a new image slot exactly when it is present and not yet registered, otherwise the role reads -1 and the image list is unchanged |
| Registrar.AddTexturesImages | src/engine/resource/scene.cpp:993-1106 | the image list only grows, and grows by exactly the present textures of the roles |
| Registrar.AddTexturesSlot | src/engine/resource/scene.cpp:993-1106 | a role holds a slot exactly when its texture is neither already registered nor used by an earlier role of the material, and that slot holds the texture |
| Registrar.PackMaterial | src/engine/resource/scene.cpp:993-1106 | a textured role zeroes the matching constant (albedo, emissive, roughness, metallic); channel indices follow only registered roughness and metallic roles; the unused index is -1 |
| Registrar.PackMaterialSlots | src/engine/resource/scene.cpp:993-1106 | a texture already registered by an earlier material leaves the role at -1 rather than reusing that slot |
| Registrar.FirstByIdIds | src/engine/resource/scene.cpp:973-1106 | the registered materials are the distinct material ids of the pass, with no repeats |
| Registrar.FirstByIdFirst | src/engine/resource/scene.cpp:973-1106 | each registered material is the first instance of its id in submesh order |
| Registrar.PackAllImages | src/engine/resource/scene.cpp:993-1106 | the bound images are distinct and are exactly the textures of the registered materials |
| Registrar.UnregisteredReadsSlotZero | src/engine/resource/scene.cpp:1133-1146 | an instance of an already-seen mesh whose override material was never registered reads material slot 0 in its primitive table |
| Registrar.LookupIsSlot | src/engine/resource/scene.cpp:1133-1146 | a lookup in the material-index map equals the material's first-seen slot |
| Registrar.RegisterSubmeshes | src/engine/resource/scene.cpp:973-1130 | the submesh loop registers each effective material (override or slot) in order and adds one area light for every emissive submesh of the first instance, whether or not its material was already registered |
| Registrar.InstancePairs | src/engine/resource/scene.cpp:1133-1146 | each submesh's entry is its primitive offset (base index / 3) and its material's slot |
| Registrar.ClaimMesh | src/engine/resource/scene.cpp:944-972 | only the first instance of a mesh claims a slot and walks its submeshes; later instances add nothing |
| Registrar.RegisterPass | src/engine/resource/scene.cpp:944-1146 | the distinct meshes in first-seen order with their slots, the materials of first instances deduplicated by id, the area lights, one material-indices descriptor per instance and its primitive table |
| Upload.EnvironmentMap | src/engine/resource/scene.cpp:1165-1180 | the active IBL's image when it has one, otherwise the sky model when any directional light exists |
| Upload.DescriptorWrites | src/engine/resource/scene.cpp:1165-1236 | the environment write comes first and only first; each buffer or texture list is written exactly when it is non-empty |
| Upload.OtherLightsOrder | src/engine/resource/scene.cpp:1270-1309 | after the area lights come the environment record, then directional, point and spot lights, each group in list order; a directional record carries the light's forward direction (its orientation applied to +z), a point record its global position (its position under the parent's unscaled matrix, one level deep), and a spot record both |
| Upload.WriteInstances | src/engine/resource/scene.cpp:1242-1267 | record i carries custom index i, its mesh's slot (0 for an unknown mesh, which is inserted), its global transform and its normal matrix |
| Upload.MeshSlotIsFirstSeen | src/engine/resource/scene.cpp:944-1267 | after a pass an instance's mesh slot is the position of its mesh among the distinct meshes |
| Upload.CreateGpuResources | src/engine/resource/scene.cpp:915-1311 | nothing is written on a ready frame; otherwise the instance records; on a hierarchy-updated frame the registration, the slots and area lights leading the light records |
| Upload.AreaLightsLead | src/engine/resource/scene.cpp:1111-1309 | the area lights are exactly the leading light records |
| Upload.UploadIgnoresCapacities | include/resource/scene.h:14-17 | a hierarchy frame writes one instance record per instance, one light record per light, one material record per distinct material and one image per distinct texture, with no comparison against the capacities, so it fits the buffers exactly when the scene does |
| SceneUpdate.ForceUpdate | include/resource/scene.h:307-312 | only the force-update request is raised |
| SceneUpdate.NumLightsCountsRecords | src/engine/resource/scene.cpp:891-899 | the light count is the stored area-light count plus the records written after the area lights |
| SceneUpdate.Update | src/engine/resource/scene.cpp:875-911 | the upload sees the traversed state, forced to hierarchy-updated on request: a Ready frame uploads nothing, any other frame writes one instance record per listed mesh instance, a transforms-only frame keeps the registration and area lights, and a hierarchy frame registers materials, textures and area lights from the listed instances; the request is consumed; the light count matches the records written exactly when the pass kept the area-light count |
| Assets.ImageFormat | src/engine/core/resource_manager.cpp:14-67 | an uncompressed non-sRGB image always has a format, and an sRGB one only for 8-bit 3- and 4-channel images |
| Assets.CompressedFormatDefined | src/engine/core/resource_manager.cpp:14-67 | a compressed image has a format exactly for BC1 to BC5 and BC7, and for BC4 to BC6H only when not sRGB |
| Assets.LoadTexture2D | src/engine/core/resource_manager.cpp:226-259 | a cached path answers from the cache; otherwise a texture exists exactly when the file does, and it is cached under its path |
| Assets.LoadTexture2DTwice | src/engine/core/resource_manager.cpp:226-259 | loading the same path twice yields the same texture and no further change, whatever sRGB flag the second call gives |
| Assets.LoadTextureCubeTwice | src/engine/core/resource_manager.cpp:261-291 | loading the same cubemap twice yields the same cubemap and no further change |
| Assets.ResolveStable | src/engine/core/resource_manager.cpp:226-291 | once a path is attempted, later growth of the caches never changes what it resolves to |
| Assets.LastOfRoleListed | src/engine/core/resource_manager.cpp:326-398 | the texture that decides a role is among the role textures that were loaded |
| Assets.AddPath | src/engine/core/resource_manager.cpp:326-398 | a path is loaded and appended only on first sight, and its array index is its first-seen position |
| Assets.LoadMaterialTextures | src/engine/core/resource_manager.cpp:326-398 | the texture list is the distinct role paths in first-seen order, each role's info points at the last texture of that role, and other textures are ignored |
| Assets.PropertiesLastWins | src/engine/core/resource_manager.cpp:400-410 | each material constant takes the last property of its type, or the default when there is none |
| Assets.RoleResolves | src/engine/core/resource_manager.cpp:326-412 | the texture a built material samples for a role is the cached texture of that role's last path |
| Assets.LoadMaterial | src/engine/core/resource_manager.cpp:296-424 | cached paths answer from the cache; otherwise a material exists exactly when the file does, carrying its textures, infos and constants, and is cached |
| Assets.TagVertices | src/engine/core/resource_manager.cpp:467-473 | each vertex is tagged with the last submesh whose index range touches it, or keeps 0 |
| Assets.LoadMeshMaterials | src/engine/core/resource_manager.cpp:475-476 | each named material slot holds what its path resolves to, and slots without a path stay empty |
| Assets.LoadMesh | src/engine/core/resource_manager.cpp:428-490 | cached paths answer from the cache; otherwise a mesh exists exactly when the file does, with its submeshes and material slots, and is cached |
| Assets.CreateNode | src/engine/core/resource_manager.cpp:494-672 | an unknown description yields no node and changes nothing; any other yields a node built from the description whose tree, in pre-order, holds exactly the ids the counter handed out, so no two nodes share an id |
| Assets.ChildrenBuiltFromShapes | src/engine/core/resource_manager.cpp:494-672 | nodes built from descriptions have the descriptions' type-and-children shape |
| Editor.MenuMatchesNodeTypes | src/editor/main.cpp:34-41 | the menu's i-th label names the node type with value i, and every type but root is offered |
| Editor.DecimalRoundTrip | src/editor/main.cpp:1096-1119 | the counter written in a new node's name reads back as the same number |
| Editor.NewNodeNamesDistinct | src/editor/main.cpp:1096-1119 | different counters give different new-node names |
| Editor.CreateNewNode | src/editor/main.cpp:1096-1119 | both counters advance; when the selection is a node of the scene, that node in the scene tree gains exactly one new last child of the chosen type, named "New Node " and the counter, and is marked hierarchy-dirty; otherwise the scene is unchanged |
| Editor.AttachAt | src/editor/main.cpp:1117-1118 | adding a child through the selected node's pointer changes the scene tree at that node, and each node on the way keeps all but the child it leads through |
| Editor.AttachAtKeepsOthers | src/editor/main.cpp:1117-1118 | every node whose path parts from the selection's is unchanged |
| Editor.KeyPressed | src/editor/main.cpp:462-494 | in ray-debug mode keys do nothing; W/S and A/D set the heading and sideways speed; G toggles the GUI |
| Editor.PressThenRelease | src/editor/main.cpp:462-494 | pressing and releasing a movement key stops movement on that axis |
| Editor.ToggleGuiTwice | src/editor/main.cpp:462-494 | pressing G twice restores the controls |
| Editor.EditIsInvisible | src/editor/main.cpp:750-930 | an inspector parameter edit raises no dirty flag |
| Editor.UnforcedEditStaysReady | src/editor/main.cpp:750-930 | without a forced update, an edit made after a traversal leaves the next frame ready |
| Editor.ApplyPanel | src/editor/main.cpp:750-924 | the setters give the shown fields the panel's values and keep every field no panel shows; the kind changes exactly when some comparison finds a difference |
| Editor.InspectorEdit | src/editor/main.cpp:750-924 | the next update is forced exactly when the edit changed the tree (or it was already forced); nothing else of the scene changes |
| Editor.UnchangedPanelKeepsScene | src/editor/main.cpp:750-924 | confirming the values a panel already shows leaves the scene, its force flag included, as it was |
| Editor.EditorCameraIsActive | src/editor/main.cpp:101-111 | the editor camera traversed first is the frame's active camera |
| Editor.SaveThenLoadKeepsShape | src/editor/main.cpp:1143-1339 | loading a saved tree rebuilds the same node types and child structure |
| Editor.SaveThenLoadParameters | src/engine/core/resource_manager.cpp:584-598 | directional, point, root and camera parameters survive saving and loading; a spot light comes back with its outer cone set to its inner cone, so it survives exactly when the two cones are equal |
| PathIntegrator.TileCount | src/engine/gfx/path_integrator.cpp:319-329 | the tile count is the least number of tiles of size 128 that covers the extent |
| PathIntegrator.TileGrid | src/engine/gfx/path_integrator.cpp:319-329 | one tile per column and row, laid out column-major with tiles 128 apart |
| PathIntegrator.GridCoversPixel | src/engine/gfx/path_integrator.cpp:319-329 | every pixel lies in the tile numbered from its column and row, and that tile is inside the grid |
| PathIntegrator.ComputeTileCoords | src/engine/gfx/path_integrator.cpp:312-336 | the old tiles are dropped; non-tiled mode has one full-viewport tile and tiled mode the grid of 128-pixel tiles |
| PathIntegrator.SetTiled | src/engine/gfx/path_integrator.cpp:117-121 | `set_tiled` alone recomputes the grid but keeps the progress, so without the `restart_bake` that follows it, leaving tiled mode mid-bake would leave the tile index past the single tile and the next frame would trace nothing |
| PathIntegrator.ToggleTiled | src/editor/main.cpp:358-367 | a changed mode restarts the bake, so the next frame traces the first tile of the new grid; an unchanged choice leaves the integrator alone |
| PathIntegrator.OnWindowResize | src/engine/gfx/path_integrator.cpp:109-113 | a resize restarts the bake on the new grid |
| PathIntegrator.Render | src/engine/gfx/path_integrator.cpp:48-84 | a changed scene restarts the bake; while tiles remain the current tile is traced with the samples so far, and the tile advances once the budget is reached |
| PathIntegrator.RenderKeepsRange | src/engine/gfx/path_integrator.cpp:48-84 | with a budget of at least one sample the progress stays within the grid and below the budget |
| PathIntegrator.ZeroBudgetNeverAdvances | src/engine/gfx/path_integrator.cpp:79-83 | with a zero budget the sample count passes it and the tile never advances |
| PathIntegrator.FinishedBakeIsIdle | src/engine/gfx/path_integrator.cpp:58-77 | a finished bake traces nothing until the scene changes |
| PathIntegrator.BakeProgress | src/engine/gfx/path_integrator.cpp:48-84 | after n unchanged frames from a restart the bake is at tile n div budget with n mod budget samples |
| PathIntegrator.DebugPixelRange | src/engine/gfx/path_integrator.cpp:146 | for a pick inside the viewport the column is kept and the flipped row lies in 1..height, the top row mapping to the height and the bottom row to 1 |
| Tlas.RecordTlas | src/core/renderer.cpp:44-104 | nothing is recorded unless the hierarchy changed; then copy, barrier, build, barrier, the build refitting exactly when the TLAS already existed |
| Tlas.CopyFitsBuffer | src/core/renderer.cpp:66-72 | the instance copy fits the device buffer exactly when the scene has no more meshes than its capacity |
| Tlas.BuiltAtMostOnce | src/core/renderer.cpp:52-64 | over any run of frames the TLAS is created at most once, on the first hierarchy-updated frame, and every later build is a refit |
| Tlas.FramesAreBlocks | src/core/renderer.cpp:66-102 | every frame records nothing or a whole block in order, and all builds target the one structure |
| Application.ToU32 | src/engine/core/application.cpp:524-531 | the size stored from a signed callback argument is its 32-bit unsigned value |
| Application.Initial | src/engine/core/application.cpp:143-146 | the size is the framebuffer's and every flag starts clear |
| Application.WindowSizeCallback | src/engine/core/application.cpp:524-531 | the new size is recorded and both the recreate and resize-in-progress flags are raised |
| Application.IconifyCallback | src/engine/core/application.cpp:535-538 | only the minimised flag changes |
| Application.KeyCallback | src/engine/core/application.cpp:468-485 | escape press asks to close; keys in range update their entry and fire the matching hook; others change nothing |
| Application.MouseButtonCallback | src/engine/core/application.cpp:505-520 | buttons in range update their entry and fire the matching hook; others change nothing |
| Application.ApplyButtons | src/engine/core/application.cpp:468-520 | after any run of events each entry holds the outcome of the last press or release of its code, and codes outside the array never disturb it |
| Application.HandleEvents | src/engine/core/application.cpp:344-367 | the swap chain is recreated when asked and not minimised; a resize completes only when the size equals the previous poll's; a frame runs exactly when neither minimised nor resizing |
| Application.ResizeSettles | src/engine/core/application.cpp:354-364 | once the size stops changing the resize completes on the first or second poll, exactly once |
| Application.ResizeHoldsWhileChanging | src/engine/core/application.cpp:354-364 | while the size keeps changing between polls no frame runs |
| Application.FirstResizeReadsUnsetSize | include/core/application.h:105-106 | the first resize compares against a last-seen size that was never set |
| Application.RecreateWaitsForRestore | src/engine/core/application.cpp:348-352 | a recreate request waits while minimised and is honoured on the first poll after restore |
| Application.UpdateBase | src/engine/core/application.cpp:158-166 | the application frame runs exactly when `handle_events` allows it |

## Left out

- Floating-point maths, glm and Vulkan: vectors are stored reals, matrices and quaternions are unevaluated terms, and GPU objects are the records written to them.
- Whether a material is emissive is a parameter (`isEmissive`), because the material class is not part of this model.
- The material's texture accessors (`albedo_texture()` and the like, in material.h, which is not part of this model) are taken to return the texture-list entry at the role's array index, and nothing when the role has no info or the index is out of range (`Types.RoleTexture`); the registration pass and `Assets.RoleResolves` rest on this reading.
- Path resolution (`relative_resource_path`), `glm::decompose` and the Euler-angle extraction are parameters of the serialiser and the loader.
- `restart_bake` is taken to zero the tile index and sample count; its header is not part of this model.
- The size of one TLAS instance record and `MAX_SCENE_MESH_COUNT` are parameters of `Tlas`, because neither is defined in the modelled files.
- The escape key code is GLFW's 256; GLFW itself, polling, mouse movement, scrolling and frame timing are not modelled.
- `m_last_width`, `m_last_height`, `m_keys` and `m_mouse_buttons` are never initialised in the source, so `Application.Initial` takes their contents from the caller.
- Application.Initial: requires the caller-supplied last size to fit in 32 bits, since the source stores it in `uint32_t`.
- PathIntegrator.TileCount: models `ceilf(float(n) / TILE_SIZE)` as an exact integer ceiling; float rounding of very large extents is not modelled.
- PathIntegrator.Render: the tile index and sample counter are unbounded; their 32-bit wrap-around is not modelled.
- Assets.LoadMesh: requires every submesh's index range and vertex offsets to stay inside the mesh, because the source indexes the vertex array unchecked and is undefined otherwise.
- Assets.LoadMesh: requires no more material paths than material slots. The loader sizes the slot list by the mesh's materials and then fills it from the material paths (resource_manager.cpp:444 and 475-476), so extra paths would write out of bounds.
- Registrar.RegisterPass: requires every listed mesh instance to hold a mesh whose material slots resolve, because the source dereferences them unchecked.
- SceneUpdate.Update: requires, on frames that upload (forced or not ready), the light lists to hold only nodes of their kind, which the C++ types guarantee, and every listed mesh instance to hold a mesh whose submesh material indices are in range and whose materials are present, because the registration pass dereferences them unchecked.
- Upload.CreateGpuResources: the transforms-updated branch is modelled but unreachable, since no node ever sets that state.
- Editor.CreateNewNode: the selected node is named by its path from the scene root instead of a shared pointer; a selected node that is no longer reachable from the root is a path the root does not reach, and the new child it gains outside the scene is not modelled.
- Upload.OtherLightsOrder: a spot record holds the cone angles in degrees, not the cosines of their radians that the source writes, because floating-point evaluation is not modelled; the direction and position are terms, not evaluated vectors, for the same reason.
- ImGui is not modelled: the values an inspector panel holds after the user's input are the `Editor.Panel` argument of `Editor.InspectorEdit`.
- The editor's `force_update` after browsing a new mesh, material override or IBL image (main.cpp:705-707, 731-733, 963-965) is not modelled alongside `Editor.InspectorEdit`; the setters themselves are `SceneGraph.SetMesh`, `SetMaterialOverride` and `SetImage`.
- Alpha masks, vertex attributes other than the submesh tag, and the sky model's parameters are not modelled.
- The legacy renderer's other passes and the viewer application are not modelled.

=== FILE: application.dfy ===
/** The platform side of an application (src/engine/core/application.cpp and
    include/core/application.h): the window-event flags that decide whether a frame runs,
    the resize debounce, and the key and mouse-button state arrays.

    GLFW is not modelled: its callbacks become functions over the application state, and
    `glfwPollEvents` is whatever sequence of those the caller applies before `HandleEvents`.
    The overridable hooks (`key_pressed`, `window_resized`, …) are reported as the hook a
    call would invoke. */
module Application {
  import opened Types

  /** `MAX_KEYS` and `MAX_MOUSE_BUTTONS`. */
  const MaxKeys: nat := 1024
  const MaxMouseButtons: nat := 5

  /** GLFW's key code for escape. */
  const KeyEscape: int := 256

  /** The window size the callbacks receive is a signed `int` stored into `uint32_t`. */
  const U32Modulus: nat := 0x1_0000_0000

  function ToU32(x: int): (r: nat)
    ensures r < U32Modulus && (0 <= x < U32Modulus ==> r == x)
  {
    x % U32Modulus
  }

  /** `Settings`, and the defaults an application gets unless it overrides
      `intial_settings`. */
  datatype Settings = Settings(resizable: bool, maximized: bool, enableGui: bool, width: int, height: int, title: string)

  const DefaultSettings: Settings := Settings(true, false, false, 800, 600, "")

  datatype Action = Release | Press | Repeat

  /** The overridable hook a callback invokes. */
  datatype Hook =
    | KeyPressed(key: nat)
    | KeyReleased(key: nat)
    | MousePressed(button: nat)
    | MouseReleased(button: nat)
    | WindowResized

  datatype App = App(
    width: nat,
    height: nat,
    lastWidth: nat,
    lastHeight: nat,
    resizeInProgress: bool,
    minimized: bool,
    recreateSwapChain: bool,
    keys: seq<bool>,
    mouseButtons: seq<bool>,
    shouldClose: bool)

  predicate WellFormed(app: App) {
    |app.keys| == MaxKeys && |app.mouseButtons| == MaxMouseButtons
  }

  /** The state once `init_base` has run: the size is the framebuffer's and every flag
      is clear. Neither the last-seen size nor the key and button arrays are initialised
      by the source, so the caller supplies whatever they held. */
  function Initial(framebufferWidth: int, framebufferHeight: int, lastWidth: nat, lastHeight: nat, keys: seq<bool>, mouseButtons: seq<bool>): (app: App)
    requires |keys| == MaxKeys && |mouseButtons| == MaxMouseButtons
    requires lastWidth < U32Modulus && lastHeight < U32Modulus
    ensures WellFormed(app)
    ensures !app.resizeInProgress && !app.minimized && !app.recreateSwapChain && !app.shouldClose
  {
    App(ToU32(framebufferWidth), ToU32(framebufferHeight), lastWidth, lastHeight, false, false, false, keys, mouseButtons, false)
  }

  /** `window_size_callback`: the new size is recorded, and both the swap-chain recreation
      and the resize-in-progress flags are raised. */
  function WindowSizeCallback(app: App, width: int, height: int): (r: App)
    ensures r.width == ToU32(width) && r.height == ToU32(height)
    ensures r.recreateSwapChain && r.resizeInProgress
    ensures r.(width := app.width, height := app.height, recreateSwapChain := app.recreateSwapChain,
               resizeInProgress := app.resizeInProgress) == app
  {
    app.(width := ToU32(width), height := ToU32(height), recreateSwapChain := true, resizeInProgress := true)
  }

  /** `window_iconify_callback`. */
  function IconifyCallback(app: App, iconified: bool): (r: App)
    ensures r.minimized == iconified && r.(minimized := app.minimized) == app
  {
    app.(minimized := iconified)
  }

  /** The shared shape of the key and mouse-button callbacks: codes outside the array are
      ignored, a press sets the entry and a release clears it, and each reports its hook. */
  function SetButton(states: seq<bool>, code: int, action: Action): (r: seq<bool>)
    ensures |r| == |states|
    ensures forall i :: 0 <= i < |states| ==>
              r[i] == if i == code && action == Press then true
                      else if i == code && action == Release then false
                      else states[i]
  {
    if 0 <= code < |states| && action != Repeat then states[code := action == Press] else states
  }

  datatype Input = Input(app: App, hook: Option<Hook>)

  /** `key_callback`: an escape press asks the window to close, whatever the key array
      holds; keys inside the array update their entry and invoke the matching hook. */
  function KeyCallback(app: App, key: int, action: Action): (r: Input)
    requires WellFormed(app)
    ensures WellFormed(r.app)
    ensures r.app.shouldClose <==> app.shouldClose || (key == KeyEscape && action == Press)
    ensures r.app.keys == SetButton(app.keys, key, action)
    ensures r.app.(keys := app.keys, shouldClose := app.shouldClose) == app
    ensures r.hook.Some? <==> 0 <= key < MaxKeys && action != Repeat
    ensures r.hook.Some? ==> r.hook.value == if action == Press then KeyPressed(key) else KeyReleased(key)
  {
    var close := app.shouldClose || (key == KeyEscape && action == Press);
    var hook := if 0 <= key < MaxKeys && action == Press then Some(KeyPressed(key))
                else if 0 <= key < MaxKeys && action == Release then Some(KeyReleased(key))
                else None;
    Input(app.(keys := SetButton(app.keys, key, action), shouldClose := close), hook)
  }

  /** `mouse_button_callback`: buttons outside the array are ignored. */
  function MouseButtonCallback(app: App, button: int, action: Action): (r: Input)
    requires WellFormed(app)
    ensures WellFormed(r.app)
    ensures r.app.mouseButtons == SetButton(app.mouseButtons, button, action)
    ensures r.app.(mouseButtons := app.mouseButtons) == app
    ensures r.hook.Some? <==> 0 <= button < MaxMouseButtons && action != Repeat
    ensures r.hook.Some? ==> r.hook.value == if action == Press then MousePressed(button) else MouseReleased(button)
  {
    var hook := if 0 <= button < MaxMouseButtons && action == Press then Some(MousePressed(button))
                else if 0 <= button < MaxMouseButtons && action == Release then Some(MouseReleased(button))
                else None;
    Input(app.(mouseButtons := SetButton(app.mouseButtons, button, action)), hook)
  }

  /** The entry a code holds after a run of events: the last press or release of that
      code decides, and with none it keeps what it held. */
  function LastState(initial: bool, code: nat, events: seq<(int, Action)>): (b: bool)
    decreases |events|
  {
    if events == [] then initial
    else
      var e := events[|events| - 1];
      if e.0 == code && e.1 == Press then true
      else if e.0 == code && e.1 == Release then false
      else LastState(initial, code, events[..|events| - 1])
  }

  /** After any run of key (or button) events, each entry holds the outcome of the last
      press or release of its code, and codes outside the array never disturb it. */
  function ApplyButtons(states: seq<bool>, events: seq<(int, Action)>): (r: seq<bool>)
    ensures |r| == |states|
    ensures forall i :: 0 <= i < |states| ==> r[i] == LastState(states[i], i, events)
    decreases |events|
  {
    if events == [] then states
    else SetButton(ApplyButtons(states, events[..|events| - 1]), events[|events| - 1].0, events[|events| - 1].1)
  }

  /** The outcome of `handle_events` after the events were applied. */
  datatype Polled = Polled(app: App, runFrame: bool, recreated: bool, resized: bool)

  /** `handle_events`: the swap chain is recreated if asked for and the window is not
      minimised; a resize in progress completes only when the size equals the one seen on
      the previous poll, and until then the size seen is remembered; a frame runs exactly
      when the window is neither minimised nor being resized. */
  function HandleEvents(app: App): (r: Polled)
    ensures r.recreated <==> !app.minimized && app.recreateSwapChain
    ensures r.app.recreateSwapChain <==> app.recreateSwapChain && !r.recreated
    ensures r.resized <==> app.resizeInProgress && app.width == app.lastWidth && app.height == app.lastHeight
    ensures r.app.resizeInProgress <==> app.resizeInProgress && !r.resized
    ensures app.resizeInProgress ==> r.app.lastWidth == app.width && r.app.lastHeight == app.height
    ensures !app.resizeInProgress ==> r.app.lastWidth == app.lastWidth && r.app.lastHeight == app.lastHeight
    ensures r.runFrame <==> !r.app.minimized && !r.app.resizeInProgress
    ensures r.app.(recreateSwapChain := app.recreateSwapChain, resizeInProgress := app.resizeInProgress,
                   lastWidth := app.lastWidth, lastHeight := app.lastHeight) == app
  {
    var recreated := !app.minimized && app.recreateSwapChain;
    var a := if recreated then app.(recreateSwapChain := false) else app;
    var resized := a.resizeInProgress && a.width == a.lastWidth && a.height == a.lastHeight;
    var a := if resized then a.(resizeInProgress := false) else a;
    var a := if app.resizeInProgress then a.(lastWidth := a.width, lastHeight := a.height) else a;
    Polled(a, !a.minimized && !a.resizeInProgress, recreated, resized)
  }

  /** The debounce: once the window stops changing size, the resize completes on the
      first or the second poll, `window_resized` fires exactly once, and frames resume
      unless the window is minimised. */
  lemma ResizeSettles(app: App, width: int, height: int)
    ensures var first := HandleEvents(WindowSizeCallback(app, width, height));
            var second := HandleEvents(first.app);
            var third := HandleEvents(second.app);
            (first.resized || second.resized) && !(first.resized && second.resized) && !third.resized
            && !second.app.resizeInProgress
            && (second.runFrame <==> !app.minimized)
  {
  }

  /** While a resize is in progress no frame runs, and a size that keeps changing between
      polls keeps it in progress. */
  lemma ResizeHoldsWhileChanging(app: App, width: int, height: int)
    requires app.resizeInProgress && (ToU32(width) != app.lastWidth || ToU32(height) != app.lastHeight)
    ensures var r := HandleEvents(app.(width := ToU32(width), height := ToU32(height)));
            !r.resized && !r.runFrame && r.app.resizeInProgress
  {
  }

  /** The remembered size starts unset: when whatever it held happens to equal the first
      resize's size, that resize completes on the very first poll. */
  lemma FirstResizeReadsUnsetSize(framebufferWidth: int, framebufferHeight: int, keys: seq<bool>, mouseButtons: seq<bool>, width: nat, height: nat)
    requires |keys| == MaxKeys && |mouseButtons| == MaxMouseButtons
    requires width < U32Modulus && height < U32Modulus
    ensures var app := Initial(framebufferWidth, framebufferHeight, width, height, keys, mouseButtons);
            HandleEvents(WindowSizeCallback(app, width, height)).resized
  {
  }

  /** A swap-chain recreation request waits while the window is minimised, and is
      honoured on the first poll after it is restored. */
  lemma RecreateWaitsForRestore(app: App)
    requires app.recreateSwapChain && app.minimized
    ensures var waiting := HandleEvents(app);
            !waiting.recreated && waiting.app.recreateSwapChain && !waiting.runFrame
            && HandleEvents(IconifyCallback(waiting.app, false)).recreated
  {
  }

  /** `update_base`: the application's frame (begin, `update`, end) runs exactly when
      `handle_events` allows it. */
  function UpdateBase(app: App): (r: (App, bool))
    ensures r.1 <==> !app.minimized && !(app.resizeInProgress && (app.width != app.lastWidth || app.height != app.lastHeight))
    ensures r.0 == HandleEvents(app).app
  {
    var polled := HandleEvents(app);
    (polled.app, polled.runFrame)
  }
}

=== FILE: assets.dfy ===
/** The resource manager (src/engine/core/resource_manager.cpp): image-format selection,
    the path-keyed caches of textures, cubemaps, materials and meshes, material assembly
    from a material description, mesh assembly with per-vertex submesh tags, and the
    construction of a node tree from a scene description.

    The files on disk and their parsers are a `Disk`: a map from the caller's path to the
    parsed description, a missing key standing for a failed load. Path resolution
    (`path_for_resource`, absolute paths) is not modelled: the caller's path names the
    resource. Every created resource takes the next id of the manager's counter. */
module Assets {
  import opened Types
  import opened SceneGraph

  // ---------------------------------------------------------------------------------------
  // Image format selection (resource_manager.cpp:14-67)
  // ---------------------------------------------------------------------------------------

  datatype PixelType = PixelUnorm8 | PixelFloat16 | PixelFloat32

  datatype VkFormat =
    | Undefined
    | R8Snorm | R8G8Snorm | R8G8B8Snorm | R8G8B8A8Snorm
    | R16Sfloat | R16G16Sfloat | R16G16B16Sfloat | R16G16B16A16Sfloat
    | R32Sfloat | R32G32Sfloat | R32G32B32Sfloat | R32G32B32A32Sfloat
    | R8G8B8Srgb | R8G8B8A8Srgb
    | Bc1RgbUnorm | Bc1RgbSrgb | Bc1RgbaUnorm | Bc1RgbaSrgb
    | Bc2Unorm | Bc2Srgb | Bc3Unorm | Bc3Srgb
    | Bc4Unorm | Bc5Unorm | Bc6hSfloat | Bc7Unorm | Bc7Srgb

  /** `kCompressedFormats`: (linear, sRGB) per compression type; row 0 is "no compression". */
  const CompressedFormats: seq<seq<VkFormat>> := [
    [Undefined, Undefined],
    [Bc1RgbUnorm, Bc1RgbSrgb],
    [Bc1RgbaUnorm, Bc1RgbaSrgb],
    [Bc2Unorm, Bc2Srgb],
    [Bc3Unorm, Bc3Srgb],
    [Bc3Unorm, Bc3Srgb],
    [Bc4Unorm, Undefined],
    [Bc5Unorm, Undefined],
    [Bc6hSfloat, Undefined],
    [Bc7Unorm, Bc7Srgb],
    [Undefined, Undefined],
    [Undefined, Undefined],
    [Undefined, Undefined]]

  /** `kNonSRGBFormats`: by pixel row, then component count - 1. */
  const NonSrgbFormats: seq<seq<VkFormat>> := [
    [R8Snorm, R8G8Snorm, R8G8B8Snorm, R8G8B8A8Snorm],
    [R16Sfloat, R16G16Sfloat, R16G16B16Sfloat, R16G16B16A16Sfloat],
    [R32Sfloat, R32G32Sfloat, R32G32B32Sfloat, R32G32B32A32Sfloat]]

  /** `kSRGBFormats`: only 8-bit three- and four-component images have an sRGB format. */
  const SrgbFormats: seq<seq<VkFormat>> := [
    [Undefined, Undefined, R8G8B8Srgb, R8G8B8A8Srgb],
    [Undefined, Undefined, Undefined, Undefined],
    [Undefined, Undefined, Undefined, Undefined]]

  /** A parsed image: pixel type, component count and compression type (0 = none). */
  datatype AstImage = AstImage(pixelType: PixelType, components: nat, compression: nat)

  /** The table row of a pixel type: 16-bit floats row 1, 32-bit floats row 2, else row 0. */
  function PixelRow(t: PixelType): (row: nat)
    ensures row < 3
  {
    if t == PixelFloat16 then 1 else if t == PixelFloat32 then 2 else 0
  }

  /** The tables are indexed without checks: an uncompressed image has one to four
      components and a compression type is a row of the compressed table. */
  predicate FormatIndexable(img: AstImage) {
    img.compression < |CompressedFormats| && (img.compression == 0 ==> 1 <= img.components <= 4)
  }

  /** The format `create_image` picks. */
  function ImageFormat(img: AstImage, srgb: bool): (f: VkFormat)
    requires FormatIndexable(img)
    ensures img.compression == 0 && !srgb ==> f != Undefined
    ensures img.compression == 0 && srgb ==>
              (f != Undefined <==> img.pixelType == PixelUnorm8 && img.components >= 3)
  {
    if img.compression == 0 then
      if srgb then SrgbFormats[PixelRow(img.pixelType)][img.components - 1]
      else NonSrgbFormats[PixelRow(img.pixelType)][img.components - 1]
    else CompressedFormats[img.compression][if srgb then 1 else 0]
  }

  /** A compressed image has a defined format exactly for the block formats the table
      lists; asking for sRGB leaves BC4, BC5 and BC6H undefined. */
  lemma CompressedFormatDefined(img: AstImage, srgb: bool)
    requires FormatIndexable(img) && img.compression > 0
    ensures ImageFormat(img, srgb) != Undefined <==> (1 <= img.compression <= 5 || img.compression == 9 || (!srgb && 6 <= img.compression <= 8))
  {
  }

  // ---------------------------------------------------------------------------------------
  // Parsed descriptions
  // ---------------------------------------------------------------------------------------

  datatype AstTextureType = TexAlbedo | TexEmissive | TexNormal | TexMetallic | TexRoughness | TexOther

  datatype AstTexture = AstTexture(textureType: AstTextureType, path: string, srgb: bool, channel: int)

  datatype AstPropertyType = PropAlbedo | PropEmissive | PropMetallic | PropRoughness | PropOther

  datatype AstProperty = AstProperty(propertyType: AstPropertyType, vec4: Rgba, floatValue: real)

  datatype AstMaterial = AstMaterial(textures: seq<AstTexture>, properties: seq<AstProperty>)

  datatype AstSubMesh = AstSubMesh(name: string, materialIndex: nat, indexCount: nat, vertexCount: nat, baseVertex: nat, baseIndex: nat)

  /** A parsed mesh: vertex count, index list, submeshes, the number of material slots and
      the material paths to load into the first slots. */
  datatype AstMesh = AstMesh(vertexCount: nat, indices: seq<nat>, submeshes: seq<AstSubMesh>, materialSlots: nat, materialPaths: seq<string>)

  datatype Disk = Disk(
    images: map<string, AstImage>,
    materials: map<string, AstMaterial>,
    meshes: map<string, AstMesh>)

  /** The manager's caches and the resource-id counter. */
  datatype Manager = Manager(
    textures2d: map<string, Texture>,
    texturesCube: map<string, Cubemap>,
    materials: map<string, Material>,
    meshes: map<string, Mesh>,
    nextId: nat)

  /** Everything but the named cache and the counter is left alone. */
  predicate OnlyTextures(m: Manager, r: Manager) {
    r.texturesCube == m.texturesCube && r.materials == m.materials && r.meshes == m.meshes
  }

  // ---------------------------------------------------------------------------------------
  // Texture caches (resource_manager.cpp:226-296)
  // ---------------------------------------------------------------------------------------

  datatype LoadedTexture = LoadedTexture(manager: Manager, texture: Option<Texture>)

  /** `load_texture_2d_internal`: a cached path returns the stored texture whatever sRGB
      flag is asked for; otherwise a loadable image becomes a new texture stored under the
      caller's path, and a failed load stores nothing. */
  function LoadTexture2D(m: Manager, disk: Disk, path: string, srgb: bool): (r: LoadedTexture)
    ensures path in m.textures2d ==> r == LoadedTexture(m, Some(m.textures2d[path]))
    ensures path !in m.textures2d ==> (r.texture.Some? <==> path in disk.images)
    ensures path !in m.textures2d && r.texture.Some? ==>
              r.texture.value == Texture(m.nextId, path)
              && r.manager == m.(textures2d := m.textures2d[path := r.texture.value], nextId := m.nextId + 1)
    ensures r.texture.None? ==> r.manager == m
    ensures r.manager.nextId >= m.nextId && OnlyTextures(m, r.manager)
  {
    if path in m.textures2d then LoadedTexture(m, Some(m.textures2d[path]))
    else if path in disk.images then
      var t := Texture(m.nextId, path);
      LoadedTexture(m.(textures2d := m.textures2d[path := t], nextId := m.nextId + 1), Some(t))
    else LoadedTexture(m, None)
  }

  /** Loading a path twice: the second load is a cache hit when the first succeeded, and
      it returns the same texture and leaves the manager as the first load left it. */
  lemma LoadTexture2DTwice(m: Manager, disk: Disk, path: string, srgb1: bool, srgb2: bool)
    ensures var a := LoadTexture2D(m, disk, path, srgb1);
            var b := LoadTexture2D(a.manager, disk, path, srgb2);
            b.texture == a.texture && (a.texture.Some? ==> b.manager == a.manager)
  {
  }

  datatype LoadedCubemap = LoadedCubemap(manager: Manager, cubemap: Option<Cubemap>)

  /** `load_texture_cube_internal`, with its own cache. */
  function LoadTextureCube(m: Manager, disk: Disk, path: string): (r: LoadedCubemap)
    ensures path in m.texturesCube ==> r == LoadedCubemap(m, Some(m.texturesCube[path]))
    ensures path !in m.texturesCube ==> (r.cubemap.Some? <==> path in disk.images)
    ensures path !in m.texturesCube && r.cubemap.Some? ==>
              r.cubemap.value == Cubemap(m.nextId, path)
              && r.manager == m.(texturesCube := m.texturesCube[path := r.cubemap.value], nextId := m.nextId + 1)
    ensures r.cubemap.None? ==> r.manager == m
  {
    if path in m.texturesCube then LoadedCubemap(m, Some(m.texturesCube[path]))
    else if path in disk.images then
      var c := Cubemap(m.nextId, path);
      LoadedCubemap(m.(texturesCube := m.texturesCube[path := c], nextId := m.nextId + 1), Some(c))
    else LoadedCubemap(m, None)
  }

  lemma LoadTextureCubeTwice(m: Manager, disk: Disk, path: string)
    ensures var a := LoadTextureCube(m, disk, path);
            var b := LoadTextureCube(a.manager, disk, path);
            b.cubemap == a.cubemap && (a.cubemap.Some? ==> b.manager == a.manager)
  {
  }

  // ---------------------------------------------------------------------------------------
  // Cache growth
  // ---------------------------------------------------------------------------------------

  /** The entry a cache holds for a path, if any. */
  function Resolve<V>(cache: map<string, V>, path: string): (r: Option<V>)
    ensures r.Some? <==> path in cache
    ensures r.Some? ==> r.value == cache[path]
  {
    if path in cache then Some(cache[path]) else None
  }

  /** `b` keeps every entry of `a` unchanged and adds entries only for paths in `source`. */
  ghost predicate Extends<V>(a: map<string, V>, b: map<string, V>, source: set<string>) {
    (forall k :: k in a ==> k in b && b[k] == a[k])
    && (forall k :: k in b ==> k in a || k in source)
  }

  /** A path whose load was attempted is cached, or there is nothing on disk to load. */
  predicate Attempted<V>(cache: map<string, V>, path: string, source: set<string>) {
    path in cache || path !in source
  }

  /** What loading may do to the manager: every cache only gains entries for loadable
      paths, nothing cached is replaced, and the id counter only moves forward. */
  ghost predicate Grows(m: Manager, r: Manager, disk: Disk) {
    Extends(m.textures2d, r.textures2d, disk.images.Keys)
    && Extends(m.texturesCube, r.texturesCube, disk.images.Keys)
    && Extends(m.materials, r.materials, disk.materials.Keys)
    && Extends(m.meshes, r.meshes, disk.meshes.Keys)
    && m.nextId <= r.nextId
  }

  lemma GrowsTransitive(a: Manager, b: Manager, c: Manager, disk: Disk)
    requires Grows(a, b, disk) && Grows(b, c, disk)
    ensures Grows(a, c, disk)
  {
  }

  /** Once a load was attempted, what a cache resolves the path to never changes again. */
  lemma ResolveStable<V>(a: map<string, V>, b: map<string, V>, source: set<string>, path: string)
    requires Extends(a, b, source) && Attempted(a, path, source)
    ensures Resolve(b, path) == Resolve(a, path) && Attempted(b, path, source)
  {
  }

  lemma LoadTexture2DGrows(m: Manager, disk: Disk, path: string, srgb: bool)
    ensures Grows(m, LoadTexture2D(m, disk, path, srgb).manager, disk)
    ensures Attempted(LoadTexture2D(m, disk, path, srgb).manager.textures2d, path, disk.images.Keys)
    ensures LoadTexture2D(m, disk, path, srgb).texture == Resolve(LoadTexture2D(m, disk, path, srgb).manager.textures2d, path)
  {
  }

  // ---------------------------------------------------------------------------------------
  // Materials (resource_manager.cpp:296-424)
  // ---------------------------------------------------------------------------------------

  /** The texture role an entry fills: albedo 0, emissive 1, normal 2, metallic 3,
      roughness 4; any other texture type is skipped. */
  function RoleOf(t: AstTextureType): (r: Option<nat>)
    ensures r.None? <==> t == TexOther
    ensures r.Some? ==> r.value < 5
  {
    match t
    case TexAlbedo => Some(0)
    case TexEmissive => Some(1)
    case TexNormal => Some(2)
    case TexMetallic => Some(3)
    case TexRoughness => Some(4)
    case TexOther => None
  }

  /** The paths of the entries that fill a role, in order, repeats kept. */
  function RolePaths(texs: seq<AstTexture>): seq<string>
    decreases |texs|
  {
    if |texs| == 0 then []
    else
      var t := texs[|texs| - 1];
      RolePaths(texs[..|texs| - 1]) + (if RoleOf(t.textureType).Some? then [t.path] else [])
  }

  /** The last entry that fills `role`: each role is assigned on every entry of its type,
      so the last one decides. */
  function LastOfRole(texs: seq<AstTexture>, role: nat): (r: Option<AstTexture>)
    ensures r.Some? ==> RoleOf(r.value.textureType) == Some(role) && r.value in texs
    decreases |texs|
  {
    if |texs| == 0 then None
    else if RoleOf(texs[|texs| - 1].textureType) == Some(role) then Some(texs[|texs| - 1])
    else LastOfRole(texs[..|texs| - 1], role)
  }

  lemma {:induction false} LastOfRoleListed(texs: seq<AstTexture>, role: nat)
    requires LastOfRole(texs, role).Some?
    ensures LastOfRole(texs, role).value.path in RolePaths(texs)
    decreases |texs|
  {
    if RoleOf(texs[|texs| - 1].textureType) != Some(role) {
      LastOfRoleListed(texs[..|texs| - 1], role);
    }
  }

  /** The info a role ends up with: the position in the material's texture list of the
      last entry's path, and that entry's channel. */
  function RoleInfo(texs: seq<AstTexture>, paths: seq<string>, role: nat): Option<TextureInfo> {
    match LastOfRole(texs, role)
    case None => None
    case Some(t) => Some(TextureInfo(IndexOf(paths, t.path), t.channel))
  }

  /** The texture a role resolves to once the material exists. */
  function RoleTextureOf(texs: seq<AstTexture>, cache: map<string, Texture>, role: nat): Option<Texture> {
    match LastOfRole(texs, role)
    case None => None
    case Some(t) => Resolve(cache, t.path)
  }

  lemma RolePathsSnoc(texs: seq<AstTexture>, i: nat)
    requires i < |texs|
    ensures RolePaths(texs[..i + 1]) == RolePaths(texs[..i]) + (if RoleOf(texs[i].textureType).Some? then [texs[i].path] else [])
    ensures forall role: nat :: LastOfRole(texs[..i + 1], role) == if RoleOf(texs[i].textureType) == Some(role) then Some(texs[i]) else LastOfRole(texs[..i], role)
  {
    assert texs[..i + 1][..i] == texs[..i];
  }

  /** The loaded texture list, its paths and the path-to-slot map agree: each slot holds
      what the cache resolves its path to, and the map sends each path to its slot. */
  ghost predicate PathsLoaded(m: Manager, disk: Disk, r: Manager, textures: seq<Option<Texture>>, paths: seq<string>, indexMap: map<string, nat>) {
    |textures| == |paths|
    && (forall j :: 0 <= j < |paths| ==> textures[j] == Resolve(r.textures2d, paths[j]))
    && (forall j :: 0 <= j < |paths| ==> Attempted(r.textures2d, paths[j], disk.images.Keys))
    && (forall j :: 0 <= j < |paths| ==> paths[j] in indexMap && indexMap[paths[j]] == j)
    && (forall p :: p in indexMap ==> p in paths)
    && Grows(m, r, disk) && OnlyTextures(m, r)
  }

  /** Loading a path the map does not hold and pushing it keeps the three in agreement. */
  lemma PathsLoadedSnoc(m: Manager, disk: Disk, r: Manager, textures: seq<Option<Texture>>, paths: seq<string>, indexMap: map<string, nat>, path: string, srgb: bool)
    requires PathsLoaded(m, disk, r, textures, paths, indexMap) && path !in indexMap
    ensures var loaded := LoadTexture2D(r, disk, path, srgb);
            PathsLoaded(m, disk, loaded.manager, textures + [loaded.texture], paths + [path], indexMap[path := |paths|])
  {
    var loaded := LoadTexture2D(r, disk, path, srgb);
    var r', textures', paths', indexMap' := loaded.manager, textures + [loaded.texture], paths + [path], indexMap[path := |paths|];
    LoadTexture2DGrows(r, disk, path, srgb);
    GrowsTransitive(m, r, r', disk);
    forall j | 0 <= j < |paths'|
      ensures textures'[j] == Resolve(r'.textures2d, paths'[j])
      ensures Attempted(r'.textures2d, paths'[j], disk.images.Keys)
      ensures paths'[j] in indexMap' && indexMap'[paths'[j]] == j
    {
      if j < |paths| {
        assert paths[j] != path;
        ResolveStable(r.textures2d, r'.textures2d, disk.images.Keys, paths[j]);
      }
    }
    forall p | p in indexMap'
      ensures p in paths'
    {
      if p != path {
        assert p in paths;
      }
    }
  }

  /** The `texture_index_map` test and push for one role entry. */
  method AddPath(m: Manager, disk: Disk, r: Manager, textures: seq<Option<Texture>>, paths: seq<string>, indexMap: map<string, nat>, path: string, srgb: bool)
    returns (r': Manager, textures': seq<Option<Texture>>, paths': seq<string>, indexMap': map<string, nat>)
    requires PathsLoaded(m, disk, r, textures, paths, indexMap)
    ensures PathsLoaded(m, disk, r', textures', paths', indexMap')
    ensures paths' == if path in paths then paths else paths + [path]
    ensures path in indexMap' && indexMap'[path] == IndexOf(paths', path)
  {
    if path in indexMap {
      r', textures', paths', indexMap' := r, textures, paths, indexMap;
    } else {
      var loaded := LoadTexture2D(r, disk, path, srgb);
      PathsLoadedSnoc(m, disk, r, textures, paths, indexMap, path, srgb);
      r' := loaded.manager;
      textures' := textures + [loaded.texture];
      paths' := paths + [path];
      indexMap' := indexMap[path := |paths|];
    }
    IndexOfCharacterised(paths', path, indexMap'[path]);
  }

  ghost predicate InfosAre(infos: seq<Option<TextureInfo>>, pre: seq<AstTexture>, paths: seq<string>) {
    |infos| == 5 && forall role :: 0 <= role < 5 ==> infos[role] == RoleInfo(pre, paths, role)
  }

  /** One role entry overwrites its role's info and leaves the others pointing at the same
      paths, whose slots do not move when a new path is pushed. */
  lemma InfosStep(texs: seq<AstTexture>, i: nat, paths: seq<string>, infos: seq<Option<TextureInfo>>, role: nat)
    requires i < |texs| && RoleOf(texs[i].textureType) == Some(role)
    requires InfosAre(infos, texs[..i], paths) && paths == Dedup(RolePaths(texs[..i]))
    ensures var paths' := if texs[i].path in paths then paths else paths + [texs[i].path];
            InfosAre(infos[role := Some(TextureInfo(IndexOf(paths', texs[i].path), texs[i].channel))], texs[..i + 1], paths')
  {
    var t := texs[i];
    var paths' := if t.path in paths then paths else paths + [t.path];
    var infos' := infos[role := Some(TextureInfo(IndexOf(paths', t.path), t.channel))];
    RolePathsSnoc(texs, i);
    forall k | 0 <= k < 5
      ensures infos'[k] == RoleInfo(texs[..i + 1], paths', k)
    {
      var last := LastOfRole(texs[..i], k);
      if k != role && last.Some? {
        LastOfRoleListed(texs[..i], k);
        IndexOfSnoc(paths, t.path, last.value.path);
      }
    }
  }

  /** An entry of another type changes neither the paths nor any info. */
  lemma SkipStep(texs: seq<AstTexture>, i: nat, paths: seq<string>, infos: seq<Option<TextureInfo>>)
    requires i < |texs| && RoleOf(texs[i].textureType).None?
    requires InfosAre(infos, texs[..i], paths) && paths == Dedup(RolePaths(texs[..i]))
    ensures InfosAre(infos, texs[..i + 1], paths) && paths == Dedup(RolePaths(texs[..i + 1]))
  {
    RolePathsSnoc(texs, i);
    assert RolePaths(texs[..i + 1]) == RolePaths(texs[..i]) + [] == RolePaths(texs[..i]);
    assert Dedup(RolePaths(texs[..i + 1])) == Dedup(RolePaths(texs[..i]));
  }

  /** The first loop of `load_material_internal`: each distinct path of a role entry is
      loaded once, in first-appearance order, and its slot is pushed even when the load
      fails; every role entry overwrites its role's info. */
  method LoadMaterialTextures(m: Manager, disk: Disk, texs: seq<AstTexture>)
    returns (r: Manager, textures: seq<Option<Texture>>, paths: seq<string>, infos: seq<Option<TextureInfo>>)
    ensures paths == Dedup(RolePaths(texs))
    ensures |textures| == |paths|
    ensures forall j :: 0 <= j < |paths| ==> textures[j] == Resolve(r.textures2d, paths[j])
    ensures forall j :: 0 <= j < |paths| ==> Attempted(r.textures2d, paths[j], disk.images.Keys)
    ensures |infos| == 5
    ensures forall role :: 0 <= role < 5 ==> infos[role] == RoleInfo(texs, paths, role)
    ensures Grows(m, r, disk) && OnlyTextures(m, r)
  {
    var indexMap;
    r, textures, paths, indexMap, infos := TextureLoop(m, disk, texs);
  }

  method TextureLoop(m: Manager, disk: Disk, texs: seq<AstTexture>)
    returns (r: Manager, textures: seq<Option<Texture>>, paths: seq<string>, indexMap: map<string, nat>, infos: seq<Option<TextureInfo>>)
    ensures paths == Dedup(RolePaths(texs))
    ensures PathsLoaded(m, disk, r, textures, paths, indexMap)
    ensures InfosAre(infos, texs, paths)
  {
    r := m;
    textures := [];
    paths := [];
    infos := [None, None, None, None, None];
    indexMap := map[];
    var i := 0;
    while i < |texs|
      invariant 0 <= i <= |texs|
      invariant paths == Dedup(RolePaths(texs[..i]))
      invariant PathsLoaded(m, disk, r, textures, paths, indexMap)
      invariant InfosAre(infos, texs[..i], paths)
    {
      var t := texs[i];
      var role := RoleOf(t.textureType);
      if role.Some? {
        InfosStep(texs, i, paths, infos, role.value);
        RolePathsSnoc(texs, i);
        DedupSnoc(RolePaths(texs[..i]), t.path);
        r, textures, paths, indexMap := AddPath(m, disk, r, textures, paths, indexMap, t.path, t.srgb);
        infos := infos[role.value := Some(TextureInfo(indexMap[t.path], t.channel))];
      } else {
        SkipStep(texs, i, paths, infos);
      }
      i := i + 1;
    }
    assert texs[..i] == texs;
  }

  /** The scalar and colour values of a material. */
  datatype MaterialValues = MaterialValues(albedo: Rgba, emissive: Rgba, metallic: real, roughness: real)

  /** Black albedo and emission, metallic 0, roughness 1. */
  const DefaultValues: MaterialValues := MaterialValues(Black, Black, 0.0, 1.0)

  /** One pass of the property loop: four independent tests, one per property type. */
  function ApplyProperty(v: MaterialValues, p: AstProperty): MaterialValues {
    var v := if p.propertyType == PropAlbedo then v.(albedo := p.vec4) else v;
    var v := if p.propertyType == PropEmissive then v.(emissive := p.vec4) else v;
    var v := if p.propertyType == PropMetallic then v.(metallic := p.floatValue) else v;
    if p.propertyType == PropRoughness then v.(roughness := p.floatValue) else v
  }

  /** The property loop over the whole list, starting from the defaults. */
  function ApplyProperties(props: seq<AstProperty>): MaterialValues
    decreases |props|
  {
    if |props| == 0 then DefaultValues
    else ApplyProperty(ApplyProperties(props[..|props| - 1]), props[|props| - 1])
  }

  /** The last property of a type, if the list has one. */
  function LastProperty(props: seq<AstProperty>, t: AstPropertyType): (r: Option<AstProperty>)
    ensures r.Some? ==> r.value.propertyType == t && r.value in props
    ensures r.None? ==> forall j :: 0 <= j < |props| ==> props[j].propertyType != t
    decreases |props|
  {
    if |props| == 0 then None
    else if props[|props| - 1].propertyType == t then Some(props[|props| - 1])
    else LastProperty(props[..|props| - 1], t)
  }

  /** Each value is that of the last property of its type, or its default when the list
      has none; properties of other types leave it alone. */
  lemma {:induction false} PropertiesLastWins(props: seq<AstProperty>)
    ensures var v := ApplyProperties(props);
            v.albedo == (match LastProperty(props, PropAlbedo) case Some(p) => p.vec4 case None => Black)
            && v.emissive == (match LastProperty(props, PropEmissive) case Some(p) => p.vec4 case None => Black)
            && v.metallic == (match LastProperty(props, PropMetallic) case Some(p) => p.floatValue case None => 0.0)
            && v.roughness == (match LastProperty(props, PropRoughness) case Some(p) => p.floatValue case None => 1.0)
    decreases |props|
  {
    if |props| > 0 {
      PropertiesLastWins(props[..|props| - 1]);
    }
  }

  /** The material `load_material_internal` builds from a description: the role infos go
      to the albedo, normal, metallic, roughness and emissive slots of `Material::create`. */
  function BuildMaterial(id: nat, path: string, textures: seq<Option<Texture>>, infos: seq<Option<TextureInfo>>, v: MaterialValues): Material
    requires |infos| == 5
  {
    Material(id, path, textures, infos[0], infos[2], infos[3], infos[4], infos[1], v.albedo, v.emissive, v.metallic, v.roughness)
  }

  /** What a material's texture role resolves to: the texture cached under the path of
      the last entry for that role. */
  lemma RoleResolves(texs: seq<AstTexture>, cache: map<string, Texture>, paths: seq<string>, textures: seq<Option<Texture>>, role: nat, mat: Material, info: Option<TextureInfo>)
    requires paths == Dedup(RolePaths(texs)) && |textures| == |paths|
    requires forall j :: 0 <= j < |paths| ==> textures[j] == Resolve(cache, paths[j])
    requires mat.textures == textures && info == RoleInfo(texs, paths, role)
    ensures RoleTexture(mat, info) == RoleTextureOf(texs, cache, role)
  {
    if LastOfRole(texs, role).Some? {
      LastOfRoleListed(texs, role);
    }
  }

  datatype LoadedMaterial = LoadedMaterial(manager: Manager, material: Option<Material>)

  /** `load_material_internal`: a cached path returns the stored material; otherwise a
      material description on disk becomes a new material stored under the caller's path,
      whose roles resolve to the last texture entry of each role and whose values follow
      the last property of each type. */
  method LoadMaterial(m: Manager, disk: Disk, path: string) returns (r: LoadedMaterial)
    ensures path in m.materials ==> r == LoadedMaterial(m, Some(m.materials[path]))
    ensures path !in m.materials ==> (r.material.Some? <==> path in disk.materials)
    ensures r.material.None? ==> r.manager == m
    ensures r.material == Resolve(r.manager.materials, path)
    ensures Attempted(r.manager.materials, path, disk.materials.Keys)
    ensures Grows(m, r.manager, disk) && r.manager.meshes == m.meshes && r.manager.texturesCube == m.texturesCube
    ensures path !in m.materials && r.material.Some? ==>
              var mat := r.material.value;
              var ast := disk.materials[path];
              mat.id >= m.nextId && mat.path == path
              && |mat.textures| == |Dedup(RolePaths(ast.textures))|
              && (forall j :: 0 <= j < |mat.textures| ==>
                    mat.textures[j] == Resolve(r.manager.textures2d, Dedup(RolePaths(ast.textures))[j]))
              && mat.albedoInfo == RoleInfo(ast.textures, Dedup(RolePaths(ast.textures)), 0)
              && mat.emissiveInfo == RoleInfo(ast.textures, Dedup(RolePaths(ast.textures)), 1)
              && mat.normalInfo == RoleInfo(ast.textures, Dedup(RolePaths(ast.textures)), 2)
              && mat.metallicInfo == RoleInfo(ast.textures, Dedup(RolePaths(ast.textures)), 3)
              && mat.roughnessInfo == RoleInfo(ast.textures, Dedup(RolePaths(ast.textures)), 4)
              && AlbedoTexture(mat) == RoleTextureOf(ast.textures, r.manager.textures2d, 0)
              && EmissiveTexture(mat) == RoleTextureOf(ast.textures, r.manager.textures2d, 1)
              && NormalTexture(mat) == RoleTextureOf(ast.textures, r.manager.textures2d, 2)
              && MetallicTexture(mat) == RoleTextureOf(ast.textures, r.manager.textures2d, 3)
              && RoughnessTexture(mat) == RoleTextureOf(ast.textures, r.manager.textures2d, 4)
              && MaterialValues(mat.albedoValue, mat.emissiveValue, mat.metallicValue, mat.roughnessValue) == ApplyProperties(ast.properties)
  {
    if path in m.materials {
      return LoadedMaterial(m, Some(m.materials[path]));
    }
    if path !in disk.materials {
      return LoadedMaterial(m, None);
    }
    var ast := disk.materials[path];
    var cur, textures, paths, infos := LoadMaterialTextures(m, disk, ast.textures);
    var mat := BuildMaterial(cur.nextId, path, textures, infos, ApplyProperties(ast.properties));
    RoleResolves(ast.textures, cur.textures2d, paths, textures, 0, mat, mat.albedoInfo);
    RoleResolves(ast.textures, cur.textures2d, paths, textures, 1, mat, mat.emissiveInfo);
    RoleResolves(ast.textures, cur.textures2d, paths, textures, 2, mat, mat.normalInfo);
    RoleResolves(ast.textures, cur.textures2d, paths, textures, 3, mat, mat.metallicInfo);
    RoleResolves(ast.textures, cur.textures2d, paths, textures, 4, mat, mat.roughnessInfo);
    r := LoadedMaterial(cur.(materials := cur.materials[path := mat], nextId := cur.nextId + 1), Some(mat));
  }

  // ---------------------------------------------------------------------------------------
  // Meshes (resource_manager.cpp:428-490)
  // ---------------------------------------------------------------------------------------

  /** The loader writes through `base_vertex + indices[i]` for every index of a submesh
      without a bounds check: each submesh's index range lies in the index list and lands
      on a vertex. */
  predicate SubmeshInRange(ast: AstMesh, sub: AstSubMesh) {
    sub.baseIndex + sub.indexCount <= |ast.indices|
    && forall i :: sub.baseIndex <= i < sub.baseIndex + sub.indexCount ==> sub.baseVertex + ast.indices[i] < ast.vertexCount
  }

  /** What the loader needs of a parsed mesh: in-range submeshes, and no more material
      paths than material slots. */
  predicate MeshIndexable(ast: AstMesh) {
    (forall s :: 0 <= s < |ast.submeshes| ==> SubmeshInRange(ast, ast.submeshes[s]))
    && |ast.materialPaths| <= ast.materialSlots
  }

  /** Submesh `s` reaches vertex `v` through one of its indices before `upto`. */
  ghost predicate Touches(ast: AstMesh, s: nat, v: nat, upto: nat)
    requires s < |ast.submeshes| && upto <= |ast.indices|
  {
    var sub := ast.submeshes[s];
    exists i :: sub.baseIndex <= i < upto && sub.baseVertex + ast.indices[i] == v
  }

  /** The tag a vertex carries after the first `n` submeshes were written: the number of
      the last of them that reaches it, or 0 (the `w` of the freshly built position). */
  ghost function LastTag(ast: AstMesh, n: nat, v: nat): (t: nat)
    requires n <= |ast.submeshes| && MeshIndexable(ast)
    ensures t == 0 || t < n
  {
    if n == 0 then 0
    else
      var sub := ast.submeshes[n - 1];
      if Touches(ast, n - 1, v, sub.baseIndex + sub.indexCount) then n - 1 else LastTag(ast, n - 1, v)
  }

  /** The tagging loop: every vertex reached by submesh `s` gets `s` in `position.w`,
      later submeshes overwriting earlier ones. */
  method TagVertices(ast: AstMesh) returns (tags: seq<nat>)
    requires MeshIndexable(ast)
    ensures |tags| == ast.vertexCount
    ensures forall v :: 0 <= v < |tags| ==> tags[v] == LastTag(ast, |ast.submeshes|, v)
  {
    tags := seq(ast.vertexCount, _ => 0);
    var s := 0;
    while s < |ast.submeshes|
      invariant 0 <= s <= |ast.submeshes| && |tags| == ast.vertexCount
      invariant forall v :: 0 <= v < |tags| ==> tags[v] == LastTag(ast, s, v)
    {
      var sub := ast.submeshes[s];
      assert SubmeshInRange(ast, sub);
      var i := sub.baseIndex;
      while i < sub.baseIndex + sub.indexCount
        invariant sub.baseIndex <= i <= sub.baseIndex + sub.indexCount && |tags| == ast.vertexCount
        invariant forall v :: 0 <= v < |tags| ==> tags[v] == if Touches(ast, s, v, i) then s else LastTag(ast, s, v)
      {
        var w := sub.baseVertex + ast.indices[i];
        forall v | 0 <= v < |tags|
          ensures Touches(ast, s, v, i + 1) <==> Touches(ast, s, v, i) || v == w
        {
          if v == w {
            assert sub.baseIndex <= i < i + 1 && sub.baseVertex + ast.indices[i] == v;
          }
        }
        tags := tags[w := s];
        i := i + 1;
      }
      s := s + 1;
    }
  }

  function SubMeshOf(a: AstSubMesh): SubMesh {
    SubMesh(a.name, a.materialIndex, a.indexCount, a.vertexCount, a.baseVertex, a.baseIndex)
  }

  /** The material-slot loop: slot `i` gets the material loaded from path `i`, and the
      slots past the paths stay empty. */
  method LoadMeshMaterials(m: Manager, disk: Disk, slots: nat, paths: seq<string>) returns (r: Manager, materials: seq<Option<Material>>)
    requires |paths| <= slots
    ensures |materials| == slots
    ensures forall j :: 0 <= j < |paths| ==> materials[j] == Resolve(r.materials, paths[j])
    ensures forall j :: 0 <= j < |paths| ==> Attempted(r.materials, paths[j], disk.materials.Keys)
    ensures forall j :: |paths| <= j < slots ==> materials[j].None?
    ensures Grows(m, r, disk) && r.meshes == m.meshes && r.texturesCube == m.texturesCube
  {
    r := m;
    materials := seq(slots, _ => None);
    var i := 0;
    while i < |paths|
      invariant 0 <= i <= |paths| && |materials| == slots
      invariant forall j :: 0 <= j < i ==> materials[j] == Resolve(r.materials, paths[j])
      invariant forall j :: 0 <= j < i ==> Attempted(r.materials, paths[j], disk.materials.Keys)
      invariant forall j :: i <= j < slots ==> materials[j].None?
      invariant Grows(m, r, disk) && r.meshes == m.meshes && r.texturesCube == m.texturesCube
    {
      var loaded := LoadMaterial(r, disk, paths[i]);
      forall j | 0 <= j < i
        ensures Resolve(loaded.manager.materials, paths[j]) == Resolve(r.materials, paths[j])
        ensures Attempted(loaded.manager.materials, paths[j], disk.materials.Keys)
      {
        ResolveStable(r.materials, loaded.manager.materials, disk.materials.Keys, paths[j]);
      }
      GrowsTransitive(m, r, loaded.manager, disk);
      materials := materials[i := loaded.material];
      r := loaded.manager;
      i := i + 1;
    }
  }

  datatype LoadedMesh = LoadedMesh(manager: Manager, mesh: Option<Mesh>)

  /** `load_mesh_internal`: a cached path returns the stored mesh; otherwise a mesh
      description on disk becomes a new mesh stored under the caller's path, with its
      submeshes and indices copied, one material slot per authored material, and every
      vertex tagged with the last submesh that reaches it. */
  method LoadMesh(m: Manager, disk: Disk, path: string) returns (r: LoadedMesh)
    requires path in disk.meshes ==> MeshIndexable(disk.meshes[path])
    ensures path in m.meshes ==> r == LoadedMesh(m, Some(m.meshes[path]))
    ensures path !in m.meshes ==> (r.mesh.Some? <==> path in disk.meshes)
    ensures r.mesh.None? ==> r.manager == m
    ensures r.mesh == Resolve(r.manager.meshes, path)
    ensures Attempted(r.manager.meshes, path, disk.meshes.Keys)
    ensures Grows(m, r.manager, disk) && r.manager.texturesCube == m.texturesCube
    ensures path !in m.meshes && r.mesh.Some? ==>
              var mesh := r.mesh.value;
              var ast := disk.meshes[path];
              mesh.id >= m.nextId && mesh.path == path && mesh.indices == ast.indices
              && |mesh.submeshes| == |ast.submeshes|
              && (forall s :: 0 <= s < |ast.submeshes| ==> mesh.submeshes[s] == SubMeshOf(ast.submeshes[s]))
              && |mesh.vertexTags| == ast.vertexCount
              && (forall v :: 0 <= v < ast.vertexCount ==> mesh.vertexTags[v] == LastTag(ast, |ast.submeshes|, v))
              && |mesh.materials| == ast.materialSlots
              && (forall j :: 0 <= j < |ast.materialPaths| ==> mesh.materials[j] == Resolve(r.manager.materials, ast.materialPaths[j]))
              && (forall j :: |ast.materialPaths| <= j < ast.materialSlots ==> mesh.materials[j].None?)
  {
    if path in m.meshes {
      return LoadedMesh(m, Some(m.meshes[path]));
    }
    if path !in disk.meshes {
      return LoadedMesh(m, None);
    }
    var ast := disk.meshes[path];
    var tags := TagVertices(ast);
    var cur, materials := LoadMeshMaterials(m, disk, ast.materialSlots, ast.materialPaths);
    var submeshes := seq(|ast.submeshes|, s requires 0 <= s < |ast.submeshes| => SubMeshOf(ast.submeshes[s]));
    var mesh := Mesh(cur.nextId, path, submeshes, materials, tags, ast.indices);
    r := LoadedMesh(cur.(meshes := cur.meshes[path := mesh], nextId := cur.nextId + 1), Some(mesh));
  }

  // ---------------------------------------------------------------------------------------
  // Scene descriptions to nodes (resource_manager.cpp:494-672)
  // ---------------------------------------------------------------------------------------

  /** Position, rotation (Euler angles in degrees) and scale of a described node. */
  datatype AstTransform = AstTransform(position: Vec3, rotation: Vec3, scale: Vec3)

  /** The node types of a scene description; `UnknownDesc` is any type value the loader
      has no case for. Absent resources are empty paths. */
  datatype AstNodeKind =
    | MeshDesc(mesh: string, materialOverride: string)
    | CameraDesc(near: real, far: real, fov: real)
    | DirectionalDesc(color: Vec3, intensity: real, radius: real)
    | SpotDesc(color: Vec3, intensity: real, radius: real, innerCone: real, outerCone: real)
    | PointDesc(color: Vec3, intensity: real, radius: real)
    | IblDesc(image: string)
    | RootDesc
    | UnknownDesc

  /** A described node. IBL descriptions carry no transform; theirs is ignored. */
  datatype AstNode = AstNode(name: string, kind: AstNodeKind, xf: AstTransform, children: seq<AstNode>)

  /** The node type `create_node` dispatches a description to. */
  function DescType(k: AstNodeKind): (t: Option<NodeType>)
    ensures t.None? <==> k.UnknownDesc?
  {
    match k
    case MeshDesc(_, _) => Some(MeshNodeType)
    case CameraDesc(_, _, _) => Some(CameraNodeType)
    case DirectionalDesc(_, _, _) => Some(DirectionalLightNodeType)
    case SpotDesc(_, _, _, _, _) => Some(SpotLightNodeType)
    case PointDesc(_, _, _) => Some(PointLightNodeType)
    case IblDesc(_) => Some(IblNodeType)
    case RootDesc => Some(RootNodeType)
    case UnknownDesc => None
  }

  /** `populate_transform_node`: the local matrix recomposed from the described
      components, handed to `set_from_local_transform` on a default transform. */
  function LoadedTransform(a: AstTransform, decompose: Mat -> Decomposition): Transform {
    ApplyOp(DefaultTransform, SetFromLocalTransform(Recomposed(a.position, a.rotation, a.scale)), None, decompose)
  }

  /** The parsed mesh at `path`, if any, can be loaded without an out-of-range write. */
  predicate PathIndexable(disk: Disk, path: string) {
    path in disk.meshes ==> MeshIndexable(disk.meshes[path])
  }

  /** The mesh a description loads, if any, can be loaded safely. */
  predicate DescIndexable(disk: Disk, k: AstNodeKind) {
    k.MeshDesc? && k.mesh != "" ==> PathIndexable(disk, k.mesh)
  }

  /** Every mesh `create_node` loads for the tree of `a` can be loaded safely: those of the
      described nodes it reaches, not below a description of unknown type. */
  predicate TreeIndexable(disk: Disk, a: AstNode)
    decreases a
  {
    a.kind.UnknownDesc?
    || (DescIndexable(disk, a.kind) && forall i :: 0 <= i < |a.children| ==> TreeIndexable(disk, a.children[i]))
  }

  /** The kind of a built node against its description, resources resolved through the
      manager's caches. A mesh node loads its mesh only for a non-empty path, and its
      override only for a non-empty override path inside that case; a spot light gets the
      inner cone angle for both cones. */
  ghost predicate KindMatches(d: AstNodeKind, k: Kind, mgr: Manager, disk: Disk) {
    match d
    case MeshDesc(mp, op) =>
      k.MeshKind?
      && (mp == "" ==> k.mesh.None? && k.materialOverride.None?)
      && (mp != "" ==>
            k.mesh == Resolve(mgr.meshes, mp) && Attempted(mgr.meshes, mp, disk.meshes.Keys)
            && (op == "" ==> k.materialOverride.None?)
            && (op != "" ==> k.materialOverride == Resolve(mgr.materials, op) && Attempted(mgr.materials, op, disk.materials.Keys)))
    case IblDesc(img) =>
      k.IblKind?
      && (img == "" ==> k.image.None?)
      && (img != "" ==> k.image == Resolve(mgr.texturesCube, img) && Attempted(mgr.texturesCube, img, disk.images.Keys))
    case CameraDesc(near, far, fov) => k == DefaultKind(CameraNodeType).(near := near, far := far, fov := fov)
    case DirectionalDesc(color, intensity, radius) => k == DirectionalKind(color, intensity, radius)
    case SpotDesc(color, intensity, radius, inner, _) => k == SpotKind(color, inner, inner, intensity, radius)
    case PointDesc(color, intensity, radius) => k == PointKind(color, intensity, radius)
    case RootDesc => k == RootKind
    case UnknownDesc => false
  }

  /** A node built from a description: same name, matching kind, the recomposed transform
      (the default one for IBL), and children built from the described children in order,
      the ones of unknown type dropped. */
  ghost predicate BuiltFrom(a: AstNode, n: Node, mgr: Manager, disk: Disk, decompose: Mat -> Decomposition)
    decreases a
  {
    n.name == a.name
    && KindMatches(a.kind, n.kind, mgr, disk)
    && n.xf == (if a.kind.IblDesc? then DefaultTransform else LoadedTransform(a.xf, decompose))
    && ChildrenBuiltFrom(a.children, n.children, mgr, disk, decompose)
  }

  ghost predicate ChildrenBuiltFrom(descs: seq<AstNode>, ns: seq<Node>, mgr: Manager, disk: Disk, decompose: Mat -> Decomposition)
    decreases descs
  {
    if |descs| == 0 then ns == []
    else if descs[|descs| - 1].kind.UnknownDesc? then ChildrenBuiltFrom(descs[..|descs| - 1], ns, mgr, disk, decompose)
    else
      |ns| > 0 && BuiltFrom(descs[|descs| - 1], ns[|ns| - 1], mgr, disk, decompose)
      && ChildrenBuiltFrom(descs[..|descs| - 1], ns[..|ns| - 1], mgr, disk, decompose)
  }

  lemma KindMatchesStable(d: AstNodeKind, k: Kind, m: Manager, r: Manager, disk: Disk)
    requires KindMatches(d, k, m, disk) && Grows(m, r, disk)
    ensures KindMatches(d, k, r, disk)
  {
    match d
    case MeshDesc(mp, op) =>
      if mp != "" {
        ResolveStable(m.meshes, r.meshes, disk.meshes.Keys, mp);
        if op != "" {
          ResolveStable(m.materials, r.materials, disk.materials.Keys, op);
        }
      }
    case IblDesc(img) =>
      if img != "" {
        ResolveStable(m.texturesCube, r.texturesCube, disk.images.Keys, img);
      }
    case _ =>
  }

  /** A built tree keeps matching its description while later loads grow the caches. */
  lemma {:induction false} BuiltFromStable(a: AstNode, n: Node, m: Manager, r: Manager, disk: Disk, decompose: Mat -> Decomposition)
    requires BuiltFrom(a, n, m, disk, decompose) && Grows(m, r, disk)
    ensures BuiltFrom(a, n, r, disk, decompose)
    decreases a
  {
    KindMatchesStable(a.kind, n.kind, m, r, disk);
    ChildrenBuiltFromStable(a.children, n.children, m, r, disk, decompose);
  }

  lemma {:induction false} ChildrenBuiltFromStable(descs: seq<AstNode>, ns: seq<Node>, m: Manager, r: Manager, disk: Disk, decompose: Mat -> Decomposition)
    requires ChildrenBuiltFrom(descs, ns, m, disk, decompose) && Grows(m, r, disk)
    ensures ChildrenBuiltFrom(descs, ns, r, disk, decompose)
    decreases descs
  {
    if |descs| > 0 {
      if !descs[|descs| - 1].kind.UnknownDesc? {
        BuiltFromStable(descs[|descs| - 1], ns[|ns| - 1], m, r, disk, decompose);
        ChildrenBuiltFromStable(descs[..|descs| - 1], ns[..|ns| - 1], m, r, disk, decompose);
      } else {
        ChildrenBuiltFromStable(descs[..|descs| - 1], ns, m, r, disk, decompose);
      }
    }
  }

  /** Appending one more described child, and the node built from it when its type is known. */
  lemma ChildrenBuiltFromSnoc(descs: seq<AstNode>, i: nat, ns: seq<Node>, c: Option<Node>, mgr: Manager, disk: Disk, decompose: Mat -> Decomposition)
    requires i < |descs| && ChildrenBuiltFrom(descs[..i], ns, mgr, disk, decompose)
    requires c.None? <==> descs[i].kind.UnknownDesc?
    requires c.Some? ==> BuiltFrom(descs[i], c.value, mgr, disk, decompose)
    ensures ChildrenBuiltFrom(descs[..i + 1], if c.Some? then ns + [c.value] else ns, mgr, disk, decompose)
  {
    assert descs[..i + 1][..i] == descs[..i];
    if c.Some? {
      assert (ns + [c.value])[..|ns|] == ns;
    }
  }

  datatype Built = Built(manager: Manager, nextNodeId: nat, node: Option<Node>)

  /** The mesh half of attaching a mesh node's resources: the node holds what the cache
      resolves the path to once the load was attempted. */
  method AttachLoadedMesh(m: Manager, disk: Disk, n: Node, mp: string) returns (r: Manager, n': Node)
    requires PathIndexable(disk, mp) && n.kind == MeshKind(None, None)
    ensures Grows(m, r, disk) && n' == n.(kind := MeshKind(Resolve(r.meshes, mp), None))
    ensures Attempted(r.meshes, mp, disk.meshes.Keys)
  {
    var mesh := LoadMesh(m, disk, mp);
    r, n' := mesh.manager, n;
    if mesh.mesh.Some? {
      n' := SetMesh(n', mesh.mesh).node;
    }
  }

  /** The override part of `create_mesh_node`: the override is set even when its load
      fails. */
  method AttachOverride(m: Manager, disk: Disk, n: Node, op: string) returns (r: Manager, n': Node)
    requires n.kind.MeshKind? && op != ""
    ensures Grows(m, r, disk) && r.meshes == m.meshes && n' == n.(kind := n'.kind)
    ensures n'.kind == MeshKind(n.kind.mesh, Resolve(r.materials, op))
    ensures Attempted(r.materials, op, disk.materials.Keys)
  {
    var mat := LoadMaterial(m, disk, op);
    r := mat.manager;
    n' := SetMaterialOverride(n, mat.material).node;
  }

  /** The resource part of `create_mesh_node`. */
  method AttachMesh(m: Manager, disk: Disk, n: Node, mp: string, op: string) returns (r: Manager, n': Node)
    requires DescIndexable(disk, MeshDesc(mp, op)) && n.kind == MeshKind(None, None)
    ensures Grows(m, r, disk) && n' == n.(kind := n'.kind)
    ensures KindMatches(MeshDesc(mp, op), n'.kind, r, disk)
  {
    r, n' := m, n;
    if mp != "" {
      r, n' := AttachLoadedMesh(m, disk, n, mp);
      if op != "" {
        var r2;
        r2, n' := AttachOverride(r, disk, n', op);
        GrowsTransitive(m, r, r2, disk);
        r := r2;
      }
    }
  }

  /** The resource part of `create_ibl_node`. */
  method AttachImage(m: Manager, disk: Disk, n: Node, img: string) returns (r: Manager, n': Node)
    requires n.kind == IblKind(None)
    ensures Grows(m, r, disk) && n' == n.(kind := n'.kind)
    ensures KindMatches(IblDesc(img), n'.kind, r, disk)
  {
    r, n' := m, n;
    if img != "" {
      var cube := LoadTextureCube(r, disk, img);
      r := cube.manager;
      if cube.cubemap.Some? {
        n' := SetImage(n', cube.cubemap).node;
      }
    }
  }

  /** The constructor, then the parameter setters and resource loads of the type. */
  method CreateKinded(m: Manager, disk: Disk, counter: nat, a: AstNode) returns (r: Manager, n: Node)
    requires DescIndexable(disk, a.kind) && !a.kind.UnknownDesc?
    ensures Grows(m, r, disk)
    ensures n.id == counter && n.name == a.name && n.children == [] && n.xf == DefaultTransform
    ensures KindMatches(a.kind, n.kind, r, disk)
  {
    n := NewNode(counter, DescType(a.kind).value, a.name).node;
    r := m;
    match a.kind {
      case MeshDesc(mp, op) =>
        r, n := AttachMesh(m, disk, n, mp, op);
      case IblDesc(img) =>
        r, n := AttachImage(m, disk, n, img);
      case CameraDesc(near, far, fov) =>
        n := SetParameters(n, n.kind.(near := near, far := far, fov := fov));
      case DirectionalDesc(color, intensity, radius) =>
        n := SetParameters(n, DirectionalKind(color, intensity, radius));
      case SpotDesc(color, intensity, radius, inner, _) =>
        n := SetParameters(n, SpotKind(color, inner, inner, intensity, radius));
      case PointDesc(color, intensity, radius) =>
        n := SetParameters(n, PointKind(color, intensity, radius));
      case RootDesc =>
    }
  }

  /** The node a description yields before its children are added: the constructor, the
      parameter setters and resource loads of its type, then the recomposed transform. */
  method CreateBare(m: Manager, disk: Disk, counter: nat, a: AstNode, decompose: Mat -> Decomposition) returns (r: Manager, next: nat, n: Node)
    requires DescIndexable(disk, a.kind) && !a.kind.UnknownDesc?
    ensures Grows(m, r, disk) && next == counter + 1
    ensures n.id == counter && n.name == a.name && n.children == []
    ensures KindMatches(a.kind, n.kind, r, disk)
    ensures n.xf == (if a.kind.IblDesc? then DefaultTransform else LoadedTransform(a.xf, decompose))
  {
    r, n := CreateKinded(m, disk, counter, a);
    next := counter + 1;
    if !a.kind.IblDesc? {
      n := EditTransform(n, SetFromLocalTransform(Recomposed(a.xf.position, a.xf.rotation, a.xf.scale)), None, decompose);
    }
  }

  /** A built child continues the numbering where its parent's tree left off. */
  lemma IdsAfterChild(n: Node, child: Option<Node>, counter: nat, next: nat, next': nat)
    requires counter < next <= next' && TreeIds(n) == IdRange(counter, next)
    requires child.None? ==> next' == next
    requires child.Some? ==> TreeIds(child.value) == IdRange(next, next')
    ensures TreeIds(if child.Some? then AddChild(n, child.value) else n) == IdRange(counter, next')
  {
    if child.Some? {
      AddChildIds(n, child.value);
      assert IdRange(counter, next) + IdRange(next, next') == IdRange(counter, next');
    }
  }

  /** What `create_node` promises for a description, the manager it started from and the
      counter it numbered from. */
  ghost predicate BuiltAs(c: Built, m: Manager, disk: Disk, counter: nat, a: AstNode, decompose: Mat -> Decomposition) {
    Grows(m, c.manager, disk) && c.nextNodeId >= counter
    && (c.node.None? <==> a.kind.UnknownDesc?)
    && (c.node.None? ==> c.manager == m && c.nextNodeId == counter)
    && (c.node.Some? ==> c.node.value.id == counter && BuiltFrom(a, c.node.value, c.manager, disk, decompose))
    && (c.node.Some? ==> c.nextNodeId > counter && TreeIds(c.node.value) == IdRange(counter, c.nextNodeId))
  }

  /** The node of `create_node` once its first `i` described children were handled. */
  ghost predicate PartlyBuilt(m: Manager, disk: Disk, a: AstNode, decompose: Mat -> Decomposition, counter: nat, r: Manager, next: nat, n: Node, i: nat)
    requires i <= |a.children|
  {
    Grows(m, r, disk) && next > counter
    && n.id == counter && n.name == a.name
    && KindMatches(a.kind, n.kind, r, disk)
    && n.xf == (if a.kind.IblDesc? then DefaultTransform else LoadedTransform(a.xf, decompose))
    && ChildrenBuiltFrom(a.children[..i], n.children, r, disk, decompose)
    && TreeIds(n) == IdRange(counter, next)
  }

  /** One turn of `create_node`'s child loop keeps the loop's invariant. */
  lemma PartlyBuiltStep(m: Manager, disk: Disk, a: AstNode, decompose: Mat -> Decomposition, counter: nat, r: Manager, next: nat, n: Node, i: nat, c: Built)
    requires i < |a.children| && PartlyBuilt(m, disk, a, decompose, counter, r, next, n, i)
    requires BuiltAs(c, r, disk, next, a.children[i], decompose)
    ensures PartlyBuilt(m, disk, a, decompose, counter, c.manager, c.nextNodeId,
                        if c.node.Some? then AddChild(n, c.node.value) else n, i + 1)
  {
    KindMatchesStable(a.kind, n.kind, r, c.manager, disk);
    ChildrenBuiltFromStable(a.children[..i], n.children, r, c.manager, disk, decompose);
    ChildrenBuiltFromSnoc(a.children, i, n.children, c.node, c.manager, disk, decompose);
    GrowsTransitive(m, r, c.manager, disk);
    IdsAfterChild(n, c.node, counter, next, c.nextNodeId);
  }

  /** `create_node` with `populate_scene_node`: a description of unknown type yields no
      node and loads nothing; any other yields a node numbered from the running node
      counter in pre-order, matching its description, with the built children of the
      known described children appended in order. */
  method CreateNode(m: Manager, disk: Disk, counter: nat, a: AstNode, decompose: Mat -> Decomposition) returns (b: Built)
    requires TreeIndexable(disk, a)
    ensures Grows(m, b.manager, disk) && b.nextNodeId >= counter
    ensures b.node.None? <==> a.kind.UnknownDesc?
    ensures b.node.None? ==> b.manager == m && b.nextNodeId == counter
    ensures b.node.Some? ==> b.node.value.id == counter && BuiltFrom(a, b.node.value, b.manager, disk, decompose)
    ensures b.node.Some? ==> b.nextNodeId > counter && TreeIds(b.node.value) == IdRange(counter, b.nextNodeId)
    decreases a
  {
    if a.kind.UnknownDesc? {
      return Built(m, counter, None);
    }
    var r, next, n := CreateBare(m, disk, counter, a, decompose);
    assert TreeIds(n) == IdRange(counter, next);
    var i := 0;
    while i < |a.children|
      invariant 0 <= i <= |a.children|
      invariant PartlyBuilt(m, disk, a, decompose, counter, r, next, n, i)
    {
      var c := CreateNode(r, disk, next, a.children[i], decompose);
      PartlyBuiltStep(m, disk, a, decompose, counter, r, next, n, i, c);
      if c.node.Some? {
        n := AddChild(n, c.node.value);
      }
      r, next := c.manager, c.nextNodeId;
      i := i + 1;
    }
    assert a.children[..i] == a.children;
    b := Built(r, next, Some(n));
  }

  // ---------------------------------------------------------------------------------------
  // Tree shape: names, node types and child order
  // ---------------------------------------------------------------------------------------

  datatype Shape = Shape(name: string, nodeType: NodeType, children: seq<Shape>)

  function ShapeOf(n: Node): Shape
    decreases n
  {
    Shape(n.name, TypeOf(n.kind), ShapesOf(n.children))
  }

  function ShapesOf(ns: seq<Node>): seq<Shape>
    decreases ns
  {
    if |ns| == 0 then [] else ShapesOf(ns[..|ns| - 1]) + [ShapeOf(ns[|ns| - 1])]
  }

  /** The shape a description stands for: described children of unknown type drop out. */
  function DescShape(a: AstNode): Shape
    requires !a.kind.UnknownDesc?
    decreases a
  {
    Shape(a.name, DescType(a.kind).value, DescShapes(a.children))
  }

  function DescShapes(descs: seq<AstNode>): seq<Shape>
    decreases descs
  {
    if |descs| == 0 then []
    else if descs[|descs| - 1].kind.UnknownDesc? then DescShapes(descs[..|descs| - 1])
    else DescShapes(descs[..|descs| - 1]) + [DescShape(descs[|descs| - 1])]
  }

  lemma KindMatchesType(d: AstNodeKind, k: Kind, mgr: Manager, disk: Disk)
    requires KindMatches(d, k, mgr, disk)
    ensures DescType(d) == Some(TypeOf(k))
  {
  }

  /** A node built from a description has the description's shape. */
  lemma {:induction false} BuiltFromShape(a: AstNode, n: Node, mgr: Manager, disk: Disk, decompose: Mat -> Decomposition)
    requires BuiltFrom(a, n, mgr, disk, decompose)
    ensures !a.kind.UnknownDesc? && ShapeOf(n) == DescShape(a)
    decreases a
  {
    KindMatchesType(a.kind, n.kind, mgr, disk);
    ChildrenBuiltFromShapes(a.children, n.children, mgr, disk, decompose);
  }

  lemma {:induction false} ChildrenBuiltFromShapes(descs: seq<AstNode>, ns: seq<Node>, mgr: Manager, disk: Disk, decompose: Mat -> Decomposition)
    requires ChildrenBuiltFrom(descs, ns, mgr, disk, decompose)
    ensures ShapesOf(ns) == DescShapes(descs)
    decreases descs
  {
    if |descs| > 0 {
      if descs[|descs| - 1].kind.UnknownDesc? {
        ChildrenBuiltFromShapes(descs[..|descs| - 1], ns, mgr, disk, decompose);
      } else {
        BuiltFromShape(descs[|descs| - 1], ns[|ns| - 1], mgr, disk, decompose);
        ChildrenBuiltFromShapes(descs[..|descs| - 1], ns[..|ns| - 1], mgr, disk, decompose);
      }
    }
  }
}

=== FILE: editor.dfy ===
/** The scene editor (src/editor/main.cpp): the "New Node" menu, node creation, camera
    keys, parameter edits and their forced update, the per-frame update order, and the
    serialiser that turns the node tree back into a scene description.

    Euler-angle extraction (`glm::eulerAngles` in degrees) and `relative_resource_path`
    (a filesystem query) are parameters. */
module Editor {
  import opened Types
  import opened SceneGraph
  import opened Traversal
  import opened Assets
  import opened SceneUpdate

  // ---------------------------------------------------------------------------------------
  // "New Node" menu (main.cpp:34-41, 622-630)
  // ---------------------------------------------------------------------------------------

  const NodeTypeLabels: seq<string> := ["Mesh", "Camera", "Directional Light", "Spot Light", "Point Light", "IBL"]

  /** The label the editor shows for a node type. */
  function Label(t: NodeType): string {
    match t
    case MeshNodeType => "Mesh"
    case CameraNodeType => "Camera"
    case DirectionalLightNodeType => "Directional Light"
    case SpotLightNodeType => "Spot Light"
    case PointLightNodeType => "Point Light"
    case IblNodeType => "IBL"
    case RootNodeType => "Root"
  }

  /** Menu item `i` requests the node type `(NodeType)i`. */
  function MenuChoice(i: nat): (t: NodeType)
    requires i < |NodeTypeLabels|
    ensures NodeTypeValue(t) == i
  {
    NodeTypeOfValue(i).value
  }

  /** The cast picks the type the item is labelled with, never the root type, and every
      other type has an item at its enumerator value. */
  lemma MenuMatchesNodeTypes()
    ensures forall i :: 0 <= i < |NodeTypeLabels| ==> Label(MenuChoice(i)) == NodeTypeLabels[i] && MenuChoice(i) != RootNodeType
    ensures forall t :: t != RootNodeType ==> NodeTypeValue(t) < |NodeTypeLabels| && MenuChoice(NodeTypeValue(t)) == t
  {
    forall t | t != RootNodeType
      ensures NodeTypeValue(t) < |NodeTypeLabels| && MenuChoice(NodeTypeValue(t)) == t
    {
      NodeTypeValueRoundTrip(t);
    }
  }

  // ---------------------------------------------------------------------------------------
  // Node creation (main.cpp:1096-1119)
  // ---------------------------------------------------------------------------------------

  /** `std::to_string` of a counter: its decimal digits, most significant first. */
  function DecimalString(n: nat): (s: string)
    ensures |s| >= 1 && forall i :: 0 <= i < |s| ==> '0' <= s[i] <= '9'
    decreases n
  {
    if n < 10 then [DigitChar(n)] else DecimalString(n / 10) + [DigitChar(n % 10)]
  }

  function DigitChar(d: nat): (c: char)
    requires d < 10
    ensures '0' <= c <= '9'
  {
    (d + '0' as int) as char
  }

  /** Reading decimal digits back. */
  function ParseDecimal(s: string): nat
    decreases |s|
  {
    if |s| == 0 then 0
    else
      var c := s[|s| - 1];
      var d := if '0' <= c <= '9' then c as int - '0' as int else 0;
      ParseDecimal(s[..|s| - 1]) * 10 + d
  }

  /** Reading back the digits of a counter gives the counter. */
  lemma {:induction false} DecimalRoundTrip(n: nat)
    ensures ParseDecimal(DecimalString(n)) == n
    decreases n
  {
    var s := DecimalString(n);
    if n < 10 {
      assert s[..0] == [];
    } else {
      DecimalRoundTrip(n / 10);
      assert s[..|s| - 1] == DecimalString(n / 10);
    }
  }

  const NewNodePrefix: string := "New Node "

  datatype NewNodeOutcome = NewNodeOutcome(newNodeCounter: nat, nextId: nat, root: Node)

  /** The selected node is a pointer into the live graph, so `add_child` on it changes the
      scene: in the tree that the root holds, the node `path` reaches gains child `c`, and
      every node on the way keeps everything but the one child it leads through. */
  function AttachAt(n: Node, path: seq<nat>, c: Node): (r: Node)
    requires Target(n, path).Some?
    ensures Target(r, path) == Some(AddChild(Target(n, path).value, c))
    ensures |path| > 0 ==>
              r.(children := n.children) == n && |r.children| == |n.children|
              && forall j :: 0 <= j < |n.children| && j != path[0] ==> r.children[j] == n.children[j]
    decreases |path|
  {
    if |path| == 0 then AddChild(n, c)
    else n.(children := n.children[path[0] := AttachAt(n.children[path[0]], path[1..], c)])
  }

  /** Two paths part ways: at some position they name different children. */
  predicate Diverge(p: seq<nat>, q: seq<nat>)
    decreases |p|
  {
    |p| > 0 && |q| > 0 && (p[0] != q[0] || Diverge(p[1..], q[1..]))
  }

  /** Attaching a child below one node leaves every node off its path as it was. */
  lemma {:induction false} AttachAtKeepsOthers(n: Node, path: seq<nat>, c: Node, q: seq<nat>)
    requires Target(n, path).Some? && Diverge(path, q)
    ensures Target(AttachAt(n, path, c), q) == Target(n, q)
    decreases |path|
  {
    var r := AttachAt(n, path, c);
    if path[0] != q[0] {
      if q[0] < |n.children| {
        assert r.children[q[0]] == n.children[q[0]];
      }
    } else {
      AttachAtKeepsOthers(n.children[path[0]], path[1..], c, q[1..]);
    }
  }

  /** `create_new_node`: a node of the requested type named after the editor's counter,
      attached in the scene under the selected node, given as its path from the root, when
      there is one; the counter moves on either way. A selection the root does not reach
      is a node outside the scene, whose new child the scene does not see. The menu never
      requests the root type, for which the editor builds no node. */
  function CreateNewNode(newNodeCounter: nat, idCounter: nat, t: NodeType, root: Node, selection: Option<seq<nat>>): (r: NewNodeOutcome)
    requires t != RootNodeType
    ensures r.newNodeCounter == newNodeCounter + 1 && r.nextId == idCounter + 1
    ensures selection.None? || Target(root, selection.value).None? ==> r.root == root
    ensures selection.Some? && Target(root, selection.value).Some? ==>
              var path := selection.value;
              var sel := Target(root, path).value;
              Target(r.root, path).Some?
              && var p := Target(r.root, path).value;
                 |p.children| == |sel.children| + 1 && p.children[..|sel.children|] == sel.children
                 && p.hierarchyDirty && p.(children := sel.children, hierarchyDirty := sel.hierarchyDirty) == sel
                 && r.root == AttachAt(root, path, p.children[|sel.children|])
                 && var c := p.children[|sel.children|];
                    c.id == idCounter && TypeOf(c.kind) == t && c.children == []
                    && |NewNodePrefix| <= |c.name| && c.name[..|NewNodePrefix|] == NewNodePrefix
                    && ParseDecimal(c.name[|NewNodePrefix|..]) == newNodeCounter
  {
    var created := SceneGraph.NewNode(idCounter, t, NewNodePrefix + DecimalString(newNodeCounter));
    DecimalRoundTrip(newNodeCounter);
    assert (NewNodePrefix + DecimalString(newNodeCounter))[|NewNodePrefix|..] == DecimalString(newNodeCounter);
    NewNodeOutcome(newNodeCounter + 1, created.nextId,
                   if selection.Some? && Target(root, selection.value).Some? then AttachAt(root, selection.value, created.node) else root)
  }

  /** Nodes created one after the other never share a name. */
  lemma NewNodeNamesDistinct(a: nat, b: nat)
    requires a != b
    ensures NewNodePrefix + DecimalString(a) != NewNodePrefix + DecimalString(b)
  {
    DecimalRoundTrip(a);
    DecimalRoundTrip(b);
    assert (NewNodePrefix + DecimalString(a))[|NewNodePrefix|..] == DecimalString(a);
    assert (NewNodePrefix + DecimalString(b))[|NewNodePrefix|..] == DecimalString(b);
  }

  // ---------------------------------------------------------------------------------------
  // Camera keys (main.cpp:462-494)
  // ---------------------------------------------------------------------------------------

  /** GLFW key codes. */
  const KeyW: int := 87
  const KeyS: int := 83
  const KeyA: int := 65
  const KeyD: int := 68
  const KeyG: int := 71

  datatype Controls = Controls(heading: real, sideways: real, cameraSpeed: real, showGui: bool, rayDebug: bool)

  /** `key_pressed`: ignored in ray-debug mode; W and S set the heading speed to plus and
      minus the camera speed, A and D the sideways speed, G toggles the GUI. */
  function KeyPressed(c: Controls, code: int): (r: Controls)
    ensures r.cameraSpeed == c.cameraSpeed && r.rayDebug == c.rayDebug
    ensures c.rayDebug ==> r == c
    ensures code != KeyW && code != KeyS ==> r.heading == c.heading
    ensures code != KeyA && code != KeyD ==> r.sideways == c.sideways
    ensures r.showGui != c.showGui <==> !c.rayDebug && code == KeyG
  {
    if c.rayDebug then c
    else
      var c := if code == KeyW then c.(heading := c.cameraSpeed) else if code == KeyS then c.(heading := -c.cameraSpeed) else c;
      var c := if code == KeyA then c.(sideways := c.cameraSpeed) else if code == KeyD then c.(sideways := -c.cameraSpeed) else c;
      if code == KeyG then c.(showGui := !c.showGui) else c
  }

  /** `key_released`: W or S stops forward motion, A or D stops sideways motion, in every
      mode. */
  function KeyReleased(c: Controls, code: int): (r: Controls)
    ensures r.(heading := c.heading, sideways := c.sideways) == c
    ensures code == KeyW || code == KeyS ==> r.heading == 0.0
    ensures code == KeyA || code == KeyD ==> r.sideways == 0.0
  {
    var c' := if code == KeyW || code == KeyS then c.(heading := 0.0) else c;
    if code == KeyA || code == KeyD then c'.(sideways := 0.0) else c'
  }

  /** Pressing a movement key and releasing it stops that motion and leaves the other axis
      as the press found it. */
  lemma PressThenRelease(c: Controls, code: int)
    requires code in {KeyW, KeyS, KeyA, KeyD}
    ensures var r := KeyReleased(KeyPressed(c, code), code);
            (code == KeyW || code == KeyS ==> r.heading == 0.0 && (!c.rayDebug ==> r.sideways == c.sideways))
            && (code == KeyA || code == KeyD ==> r.sideways == 0.0 && (!c.rayDebug ==> r.heading == c.heading))
            && r.showGui == c.showGui
  {
  }

  /** G pressed twice outside ray-debug mode restores the GUI flag. */
  lemma ToggleGuiTwice(c: Controls)
    ensures KeyPressed(KeyPressed(c, KeyG), KeyG) == c
  {
  }

  // ---------------------------------------------------------------------------------------
  // Parameter edits (main.cpp:750-930)
  // ---------------------------------------------------------------------------------------

  /** The values an inspector panel edits: near plane, far plane and field of view for a
      camera; intensity, colour and radius for a directional, spot or point light. */
  datatype Panel =
    | CameraPanel(near: real, far: real, fov: real)
    | LightPanel(color: Vec3, intensity: real, radius: real)

  /** The panel a node kind shows, filled with its current values; other kinds have none. */
  function PanelOf(k: Kind): (p: Option<Panel>)
    ensures p.Some? <==> k.CameraKind? || k.DirectionalKind? || k.SpotKind? || k.PointKind?
    ensures p.Some? ==> (p.value.CameraPanel? <==> k.CameraKind?)
  {
    match k
    case CameraKind(near, far, fov, _, _, _, _) => Some(CameraPanel(near, far, fov))
    case DirectionalKind(color, intensity, radius) => Some(LightPanel(color, intensity, radius))
    case SpotKind(color, _, _, intensity, radius) => Some(LightPanel(color, intensity, radius))
    case PointKind(color, intensity, radius) => Some(LightPanel(color, intensity, radius))
    case _ => None
  }

  /** The kind shows a panel of the same shape as the edited values. */
  predicate Fits(k: Kind, p: Panel) {
    PanelOf(k).Some? && (p.CameraPanel? <==> k.CameraKind?)
  }

  /** The inspector's comparisons: some shown field differs from the node's value. Each
      such difference is a `force_update` call in the source. */
  predicate PanelDiffers(k: Kind, p: Panel)
    requires Fits(k, p)
  {
    match p
    case CameraPanel(near, far, fov) => near != k.near || far != k.far || fov != k.fov
    case LightPanel(color, intensity, radius) => intensity != k.intensity || color != k.color || radius != k.radius
  }

  /** The setters the inspector calls: each shown field takes the panel's value, and the
      fields no panel shows (cone angles, focal length, aperture, the camera matrices) are
      kept. The kind changes exactly when some comparison finds a difference. */
  function ApplyPanel(k: Kind, p: Panel): (r: Kind)
    requires Fits(k, p)
    ensures TypeOf(r) == TypeOf(k) && PanelOf(r) == Some(p)
    ensures r != k <==> PanelDiffers(k, p)
    ensures k.SpotKind? ==> r.innerCone == k.innerCone && r.outerCone == k.outerCone
    ensures k.CameraKind? ==> r.focalLength == k.focalLength && r.aperture == k.aperture && r.view == k.view && r.projection == k.projection
  {
    match p
    case CameraPanel(near, far, fov) => k.(near := near, far := far, fov := fov)
    case LightPanel(color, intensity, radius) => k.(color := color, intensity := intensity, radius := radius)
  }

  /** The node a path of child indices reaches from the root. */
  function Target(n: Node, path: seq<nat>): Option<Node>
    decreases |path|
  {
    if |path| == 0 then Some(n)
    else if path[0] < |n.children| then Target(n.children[path[0]], path[1..])
    else None
  }

  /** The inspector's edit of the node a path reaches, through the setters. */
  function EditAt(n: Node, path: seq<nat>, p: Panel): (r: Option<Node>)
    ensures r.Some? <==> Target(n, path).Some? && Fits(Target(n, path).value.kind, p)
    ensures r.Some? ==> (r.value != n <==> PanelDiffers(Target(n, path).value.kind, p))
    ensures r.Some? ==> r.value.enabled == n.enabled && r.value.hierarchyDirty == n.hierarchyDirty
                        && r.value.transformDirty == n.transformDirty && TypeOf(r.value.kind) == TypeOf(n.kind)
                        && |r.value.children| == |n.children|
    decreases |path|
  {
    if |path| == 0 then
      if Fits(n.kind, p) then Some(SetParameters(n, ApplyPanel(n.kind, p))) else None
    else if path[0] < |n.children| then
      match EditAt(n.children[path[0]], path[1..], p)
      case None => None
      case Some(c) =>
        var r := n.(children := n.children[path[0] := c]);
        assert r == n ==> r.children[path[0]] == c;
        Some(r)
    else None
  }

  lemma {:induction false} AnyDirtySeqUpdate(cs: seq<Node>, i: nat, c: Node)
    requires i < |cs| && AnyDirty(c) == AnyDirty(cs[i])
    ensures AnyDirtySeq(cs[i := c]) == AnyDirtySeq(cs)
    decreases |cs|
  {
    if i > 0 {
      AnyDirtySeqUpdate(cs[1..], i - 1, c);
      assert cs[i := c][1..] == cs[1..][i - 1 := c];
    }
  }

  /** A parameter edit anywhere in the tree leaves every dirty flag as it was, so the
      traversal alone would not notice it. */
  lemma {:induction false} EditIsInvisible(n: Node, path: seq<nat>, p: Panel)
    requires EditAt(n, path, p).Some?
    ensures AnyDirty(EditAt(n, path, p).value) == AnyDirty(n)
    decreases |path|
  {
    if |path| > 0 {
      var c := EditAt(n.children[path[0]], path[1..], p).value;
      EditIsInvisible(n.children[path[0]], path[1..], p);
      AnyDirtySeqUpdate(n.children, path[0], c);
    }
  }

  /** On a tree a traversal has just cleaned, an edit without `force_update` would leave the
      next frame `READY`. */
  lemma UnforcedEditStaysReady(n: Node, parentFrame: Option<Mat>, rs: RenderState, path: seq<nat>, p: Panel, nextFrame: Option<Mat>, next: RenderState)
    requires EditAt(UpdateNode(n, parentFrame, rs).node, path, p).Some? && next.state == Ready
    ensures UpdateNode(EditAt(UpdateNode(n, parentFrame, rs).node, path, p).value, nextFrame, next).rs.state == Ready
  {
    var cleaned := UpdateNode(n, parentFrame, rs).node;
    UpdateNodeCleans(n, parentFrame, rs);
    EditIsInvisible(cleaned, path, p);
    UpdateNodeState(EditAt(cleaned, path, p).value, nextFrame, next);
  }

  /** The inspector: the panel's values go through the setters, and the next update is
      forced exactly when some shown value differs from the node's. */
  function InspectorEdit(sc: Scene, path: seq<nat>, p: Panel): (r: Option<Scene>)
    ensures r.Some? <==> Target(sc.root, path).Some? && Fits(Target(sc.root, path).value.kind, p)
    ensures r.Some? ==> r.value.root == EditAt(sc.root, path, p).value
    ensures r.Some? ==> (r.value.forceUpdate <==> sc.forceUpdate || r.value.root != sc.root)
    ensures r.Some? ==> r.value.meshIndices == sc.meshIndices && r.value.numAreaLights == sc.numAreaLights
  {
    match EditAt(sc.root, path, p)
    case None => None
    case Some(root) =>
      if PanelDiffers(Target(sc.root, path).value.kind, p) then Some(ForceUpdate(sc).(root := root))
      else Some(sc.(root := root))
  }

  /** Confirming the values a panel already shows changes nothing: the scene, its flag
      included, is left exactly as it was. */
  lemma {:induction false} UnchangedPanelKeepsScene(sc: Scene, path: seq<nat>)
    requires Target(sc.root, path).Some? && PanelOf(Target(sc.root, path).value.kind).Some?
    ensures InspectorEdit(sc, path, PanelOf(Target(sc.root, path).value.kind).value) == Some(sc)
  {
    var k := Target(sc.root, path).value.kind;
    var p := PanelOf(k).value;
    assert !PanelDiffers(k, p);
  }

  // ---------------------------------------------------------------------------------------
  // Frame order (main.cpp:101-111)
  // ---------------------------------------------------------------------------------------

  /** The render state after `setup`, the editor camera's update and the scene graph's
      traversal, in that order. */
  function EditorTraversal(rs: RenderState, width: nat, height: nat, editorCamera: Node, root: Node): (r: RenderState)
    ensures r.width == width && r.height == height
  {
    var cam := UpdateNode(editorCamera, None, Setup(rs, width, height));
    UpdateNodeGathers(editorCamera, None, Setup(rs, width, height));
    UpdateNodeGathers(root, None, cam.rs);
    UpdateNode(root, None, cam.rs).rs
  }

  /** Because the editor camera is updated first, it takes the active-camera slot and no
      camera of the scene can displace it. */
  lemma EditorCameraIsActive(rs: RenderState, width: nat, height: nat, editorCamera: Node, root: Node)
    requires editorCamera.enabled && editorCamera.kind.CameraKind?
    ensures SlotId(EditorTraversal(rs, width, height, editorCamera, root).camera) == Some(editorCamera.id)
  {
    var start := Setup(rs, width, height);
    var cam := UpdateNode(editorCamera, None, start);
    UpdateNodeGathers(editorCamera, None, start);
    UpdateNodeGathers(root, None, cam.rs);
    assert VisibleIds(editorCamera, CameraBucket)[0] == editorCamera.id;
  }

  // ---------------------------------------------------------------------------------------
  // Serialiser (main.cpp:1143-1339)
  // ---------------------------------------------------------------------------------------

  /** What an IBL description carries in place of a transform. */
  const NoTransform: AstTransform := AstTransform(Zero3, Zero3, One3)

  /** The description of a node's own kind: absent resources become empty paths, present
      ones their path relative to the asset directory; both cone angles are written. */
  function DescOf(k: Kind, relative: string -> string): (d: AstNodeKind)
    ensures DescType(d) == Some(TypeOf(k))
  {
    match k
    case MeshKind(mesh, ov) =>
      MeshDesc(if mesh.Some? then relative(mesh.value.path) else "", if ov.Some? then relative(ov.value.path) else "")
    case CameraKind(near, far, fov, _, _, _, _) => CameraDesc(near, far, fov)
    case DirectionalKind(color, intensity, radius) => DirectionalDesc(color, intensity, radius)
    case SpotKind(color, inner, outer, intensity, radius) => SpotDesc(color, intensity, radius, inner, outer)
    case PointKind(color, intensity, radius) => PointDesc(color, intensity, radius)
    case IblKind(img) => IblDesc(if img.Some? then relative(img.value.path) else "")
    case RootKind => RootDesc
  }

  /** `create_ast_node`: name, kind description, local position, orientation as Euler
      degrees and scale (IBL nodes carry none), and the children serialised in order. */
  function Serialise(n: Node, eulerDegrees: Quat -> Vec3, relative: string -> string): (a: AstNode)
    ensures a.name == n.name && DescType(a.kind) == Some(TypeOf(n.kind)) && |a.children| == |n.children|
    decreases n
  {
    AstNode(n.name, DescOf(n.kind, relative),
            if n.kind.IblKind? then NoTransform else AstTransform(n.xf.position, eulerDegrees(n.xf.orientation), n.xf.scale),
            SerialiseAll(n.children, eulerDegrees, relative))
  }

  function SerialiseAll(ns: seq<Node>, eulerDegrees: Quat -> Vec3, relative: string -> string): (r: seq<AstNode>)
    ensures |r| == |ns|
    decreases ns
  {
    if |ns| == 0 then [] else SerialiseAll(ns[..|ns| - 1], eulerDegrees, relative) + [Serialise(ns[|ns| - 1], eulerDegrees, relative)]
  }

  /** The serialised tree has the node tree's names, types and child order. */
  lemma {:induction false} SerialiseShape(n: Node, eulerDegrees: Quat -> Vec3, relative: string -> string)
    ensures DescShape(Serialise(n, eulerDegrees, relative)) == ShapeOf(n)
    decreases n
  {
    SerialiseAllShapes(n.children, eulerDegrees, relative);
  }

  lemma {:induction false} SerialiseAllShapes(ns: seq<Node>, eulerDegrees: Quat -> Vec3, relative: string -> string)
    ensures DescShapes(SerialiseAll(ns, eulerDegrees, relative)) == ShapesOf(ns)
    decreases ns
  {
    if |ns| > 0 {
      var d := SerialiseAll(ns, eulerDegrees, relative);
      SerialiseAllShapes(ns[..|ns| - 1], eulerDegrees, relative);
      SerialiseShape(ns[|ns| - 1], eulerDegrees, relative);
      assert d[..|d| - 1] == SerialiseAll(ns[..|ns| - 1], eulerDegrees, relative);
    }
  }

  /** Saving a tree and loading the description back yields a tree with the same names,
      types and child order. */
  lemma SaveThenLoadKeepsShape(n: Node, b: Node, mgr: Manager, disk: Disk, decompose: Mat -> Decomposition, eulerDegrees: Quat -> Vec3, relative: string -> string)
    requires BuiltFrom(Serialise(n, eulerDegrees, relative), b, mgr, disk, decompose)
    ensures ShapeOf(b) == ShapeOf(n)
  {
    BuiltFromShape(Serialise(n, eulerDegrees, relative), b, mgr, disk, decompose);
    SerialiseShape(n, eulerDegrees, relative);
  }

  /** Light and camera parameters survive saving and loading, except a spot light's outer
      cone: the loader copies the inner cone into it, so a spot light whose cones differ
      comes back changed. */
  lemma SaveThenLoadParameters(n: Node, b: Node, mgr: Manager, disk: Disk, decompose: Mat -> Decomposition, eulerDegrees: Quat -> Vec3, relative: string -> string)
    requires BuiltFrom(Serialise(n, eulerDegrees, relative), b, mgr, disk, decompose)
    ensures n.kind.DirectionalKind? || n.kind.PointKind? || n.kind.RootKind? ==> b.kind == n.kind
    ensures n.kind.CameraKind? ==> b.kind.CameraKind? && b.kind.near == n.kind.near && b.kind.far == n.kind.far && b.kind.fov == n.kind.fov
    ensures n.kind.SpotKind? ==>
              b.kind == n.kind.(outerCone := n.kind.innerCone)
              && (b.kind == n.kind <==> n.kind.innerCone == n.kind.outerCone)
  {
  }
}

=== FILE: path_integrator.dfy ===
/** The progressive bake of the path integrator (src/engine/gfx/path_integrator.cpp): the
    tile grid, and the per-frame state machine over the current tile and the number of
    samples accumulated into it.

    The swap-chain extents are parameters. `restart_bake` is declared in a header that is
    not part of this model; it is taken to zero the tile index and the sample count. */
module PathIntegrator {
  import opened Types
  import opened Traversal

  /** `TILE_SIZE`. */
  const TileSize: nat := 128

  datatype Coord = Coord(x: nat, y: nat)

  datatype Integrator = Integrator(
    tiled: bool,
    tiles: seq<Coord>,
    tileSize: Coord,
    tileIndex: nat,
    samples: nat,
    maxSamples: nat)

  /** `ceilf(float(n) / TILE_SIZE)` for the extents a window can have. */
  function TileCount(n: nat): (c: nat)
    ensures c * TileSize >= n && (c > 0 ==> (c - 1) * TileSize < n)
  {
    (n + TileSize - 1) / TileSize
  }

  /** The tile the grid puts at position `k`: x-major order, y running fastest, each
      coordinate a multiple of the tile size. */
  function GridTile(k: nat, rows: nat): Coord
    requires rows > 0
  {
    Coord(k / rows * TileSize, k % rows * TileSize)
  }

  /** The tiled branch of `compute_tile_coords`: nested loops over columns and rows. */
  method TileGrid(width: nat, height: nat) returns (tiles: seq<Coord>)
    ensures |tiles| == TileCount(width) * TileCount(height)
    ensures forall k :: 0 <= k < |tiles| ==> tiles[k] == GridTile(k, TileCount(height))
  {
    var columns := TileCount(width);
    var rows := TileCount(height);
    tiles := [];
    var x := 0;
    while x < columns
      invariant 0 <= x <= columns && |tiles| == x * rows
      invariant forall k :: 0 <= k < |tiles| ==> tiles[k] == GridTile(k, rows)
    {
      var y := 0;
      while y < rows
        invariant 0 <= y <= rows && |tiles| == x * rows + y
        invariant forall k :: 0 <= k < |tiles| ==> tiles[k] == GridTile(k, rows)
      {
        GridTilePosition(x, y, rows);
        tiles := tiles + [Coord(x * TileSize, y * TileSize)];
        y := y + 1;
      }
      x := x + 1;
    }
  }

  lemma GridTilePosition(x: nat, y: nat, rows: nat)
    requires y < rows
    ensures GridTile(x * rows + y, rows) == Coord(x * TileSize, y * TileSize)
  {
    var k := x * rows + y;
    assert k / rows == x && k % rows == y by {
      LemmaDivModUnique(k, rows, x, y);
    }
  }

  lemma LemmaDivModUnique(k: nat, d: nat, q: nat, r: nat)
    requires d > 0 && r < d && k == q * d + r
    ensures k / d == q && k % d == r
  {
    var q' := k / d;
    assert (q' - q) * d == r - k % d;
    LemmaMulBounds(q' - q, d);
  }

  lemma LemmaMulBounds(x: int, d: nat)
    ensures x >= 1 ==> x * d >= d
    ensures x <= -1 ==> x * d + d <= 0
  {
  }

  /** Every pixel of the extents lies in exactly the grid tile numbered from its column and
      row of tiles. */
  lemma GridCoversPixel(width: nat, height: nat, px: nat, py: nat)
    requires px < width && py < height
    ensures var rows := TileCount(height);
            var k := px / TileSize * rows + py / TileSize;
            rows > 0 && k < TileCount(width) * rows
            && GridTile(k, rows).x <= px < GridTile(k, rows).x + TileSize
            && GridTile(k, rows).y <= py < GridTile(k, rows).y + TileSize
  {
    var rows := TileCount(height);
    var columns := TileCount(width);
    var cx := px / TileSize;
    var cy := py / TileSize;
    LemmaDivBound(px, TileSize, columns);
    LemmaDivBound(py, TileSize, rows);
    GridTilePosition(cx, cy, rows);
    assert (columns - cx) * rows == columns * rows - cx * rows;
    LemmaMulBounds(columns - cx, rows);
    assert px == cx * TileSize + px % TileSize && py == cy * TileSize + py % TileSize;
  }

  /** `compute_tile_coords`: the previous tiles are dropped; tiled mode lays out the grid
      with square tiles, otherwise one tile at the origin covers the whole extents. */
  method ComputeTileCoords(ig: Integrator, width: nat, height: nat) returns (r: Integrator)
    ensures r.(tiles := ig.tiles, tileSize := ig.tileSize) == ig
    ensures !ig.tiled ==> r.tiles == [Coord(0, 0)] && r.tileSize == Coord(width, height)
    ensures ig.tiled ==> r.tileSize == Coord(TileSize, TileSize) && |r.tiles| == TileCount(width) * TileCount(height)
    ensures ig.tiled ==> forall k :: 0 <= k < |r.tiles| ==> r.tiles[k] == GridTile(k, TileCount(height))
  {
    if ig.tiled {
      var tiles := TileGrid(width, height);
      r := ig.(tiles := tiles, tileSize := Coord(TileSize, TileSize));
    } else {
      r := ig.(tiles := [Coord(0, 0)], tileSize := Coord(width, height));
    }
  }

  /** `set_tiled` on its own: the grid is recomputed, but the tile index and the sample
      count are left as they were. Called without a following `restart_bake` part-way
      through a tiled bake, it would leave the tile index past the single tile, so the next
      frame would trace nothing. The editor always restarts the bake after it
      (`ToggleTiled`). */
  method SetTiled(ig: Integrator, tiled: bool, width: nat, height: nat) returns (r: Integrator)
    ensures r.tiled == tiled && r.tileIndex == ig.tileIndex && r.samples == ig.samples && r.maxSamples == ig.maxSamples
    ensures !tiled ==> r.tiles == [Coord(0, 0)] && r.tileSize == Coord(width, height)
    ensures tiled ==> |r.tiles| == TileCount(width) * TileCount(height) && r.tileSize == Coord(TileSize, TileSize)
    ensures !tiled && ig.tileIndex > 1 ==> !InRange(r)
    ensures !tiled && ig.tileIndex >= 1 ==> Render(r, Ready).launch == None
  {
    r := ComputeTileCoords(ig.(tiled := tiled), width, height);
  }

  /** The editor's tiled-rendering checkbox (src/editor/main.cpp:358-367): when the choice
      differs from the current mode, `set_tiled` and then `restart_bake`. */
  method ToggleTiled(ig: Integrator, tiled: bool, width: nat, height: nat) returns (r: Integrator)
    ensures r.tiled == tiled && r.maxSamples == ig.maxSamples
    ensures tiled == ig.tiled ==> r == ig
    ensures tiled != ig.tiled ==> r.tileIndex == 0 && r.samples == 0
    ensures tiled != ig.tiled && !tiled ==> Render(r, Ready).launch == Some(Launch(Coord(0, 0), Coord(width, height), 0))
    ensures tiled != ig.tiled && |r.tiles| > 0 ==> Render(r, Ready).launch == Some(Launch(r.tiles[0], r.tileSize, 0))
  {
    r := ig;
    if ig.tiled != tiled {
      r := SetTiled(ig, tiled, width, height);
      r := r.(tileIndex := 0, samples := 0);
    }
  }

  /** `on_window_resize`: the bake restarts and the grid follows the new extents. */
  method OnWindowResize(ig: Integrator, width: nat, height: nat) returns (r: Integrator)
    ensures r.tileIndex == 0 && r.samples == 0 && r.tiled == ig.tiled && r.maxSamples == ig.maxSamples
    ensures !r.tiled ==> r.tileSize == Coord(width, height)
    ensures r.tiled ==> |r.tiles| == TileCount(width) * TileCount(height)
  {
    r := ComputeTileCoords(ig.(tileIndex := 0, samples := 0), width, height);
  }

  /** One ray launch: the tile origin, the tile size, and the number of samples already
      accumulated into the tile (`num_frames`). */
  datatype Launch = Launch(origin: Coord, size: Coord, numFrames: nat)

  datatype Frame = Frame(integrator: Integrator, launch: Option<Launch>)

  /** `render`: any scene change restarts the bake; while tiles remain, the current tile
      gets one more sample; a tile that has reached the sample budget is finished and the
      next one begins. */
  function Render(ig: Integrator, state: SceneState): (r: Frame)
    ensures r.integrator.(tileIndex := ig.tileIndex, samples := ig.samples) == ig
    ensures var start := if state != Ready then ig.(tileIndex := 0, samples := 0) else ig;
            (r.launch.Some? <==> start.tileIndex < |ig.tiles|)
            && (r.launch.Some? ==> r.launch.value == Launch(ig.tiles[start.tileIndex], ig.tileSize, start.samples))
            && var counted := start.samples + (if r.launch.Some? then 1 else 0);
               (counted == ig.maxSamples ==> r.integrator.samples == 0 && r.integrator.tileIndex == start.tileIndex + 1)
               && (counted != ig.maxSamples ==> r.integrator.samples == counted && r.integrator.tileIndex == start.tileIndex)
  {
    var ig := if state != Ready then ig.(tileIndex := 0, samples := 0) else ig;
    var launch := if ig.tileIndex < |ig.tiles| then Some(Launch(ig.tiles[ig.tileIndex], ig.tileSize, ig.samples)) else None;
    var ig := if launch.Some? then ig.(samples := ig.samples + 1) else ig;
    var ig := if ig.samples == ig.maxSamples then ig.(samples := 0, tileIndex := ig.tileIndex + 1) else ig;
    Frame(ig, launch)
  }

  /** The bake's progress stays in range: at most one past the last tile, fewer samples
      than the budget. */
  predicate InRange(ig: Integrator) {
    ig.tileIndex <= |ig.tiles| && ig.samples < ig.maxSamples
  }

  /** With a budget of at least one sample, every frame keeps the progress in range: the
      tile index never runs past the tile count. */
  lemma RenderKeepsRange(ig: Integrator, state: SceneState)
    requires ig.maxSamples >= 1 && InRange(ig)
    ensures InRange(Render(ig, state).integrator)
  {
  }

  /** A budget of zero samples never finishes a tile: the count grows past the budget and
      the first tile is traced for ever. */
  lemma ZeroBudgetNeverAdvances(ig: Integrator)
    requires ig.maxSamples == 0 && ig.tileIndex < |ig.tiles| && ig.samples >= 1
    ensures Render(ig, Ready).integrator.tileIndex == ig.tileIndex
    ensures Render(ig, Ready).integrator.samples == ig.samples + 1
  {
  }

  /** A finished bake stays finished, and traces nothing, until the scene changes. */
  lemma FinishedBakeIsIdle(ig: Integrator)
    requires ig.maxSamples >= 1 && InRange(ig) && ig.tileIndex == |ig.tiles|
    ensures Render(ig, Ready) == Frame(ig, None)
  {
  }

  /** From a restart, `n` unchanged frames with tiles to trace put the bake at tile
      `n / max`, with `n % max` samples in it. */
  lemma {:induction false} BakeProgress(ig: Integrator, n: nat)
    requires ig.maxSamples >= 1 && ig.tileIndex == 0 && ig.samples == 0
    requires n <= |ig.tiles| * ig.maxSamples
    ensures var r := RenderFrames(ig, n);
            r.tileIndex == n / ig.maxSamples && r.samples == n % ig.maxSamples
  {
    if n > 0 {
      BakeProgress(ig, n - 1);
      var prev := RenderFrames(ig, n - 1);
      var m := ig.maxSamples;
      assert prev.tileIndex < |ig.tiles| by {
        LemmaDivBound(n - 1, m, |ig.tiles|);
      }
      if prev.samples + 1 == m {
        LemmaDivModStep(n - 1, m, true);
      } else {
        LemmaDivModStep(n - 1, m, false);
      }
    }
  }

  /** `n` frames on an unchanged scene. */
  function RenderFrames(ig: Integrator, n: nat): (r: Integrator)
    ensures r.tiles == ig.tiles && r.maxSamples == ig.maxSamples
    decreases n
  {
    if n == 0 then ig else Render(RenderFrames(ig, n - 1), Ready).integrator
  }

  lemma LemmaDivBound(a: nat, m: nat, t: nat)
    requires m >= 1 && a < t * m
    ensures a / m < t
  {
    assert (a / m - t) * m == a / m * m - t * m;
    LemmaMulBounds(a / m - t + 1, m);
  }

  lemma LemmaDivModStep(a: nat, m: nat, wraps: bool)
    requires m >= 1 && wraps == (a % m + 1 == m)
    ensures wraps ==> (a + 1) / m == a / m + 1 && (a + 1) % m == 0
    ensures !wraps ==> (a + 1) / m == a / m && (a + 1) % m == a % m + 1
  {
    if wraps {
      LemmaDivModUnique(a + 1, m, a / m + 1, 0);
    } else {
      LemmaDivModUnique(a + 1, m, a / m, a % m + 1);
    }
  }

  /** `ray_debug_pixel_coord`: the picked pixel with its row counted from the other edge. */
  function DebugPixel(x: int, y: int, height: int): (p: (int, int))
    ensures p.0 == x && p.1 + y == height
  {
    (x, height - y)
  }

  /** For a pick inside the viewport the column is kept and the row lands in 1..height:
      the top row maps to `height` and the bottom row to 1, never to row 0. */
  lemma DebugPixelRange(x: int, y: int, width: int, height: int)
    requires 0 <= x < width && 0 <= y < height
    ensures var p := DebugPixel(x, y, height);
            0 <= p.0 < width && 1 <= p.1 <= height
            && (y == 0 <==> p.1 == height) && (y == height - 1 <==> p.1 == 1)
  {
  }
}

=== FILE: registrar.dfy ===
/** The resource registrar of `Scene::create_gpu_resources`
    (src/engine/resource/scene.cpp:915-1311): on a hierarchy-updated frame it walks the
    listed mesh instances in order, gives every distinct mesh a vertex/index-buffer slot,
    packs a material record for every distinct material of a mesh's first instance,
    deduplicates textures across the whole pass and records area lights; on every non-ready
    frame it writes one instance record per mesh instance and the light records.

    Descriptor tables and mapped buffers are sequences of abstract records; a buffer or image
    descriptor is represented by the id of the resource it points at. */
module Registrar {
  import opened Types
  import opened SceneGraph
  import opened Traversal

  // ---------------------------------------------------------------------------------------
  // GPU records
  // ---------------------------------------------------------------------------------------

  datatype Int4 = Int4(x: int, y: int, z: int, w: int)

  const NoTextures: Int4 := Int4(-1, -1, -1, -1)

  /** The albedo written into a material record: zero, or the material's albedo value taken
      from sRGB to linear (the `pow(c, 2.2)` is not evaluated). */
  datatype Albedo = ZeroAlbedo | LinearAlbedo(srgb: Rgba)

  /** `MaterialData`: texture slots (albedo, normal, roughness, metallic) and (emissive, -,
      roughness array index, metallic array index), then the fallback values. */
  datatype MaterialRecord = MaterialRecord(
    textureIndices0: Int4,
    textureIndices1: Int4,
    albedo: Albedo,
    emissive: Rgba,
    roughness: real,
    metallic: real)

  /** `LightData`, by light type. Directions, positions and cone cosines are float maths and
      are represented by the node they come from. */
  datatype LightRecord =
    | AreaLight(instance: nat, materialIndex: nat, primitiveOffset: nat, primitiveCount: nat)
    | EnvironmentLight
    | DirectionalLight(nodeId: nat, color: Vec3, direction: Vec3Term, intensity: real, radius: real)
    | PointLight(nodeId: nat, color: Vec3, intensity: real, position: Vec3Term, radius: real)
    | SpotLight(nodeId: nat, color: Vec3, direction: Vec3Term, intensity: real, position: Vec3Term, radius: real,
                innerCone: real, outerCone: real)

  /** `LightType`: directional 0, spot 1, point 2, environment map 3, area 4. */
  function LightTypeCode(l: LightRecord): (c: nat)
    ensures c < 5
  {
    match l
    case DirectionalLight(_, _, _, _, _) => 0
    case SpotLight(_, _, _, _, _, _, _, _) => 1
    case PointLight(_, _, _, _, _) => 2
    case EnvironmentLight => 3
    case AreaLight(_, _, _, _) => 4
  }

  /** The type code tells the shader which kind of light a record is: two records share a
      code exactly when they are lights of the same kind. */
  lemma LightTypeCodeIdentifiesKind(a: LightRecord, b: LightRecord)
    ensures LightTypeCode(a) == LightTypeCode(b) <==>
              a.AreaLight? == b.AreaLight? && a.EnvironmentLight? == b.EnvironmentLight?
              && a.DirectionalLight? == b.DirectionalLight? && a.PointLight? == b.PointLight?
              && a.SpotLight? == b.SpotLight?
  {
  }

  /** One entry of a mesh node's material-indices buffer: (base_index / 3, material slot). */
  datatype PrimitiveMaterial = PrimitiveMaterial(primitiveOffset: nat, materialIndex: nat)

  /** A TLAS instance and its `InstanceData`, written together per mesh instance. */
  datatype InstanceRecord = InstanceRecord(customIndex: nat, meshIndex: nat, meshId: nat, transform: Mat, normalMatrix: Mat)

  // ---------------------------------------------------------------------------------------
  // Mesh instances as the registrar reads them
  // ---------------------------------------------------------------------------------------

  /** A listed mesh instance the registrar can process: it holds a mesh, every submesh's
      material slot is in range, and the slot holds a material unless the node overrides it
      (the code indexes `materials[mat_idx]` and dereferences the result unchecked). */
  predicate IsMeshVisit(v: Visit) {
    v.kind.MeshKind? && v.kind.mesh.Some?
    && forall k :: 0 <= k < |v.kind.mesh.value.submeshes| ==>
         v.kind.mesh.value.submeshes[k].matIdx < |v.kind.mesh.value.materials|
         && (v.kind.materialOverride.Some? || v.kind.mesh.value.materials[v.kind.mesh.value.submeshes[k].matIdx].Some?)
  }

  predicate AllMeshVisits(ms: seq<Visit>) {
    forall j :: 0 <= j < |ms| ==> IsMeshVisit(ms[j])
  }

  function MeshOf(v: Visit): Mesh
    requires IsMeshVisit(v)
  {
    v.kind.mesh.value
  }

  /** The material a submesh is drawn with: the node's override if it has one, otherwise
      the mesh's material for that submesh. */
  function EffectiveMaterial(v: Visit, k: nat): Material
    requires IsMeshVisit(v) && k < |MeshOf(v).submeshes|
  {
    if v.kind.materialOverride.Some? then v.kind.materialOverride.value
    else MeshOf(v).materials[MeshOf(v).submeshes[k].matIdx].value
  }

  /** The effective materials of the first `k` submeshes, in submesh order. */
  function EffectivePrefix(v: Visit, k: nat): (r: seq<Material>)
    requires IsMeshVisit(v) && k <= |MeshOf(v).submeshes|
    ensures |r| == k
  {
    if k == 0 then [] else EffectivePrefix(v, k - 1) + [EffectiveMaterial(v, k - 1)]
  }

  function EffectiveMaterials(v: Visit): (r: seq<Material>)
    requires IsMeshVisit(v)
  {
    EffectivePrefix(v, |MeshOf(v).submeshes|)
  }

  function MeshIds(ms: seq<Visit>): (r: seq<nat>)
    requires AllMeshVisits(ms)
    ensures |r| == |ms|
    ensures forall j :: 0 <= j < |ms| ==> r[j] == MeshOf(ms[j]).id
  {
    seq(|ms|, j requires 0 <= j < |ms| => MeshOf(ms[j]).id)
  }

  function MaterialIds(s: seq<Material>): (r: seq<nat>)
    ensures |r| == |s|
    ensures forall j :: 0 <= j < |s| ==> r[j] == s[j].id
  {
    seq(|s|, j requires 0 <= j < |s| => s[j].id)
  }

  // ---------------------------------------------------------------------------------------
  // Maps with C++ `operator[]` semantics
  // ---------------------------------------------------------------------------------------

  datatype Lookup = Lookup(value: nat, table: map<nat, nat>)

  /** `unordered_map<uint32_t, uint32_t>::operator[]`: a missing key is inserted with 0. */
  function LookupOrInsert(m: map<nat, nat>, k: nat): (r: Lookup)
    ensures k in r.table && r.value == r.table[k]
    ensures k in m ==> r.table == m && r.value == m[k]
    ensures k !in m ==> r.value == 0
    ensures forall x :: x in m ==> x in r.table && r.table[x] == m[x]
  {
    if k in m then Lookup(m[k], m) else Lookup(0, m[k := 0])
  }

  // ---------------------------------------------------------------------------------------
  // Texture deduplication
  // ---------------------------------------------------------------------------------------

  /** The image-descriptor list of a pass holds the ids of the textures registered so far, in
      registration order; membership in it is the pass's `processed_textures` test. */
  datatype TextureSlot = TextureSlot(images: seq<nat>, index: int)

  /** One texture role of a material: a texture not seen before in this pass is appended to
      the image list and its position becomes the role's index; an absent or already
      registered texture leaves the role at -1. */
  function AddTexture(images: seq<nat>, tex: Option<Texture>): (r: TextureSlot)
    ensures r.index >= 0 <==> tex.Some? && tex.value.id !in images
    ensures r.index >= 0 ==> r.index == |images| && r.images == images + [tex.value.id]
    ensures r.index < 0 ==> r.index == -1 && r.images == images
  {
    if tex.Some? && tex.value.id !in images then TextureSlot(images + [tex.value.id], |images|)
    else TextureSlot(images, -1)
  }

  /** The ids of the textures present in a role list. */
  function PresentIds(texs: seq<Option<Texture>>): seq<nat>
    decreases |texs|
  {
    if |texs| == 0 then []
    else PresentIds(texs[..|texs| - 1]) + (if texs[|texs| - 1].Some? then [texs[|texs| - 1].value.id] else [])
  }

  datatype Slots = Slots(images: seq<nat>, indices: seq<int>)

  /** A material's texture roles taken in order, each through `AddTexture`. */
  function AddTextures(images: seq<nat>, texs: seq<Option<Texture>>): (r: Slots)
    ensures |r.indices| == |texs|
    decreases |texs|
  {
    if |texs| == 0 then Slots(images, [])
    else
      var prev := AddTextures(images, texs[..|texs| - 1]);
      var slot := AddTexture(prev.images, texs[|texs| - 1]);
      Slots(slot.images, prev.indices + [slot.index])
  }

  /** The image list only grows, by exactly the textures of the roles. */
  lemma {:induction false} AddTexturesImages(images: seq<nat>, texs: seq<Option<Texture>>)
    ensures var r := AddTextures(images, texs);
            images <= r.images && forall x :: x in r.images <==> x in images || x in PresentIds(texs)
    decreases |texs|
  {
    if |texs| > 0 {
      AddTexturesImages(images, texs[..|texs| - 1]);
    }
  }

  /** Taking the roles one more step leaves the indices of the earlier roles alone. */
  lemma AddTexturesSnoc(images: seq<nat>, texs: seq<Option<Texture>>, j: nat)
    requires j < |texs|
    ensures AddTextures(images, texs[..j + 1]).indices
            == AddTextures(images, texs[..j]).indices + [AddTexture(AddTextures(images, texs[..j]).images, texs[j]).index]
  {
    assert texs[..j + 1][..j] == texs[..j];
  }

  /** Role `j`'s index is fixed once role `j` has been taken. */
  lemma {:induction false} AddTexturesPrefix(images: seq<nat>, texs: seq<Option<Texture>>, j: nat)
    requires j < |texs|
    ensures AddTextures(images, texs).indices[j] == AddTextures(images, texs[..j + 1]).indices[j]
    ensures AddTextures(images, texs[..j + 1]).images <= AddTextures(images, texs).images
    decreases |texs|
  {
    if j + 1 < |texs| {
      var init := texs[..|texs| - 1];
      AddTexturesPrefix(images, init, j);
      assert init[..j + 1] == texs[..j + 1];
    } else {
      assert texs[..j + 1] == texs;
    }
  }

  /** A role gets the next image slot exactly when it has a texture that neither an earlier
      material of the pass nor an earlier role of this material registered; every other
      role stays -1. */
  lemma AddTexturesSlot(images: seq<nat>, texs: seq<Option<Texture>>, j: nat)
    requires j < |texs|
    ensures var r := AddTextures(images, texs);
            r.indices[j] >= -1
            && (r.indices[j] >= 0 <==> texs[j].Some? && texs[j].value.id !in images && texs[j].value.id !in PresentIds(texs[..j]))
            && (r.indices[j] >= 0 ==> r.indices[j] < |r.images| && r.images[r.indices[j]] == texs[j].value.id)
  {
    AddTexturesPrefix(images, texs, j);
    AddTexturesSnoc(images, texs, j);
    AddTexturesImages(images, texs[..j]);
    var before := AddTextures(images, texs[..j]).images;
    var slot := AddTexture(before, texs[j]);
    assert AddTextures(images, texs[..j + 1]).images == slot.images by {
      assert texs[..j + 1][..j] == texs[..j];
    }
  }

  /** The five roles in the order the registrar visits them. */
  function Roles(mat: Material): (r: seq<Option<Texture>>)
    ensures |r| == 5
  {
    [AlbedoTexture(mat), NormalTexture(mat), RoughnessTexture(mat), MetallicTexture(mat), EmissiveTexture(mat)]
  }

  datatype Packed = Packed(images: seq<nat>, record: MaterialRecord)

  /** The material record of a newly seen material: the roles take texture slots; the
      albedo, roughness, metallic and emissive fallbacks are written only when the material
      has no texture for that role, so a role whose texture was already registered keeps
      index -1 and also keeps the zero default. */
  function PackMaterial(images: seq<nat>, mat: Material): (r: Packed)
    ensures r.record.textureIndices1.y == -1
    ensures r.record.albedo == (if AlbedoTexture(mat).Some? then ZeroAlbedo else LinearAlbedo(mat.albedoValue))
    ensures r.record.emissive == (if EmissiveTexture(mat).Some? then Black else mat.emissiveValue)
    ensures r.record.roughness == (if RoughnessTexture(mat).Some? then 0.0 else mat.roughnessValue)
    ensures r.record.metallic == (if MetallicTexture(mat).Some? then 0.0 else mat.metallicValue)
    ensures r.record.textureIndices1.z == (if r.record.textureIndices0.z >= 0 then InfoIndex(mat.roughnessInfo) else -1)
    ensures r.record.textureIndices1.w == (if r.record.textureIndices0.w >= 0 then InfoIndex(mat.metallicInfo) else -1)
  {
    var s := AddTextures(images, Roles(mat));
    var ix := s.indices;
    var record := MaterialRecord(
      Int4(ix[0], ix[1], ix[2], ix[3]),
      Int4(ix[4], -1,
           if ix[2] >= 0 then InfoIndex(mat.roughnessInfo) else -1,
           if ix[3] >= 0 then InfoIndex(mat.metallicInfo) else -1),
      if AlbedoTexture(mat).Some? then ZeroAlbedo else LinearAlbedo(mat.albedoValue),
      if EmissiveTexture(mat).Some? then Black else mat.emissiveValue,
      if RoughnessTexture(mat).Some? then 0.0 else mat.roughnessValue,
      if MetallicTexture(mat).Some? then 0.0 else mat.metallicValue);
    Packed(s.images, record)
  }

  /** The role indices of a packed record, in role order. */
  function RecordIndices(rec: MaterialRecord): seq<int> {
    [rec.textureIndices0.x, rec.textureIndices0.y, rec.textureIndices0.z, rec.textureIndices0.w, rec.textureIndices1.x]
  }

  /** Texture deduplication across the pass: each role index of a new material's record is
      either -1 or the image slot holding that role's texture, and it is a slot exactly when
      the texture is new to the pass and to the material's earlier roles. A texture that an
      earlier material registered therefore leaves the role at -1 rather than reusing the
      earlier slot. */
  lemma PackMaterialSlots(images: seq<nat>, mat: Material, j: nat)
    requires j < 5
    ensures var r := PackMaterial(images, mat);
            var roles := Roles(mat);
            images <= r.images
            && RecordIndices(r.record)[j] >= -1
            && (RecordIndices(r.record)[j] >= 0 <==> roles[j].Some? && roles[j].value.id !in images && roles[j].value.id !in PresentIds(roles[..j]))
            && (RecordIndices(r.record)[j] >= 0 ==>
                  RecordIndices(r.record)[j] < |r.images| && r.images[RecordIndices(r.record)[j]] == roles[j].value.id)
  {
    var s := AddTextures(images, Roles(mat));
    AddTexturesImages(images, Roles(mat));
    AddTexturesSlot(images, Roles(mat), j);
    assert RecordIndices(PackMaterial(images, mat).record) == s.indices;
  }

  // ---------------------------------------------------------------------------------------
  // Reference definitions of what a pass registers
  // ---------------------------------------------------------------------------------------

  /** Whether the `n`-th listed instance is the first one of its mesh. */
  predicate IsFirstInstance(ms: seq<Visit>, n: nat)
    requires AllMeshVisits(ms) && n < |ms|
  {
    MeshOf(ms[n]).id !in MeshIds(ms[..n])
  }

  /** The effective materials of the first instance of each mesh among the first `n`
      instances, in listing order: materials are looked at only on a mesh's first instance. */
  function FirstInstanceMaterials(ms: seq<Visit>, n: nat): seq<Material>
    requires AllMeshVisits(ms) && n <= |ms|
  {
    if n == 0 then []
    else FirstInstanceMaterials(ms, n - 1) + (if IsFirstInstance(ms, n - 1) then EffectiveMaterials(ms[n - 1]) else [])
  }

  /** The materials of `s` that are the first with their id, in order. */
  function FirstById(s: seq<Material>): (r: seq<Material>)
    decreases |s|
  {
    if |s| == 0 then []
    else
      var d := FirstById(s[..|s| - 1]);
      if s[|s| - 1].id in MaterialIds(d) then d else d + [s[|s| - 1]]
  }

  /** The texture list and material records produced by packing `mats` in order. */
  datatype MaterialTable = MaterialTable(images: seq<nat>, records: seq<MaterialRecord>)

  function PackAll(mats: seq<Material>): (r: MaterialTable)
    ensures |r.records| == |mats|
    decreases |mats|
  {
    if |mats| == 0 then MaterialTable([], [])
    else
      var t := PackAll(mats[..|mats| - 1]);
      var packed := PackMaterial(t.images, mats[|mats| - 1]);
      MaterialTable(packed.images, t.records + [packed.record])
  }

  /** The area lights of one first instance `i` whose earlier instances registered `seen`,
      for its first `k` submeshes: one per emissive submesh, naming the instance, the slot
      its material holds once registered, and the submesh's triangle range. */
  function InstanceAreaLights(v: Visit, i: nat, seen: seq<Material>, isEmissive: Material -> bool, k: nat): seq<LightRecord>
    requires IsMeshVisit(v) && k <= |MeshOf(v).submeshes|
  {
    if k == 0 then []
    else
      var mat := EffectiveMaterial(v, k - 1);
      var sub := MeshOf(v).submeshes[k - 1];
      var ids := MaterialIds(FirstById(seen + EffectivePrefix(v, k)));
      InstanceAreaLights(v, i, seen, isEmissive, k - 1)
        + (if isEmissive(mat) then [AreaLight(i, Slot(ids, mat.id), sub.baseIndex / 3, sub.indexCount / 3)] else [])
  }

  /** The area lights of the first `n` instances. */
  function AreaLightsOf(ms: seq<Visit>, n: nat, isEmissive: Material -> bool): seq<LightRecord>
    requires AllMeshVisits(ms) && n <= |ms|
  {
    if n == 0 then []
    else
      AreaLightsOf(ms, n - 1, isEmissive)
        + (if IsFirstInstance(ms, n - 1)
           then InstanceAreaLights(ms[n - 1], n - 1, FirstInstanceMaterials(ms, n - 1), isEmissive, |MeshOf(ms[n - 1]).submeshes|)
           else [])
  }

  /** The slot a lookup of a material id yields: its registration position, or 0. */
  function Slot(ids: seq<nat>, x: nat): nat {
    if x in ids then IndexOf(ids, x) else 0
  }

  // ---------------------------------------------------------------------------------------
  // Sequence facts used below
  // ---------------------------------------------------------------------------------------

  lemma MaterialIdsAppend(a: seq<Material>, b: seq<Material>)
    ensures MaterialIds(a + b) == MaterialIds(a) + MaterialIds(b)
  {
  }

  lemma FirstByIdSnoc(s: seq<Material>, m: Material)
    ensures FirstById(s + [m]) == if m.id in MaterialIds(FirstById(s)) then FirstById(s) else FirstById(s) + [m]
  {
    assert (s + [m])[..|s + [m]| - 1] == s;
  }

  /** The submeshes processed so far, after the materials seen before the instance. */
  lemma SeenSnoc(seen: seq<Material>, v: Visit, k: nat)
    requires IsMeshVisit(v) && k < |MeshOf(v).submeshes|
    ensures seen + EffectivePrefix(v, k + 1) == (seen + EffectivePrefix(v, k)) + [EffectiveMaterial(v, k)]
  {
  }

  lemma InstanceAreaLightsSnoc(v: Visit, i: nat, seen: seq<Material>, isEmissive: Material -> bool, k: nat)
    requires IsMeshVisit(v) && k < |MeshOf(v).submeshes|
    ensures var mat := EffectiveMaterial(v, k);
            var sub := MeshOf(v).submeshes[k];
            InstanceAreaLights(v, i, seen, isEmissive, k + 1)
              == InstanceAreaLights(v, i, seen, isEmissive, k)
                 + (if isEmissive(mat)
                    then [AreaLight(i, Slot(MaterialIds(FirstById(seen + EffectivePrefix(v, k + 1))), mat.id), sub.baseIndex / 3, sub.indexCount / 3)]
                    else [])
  {
  }

  lemma EmptyPrefix(seen: seq<Material>, v: Visit)
    requires IsMeshVisit(v)
    ensures seen + EffectivePrefix(v, 0) == seen
  {
  }

  lemma MeshIdsSnoc(ms: seq<Visit>, n: nat)
    requires AllMeshVisits(ms) && n < |ms|
    ensures MeshIds(ms[..n + 1]) == MeshIds(ms[..n]) + [MeshOf(ms[n]).id]
    ensures Ids(ms[..n + 1]) == Ids(ms[..n]) + [ms[n].id]
  {
  }

  lemma FirstInstanceMaterialsSnoc(ms: seq<Visit>, n: nat)
    requires AllMeshVisits(ms) && n < |ms|
    ensures FirstInstanceMaterials(ms, n + 1)
            == FirstInstanceMaterials(ms, n) + (if IsFirstInstance(ms, n) then EffectiveMaterials(ms[n]) else [])
    ensures FirstInstanceMaterials(ms, n) + [] == FirstInstanceMaterials(ms, n)
  {
  }

  // ---------------------------------------------------------------------------------------
  /** The first-by-id materials hold every id of `s`, each once. */
  lemma {:induction false} FirstByIdIds(s: seq<Material>)
    ensures forall x :: x in MaterialIds(FirstById(s)) <==> x in MaterialIds(s)
    ensures NoDuplicates(MaterialIds(FirstById(s)))
    decreases |s|
  {
    if |s| > 0 {
      var init := s[..|s| - 1];
      var m := s[|s| - 1];
      FirstByIdIds(init);
      assert s == init + [m];
      FirstByIdSnoc(init, m);
      MaterialIdsAppend(init, [m]);
      MaterialIdsAppend(FirstById(init), [m]);
    }
  }

  /** The material kept for an id is the first one of `s` with that id. */
  lemma {:induction false} FirstByIdFirst(s: seq<Material>, j: nat)
    requires j < |FirstById(s)|
    ensures FirstById(s)[j].id in MaterialIds(s)
    ensures FirstById(s)[j] == s[IndexOf(MaterialIds(s), FirstById(s)[j].id)]
    decreases |s|
  {
    var init := s[..|s| - 1];
    var m := s[|s| - 1];
    var d := FirstById(init);
    var x := FirstById(s)[j];
    assert s == init + [m];
    FirstByIdSnoc(init, m);
    MaterialIdsAppend(init, [m]);
    var ids := MaterialIds(init);
    assert MaterialIds(s) == ids + [m.id];
    IndexOfSnoc(ids, m.id, x.id);
    if j < |d| {
      FirstByIdFirst(init, j);
      assert x == d[j];
      var k := IndexOf(ids, x.id);
      assert s[k] == init[k];
    } else {
      FirstByIdIds(init);
      MaterialIdsAppend(d, [m]);
      assert x == m && m.id !in ids;
    }
  }

  /** Some material's role refers to texture id `x`. */
  ghost predicate Referenced(mats: seq<Material>, x: nat) {
    exists j :: 0 <= j < |mats| && x in PresentIds(Roles(mats[j]))
  }

  lemma ReferencedSnoc(mats: seq<Material>, x: nat)
    requires |mats| > 0
    ensures Referenced(mats, x) <==> Referenced(mats[..|mats| - 1], x) || x in PresentIds(Roles(mats[|mats| - 1]))
  {
    var init := mats[..|mats| - 1];
    if Referenced(init, x) {
      var j :| 0 <= j < |init| && x in PresentIds(Roles(init[j]));
      assert mats[j] == init[j];
    }
    if Referenced(mats, x) {
      var j :| 0 <= j < |mats| && x in PresentIds(Roles(mats[j]));
      if j < |init| {
        assert mats[j] == init[j];
      }
    }
  }

  /** The images of a packed material table are distinct, and they are exactly the
      textures some material's role refers to. */
  lemma {:induction false} PackAllImages(mats: seq<Material>)
    ensures NoDuplicates(PackAll(mats).images)
    ensures forall x :: x in PackAll(mats).images <==> Referenced(mats, x)
    decreases |mats|
  {
    if |mats| > 0 {
      var init := mats[..|mats| - 1];
      var m := mats[|mats| - 1];
      PackAllImages(init);
      var t := PackAll(init);
      AddTexturesImages(t.images, Roles(m));
      AddTexturesDistinct(t.images, Roles(m));
      forall x
        ensures x in PackAll(mats).images <==> Referenced(mats, x)
      {
        ReferencedSnoc(mats, x);
      }
    }
  }

  lemma {:induction false} AddTexturesDistinct(images: seq<nat>, texs: seq<Option<Texture>>)
    requires NoDuplicates(images)
    ensures NoDuplicates(AddTextures(images, texs).images)
    decreases |texs|
  {
    if |texs| > 0 {
      AddTexturesDistinct(images, texs[..|texs| - 1]);
    }
  }

  /** Materials are registered only on a mesh's first instance: a later instance whose
      effective material was registered by no first instance reads slot 0, whatever
      material holds that slot. */
  lemma UnregisteredReadsSlotZero(ms: seq<Visit>, n: nat, k: nat, pairs: seq<PrimitiveMaterial>)
    requires AllMeshVisits(ms) && n < |ms| && k < |MeshOf(ms[n]).submeshes|
    requires PairsAre(ms[n], MaterialIds(FirstById(FirstInstanceMaterials(ms, n + 1))), pairs)
    requires !IsFirstInstance(ms, n)
    requires EffectiveMaterial(ms[n], k).id !in MaterialIds(FirstInstanceMaterials(ms, n))
    ensures pairs[k].materialIndex == 0
  {
    FirstInstanceMaterialsSnoc(ms, n);
    FirstByIdIds(FirstInstanceMaterials(ms, n));
  }

  // ---------------------------------------------------------------------------------------
  // The registration pass
  // ---------------------------------------------------------------------------------------

  /** The working state of a hierarchy-updated pass. `meshIndices` is the scene's persistent
      `m_global_mesh_indices`; everything else starts empty.
      - `meshes`: the processed meshes in slot order; the vertex- and index-buffer descriptor
        lists hold one entry per element, pointing at that mesh's buffers, and the mesh
        counter is its length;
      - `materials`: the processed materials in slot order (the material counter is its
        length); their records and the texture list are `PackAll(materials)`, see
        `MaterialBuffer`;
      - `materialIndex`: the pass's `global_material_indices` map. */
  datatype Pass = Pass(
    meshIndices: map<nat, nat>,
    meshes: seq<nat>,
    materials: seq<Material>,
    materialIndex: map<nat, nat>,
    areaLights: seq<LightRecord>,
    materialIndicesDescriptors: seq<nat>,
    primitiveMaterials: seq<seq<PrimitiveMaterial>>)

  /** Every material's slot is recorded in the material-index map (so no material holds two
      slots); ids the map holds without a slot (inserted by a lookup) read 0. */
  predicate IndexMatches(ids: seq<nat>, m: map<nat, nat>) {
    (forall j :: 0 <= j < |ids| ==> ids[j] in m && m[ids[j]] == j)
    && (forall x :: x in m && x !in ids ==> m[x] == 0)
  }

  /** Under `IndexMatches`, `operator[]` on the material-index map yields `Slot`, and only
      ever inserts 0 under an id without a slot. */
  lemma LookupIsSlot(ids: seq<nat>, m: map<nat, nat>, x: nat)
    requires IndexMatches(ids, m)
    ensures LookupOrInsert(m, x).value == Slot(ids, x)
    ensures IndexMatches(ids, LookupOrInsert(m, x).table)
  {
    if x in ids {
      IndexOfCharacterised(ids, x, m[x]);
    }
  }

  /** The materials registered before a point of the pass are the first-by-id materials
      seen, and the material-index map is in step with their slots. */
  ghost predicate MaterialsAre(p: Pass, registered: seq<Material>) {
    p.materials == FirstById(registered)
    && IndexMatches(MaterialIds(p.materials), p.materialIndex)
  }

  /** A newly seen material takes the next slot, and that slot is entered in the
      material-index map; an already registered id changes nothing. */
  function AddMaterial(p: Pass, mat: Material): (r: Pass)
    ensures r.meshIndices == p.meshIndices && r.meshes == p.meshes && r.areaLights == p.areaLights
    ensures r.materialIndicesDescriptors == p.materialIndicesDescriptors && r.primitiveMaterials == p.primitiveMaterials
  {
    if mat.id in MaterialIds(p.materials) then p
    else p.(materials := p.materials + [mat], materialIndex := p.materialIndex[mat.id := |p.materials|])
  }

  /** Registration keeps the pass in step with the reference. */
  lemma AddMaterialStep(p: Pass, registered: seq<Material>, mat: Material)
    requires MaterialsAre(p, registered)
    ensures MaterialsAre(AddMaterial(p, mat), registered + [mat])
  {
    FirstByIdSnoc(registered, mat);
    if mat.id !in MaterialIds(p.materials) {
      MaterialIdsAppend(p.materials, [mat]);
      var r := AddMaterial(p, mat);
      assert forall j :: 0 <= j < |p.materials| ==> MaterialIds(r.materials)[j] == MaterialIds(p.materials)[j];
    }
  }

  /** The submeshes of a mesh's first instance (scene.cpp's inner loop): each effective
      material is registered if its id is new, and each emissive one adds an area light
      naming the instance, the material's slot and the submesh's triangle range. */
  method RegisterSubmeshes(p: Pass, i: nat, v: Visit, isEmissive: Material -> bool, ghost seen: seq<Material>) returns (r: Pass)
    requires IsMeshVisit(v) && MaterialsAre(p, seen)
    ensures MaterialsAre(r, seen + EffectiveMaterials(v))
    ensures r.areaLights == p.areaLights + InstanceAreaLights(v, i, seen, isEmissive, |MeshOf(v).submeshes|)
    ensures r.meshIndices == p.meshIndices && r.meshes == p.meshes
    ensures r.materialIndicesDescriptors == p.materialIndicesDescriptors && r.primitiveMaterials == p.primitiveMaterials
  {
    r := p;
    var k := 0;
    EmptyPrefix(seen, v);
    while k < |MeshOf(v).submeshes|
      invariant k <= |MeshOf(v).submeshes|
      invariant SubmeshesAt(p, r, i, v, k, isEmissive, seen)
    {
      r := SubmeshStep(p, r, i, v, k, isEmissive, seen);
      k := k + 1;
    }
  }

  /** One turn of the loop above keeps its invariant. */
  method SubmeshStep(p: Pass, r: Pass, i: nat, v: Visit, k: nat, isEmissive: Material -> bool, ghost seen: seq<Material>) returns (r': Pass)
    requires IsMeshVisit(v) && k < |MeshOf(v).submeshes|
    requires SubmeshesAt(p, r, i, v, k, isEmissive, seen)
    ensures SubmeshesAt(p, r', i, v, k + 1, isEmissive, seen)
  {
    SeenSnoc(seen, v, k);
    InstanceAreaLightsSnoc(v, i, seen, isEmissive, k);
    r' := RegisterSubmesh(r, i, v, k, isEmissive, seen + EffectivePrefix(v, k));
  }

  /** The pass after the first `k` submeshes of the loop above. */
  ghost predicate SubmeshesAt(p: Pass, r: Pass, i: nat, v: Visit, k: nat, isEmissive: Material -> bool, seen: seq<Material>)
    requires IsMeshVisit(v) && k <= |MeshOf(v).submeshes|
  {
    MaterialsAre(r, seen + EffectivePrefix(v, k))
    && r.areaLights == p.areaLights + InstanceAreaLights(v, i, seen, isEmissive, k)
    && r.meshIndices == p.meshIndices && r.meshes == p.meshes
    && r.materialIndicesDescriptors == p.materialIndicesDescriptors && r.primitiveMaterials == p.primitiveMaterials
  }

  /** Submesh `k` of the loop above: its effective material is registered, and an area
      light is added when it is emissive. */
  method RegisterSubmesh(p: Pass, i: nat, v: Visit, k: nat, isEmissive: Material -> bool, ghost registered: seq<Material>) returns (r: Pass)
    requires IsMeshVisit(v) && k < |MeshOf(v).submeshes| && MaterialsAre(p, registered)
    ensures MaterialsAre(r, registered + [EffectiveMaterial(v, k)])
    ensures var mat := EffectiveMaterial(v, k);
            var sub := MeshOf(v).submeshes[k];
            r.areaLights == p.areaLights
              + (if isEmissive(mat) then [AreaLight(i, Slot(MaterialIds(FirstById(registered + [mat])), mat.id), sub.baseIndex / 3, sub.indexCount / 3)] else [])
    ensures r.meshIndices == p.meshIndices && r.meshes == p.meshes
    ensures r.materialIndicesDescriptors == p.materialIndicesDescriptors && r.primitiveMaterials == p.primitiveMaterials
  {
    var mat := EffectiveMaterial(v, k);
    var sub := MeshOf(v).submeshes[k];
    AddMaterialStep(p, registered, mat);
    r := AddMaterial(p, mat);
    if isEmissive(mat) {
      LookupIsSlot(MaterialIds(r.materials), r.materialIndex, mat.id);
      var l := LookupOrInsert(r.materialIndex, mat.id);
      r := r.(materialIndex := l.table,
              areaLights := r.areaLights + [AreaLight(i, l.value, sub.baseIndex / 3, sub.indexCount / 3)]);
    }
  }

  /** One mesh node's entries of its material-indices buffer: per submesh, its first
      triangle and the slot the material-index map yields for its effective material. */
  predicate PairsAre(v: Visit, ids: seq<nat>, pairs: seq<PrimitiveMaterial>)
    requires IsMeshVisit(v)
  {
    |pairs| == |MeshOf(v).submeshes|
    && forall k :: 0 <= k < |pairs| ==>
         pairs[k] == PrimitiveMaterial(MeshOf(v).submeshes[k].baseIndex / 3, Slot(ids, EffectiveMaterial(v, k).id))
  }

  /** The "set submesh materials" loop, run for every listed instance: each lookup goes
      through `operator[]`, so a material that was never registered reads slot 0 (and its
      id is entered under 0). */
  method InstancePairs(v: Visit, ids: seq<nat>, table: map<nat, nat>) returns (t: map<nat, nat>, pairs: seq<PrimitiveMaterial>)
    requires IsMeshVisit(v) && IndexMatches(ids, table)
    ensures IndexMatches(ids, t) && PairsAre(v, ids, pairs)
    ensures forall x :: x in table ==> x in t && t[x] == table[x]
  {
    t := table;
    pairs := [];
    var k := 0;
    while k < |MeshOf(v).submeshes|
      invariant k <= |MeshOf(v).submeshes| && |pairs| == k
      invariant IndexMatches(ids, t)
      invariant forall x :: x in table ==> x in t && t[x] == table[x]
      invariant forall j :: 0 <= j < k ==>
                  pairs[j] == PrimitiveMaterial(MeshOf(v).submeshes[j].baseIndex / 3, Slot(ids, EffectiveMaterial(v, j).id))
    {
      var mat := EffectiveMaterial(v, k);
      LookupIsSlot(ids, t, mat.id);
      var l := LookupOrInsert(t, mat.id);
      t := l.table;
      pairs := pairs + [PrimitiveMaterial(MeshOf(v).submeshes[k].baseIndex / 3, l.value)];
      k := k + 1;
    }
  }

  /** The persistent mesh-index map after a pass that registered `meshes` in slot order:
      each registered mesh maps to its slot, ids of earlier passes keep their old slot, and
      no other key appears. */
  ghost predicate MeshSlots(meshes: seq<nat>, before: map<nat, nat>, after: map<nat, nat>) {
    (forall j :: 0 <= j < |meshes| ==> meshes[j] in after && after[meshes[j]] == j)
    && (forall x :: x in after <==> x in before || x in meshes)
    && (forall x :: x in before && x !in meshes ==> after[x] == before[x])
  }

  lemma MeshSlotsSnoc(meshes: seq<nat>, before: map<nat, nat>, after: map<nat, nat>, id: nat)
    requires MeshSlots(meshes, before, after) && id !in meshes
    ensures MeshSlots(meshes + [id], before, after[id := |meshes|])
  {
  }

  /** The pass after its first `n` instances, against the reference definitions. */
  ghost predicate PassAt(p: Pass, ms: seq<Visit>, n: nat, meshIndices: map<nat, nat>, isEmissive: Material -> bool)
    requires AllMeshVisits(ms) && n <= |ms|
  {
    p.meshes == Dedup(MeshIds(ms[..n]))
    && MeshSlots(p.meshes, meshIndices, p.meshIndices)
    && MaterialsAre(p, FirstInstanceMaterials(ms, n))
    && p.areaLights == AreaLightsOf(ms, n, isEmissive)
    && p.materialIndicesDescriptors == Ids(ms[..n])
    && PrimitivesAre(p.primitiveMaterials, ms, n)
  }

  /** The material-indices buffers of the first `n` instances: instance `j`'s lookups see
      the materials registered up to and including instance `j`. */
  ghost predicate PrimitivesAre(prims: seq<seq<PrimitiveMaterial>>, ms: seq<Visit>, n: nat)
    requires AllMeshVisits(ms) && n <= |ms|
    decreases n
  {
    |prims| == n
    && (n > 0 ==>
          PrimitivesAre(prims[..n - 1], ms, n - 1)
          && PairsAre(ms[n - 1], MaterialIds(FirstById(FirstInstanceMaterials(ms, n))), prims[n - 1]))
  }

  lemma PrimitivesSnoc(prims: seq<seq<PrimitiveMaterial>>, ms: seq<Visit>, n: nat, pairs: seq<PrimitiveMaterial>)
    requires AllMeshVisits(ms) && n < |ms| && PrimitivesAre(prims, ms, n)
    requires PairsAre(ms[n], MaterialIds(FirstById(FirstInstanceMaterials(ms, n + 1))), pairs)
    ensures PrimitivesAre(prims + [pairs], ms, n + 1)
  {
    assert (prims + [pairs])[..n] == prims;
  }

  /** Instance `j`'s buffer holds its pairs against the materials registered by then. */
  lemma {:induction false} PrimitivesAreAt(prims: seq<seq<PrimitiveMaterial>>, ms: seq<Visit>, n: nat, j: nat)
    requires AllMeshVisits(ms) && n <= |ms| && PrimitivesAre(prims, ms, n) && j < n
    ensures PairsAre(ms[j], MaterialIds(FirstById(FirstInstanceMaterials(ms, j + 1))), prims[j])
    decreases n
  {
    if j < n - 1 {
      PrimitivesAreAt(prims[..n - 1], ms, n - 1, j);
      assert prims[..n - 1][j] == prims[j];
    }
  }

  /** A mesh not seen before in this pass takes the next mesh slot (one vbo and one ibo
      descriptor) and its first instance registers its materials; an already seen mesh
      changes neither. */
  method ClaimMesh(p: Pass, ms: seq<Visit>, n: nat, meshIndices: map<nat, nat>, isEmissive: Material -> bool) returns (r: Pass)
    requires AllMeshVisits(ms) && n < |ms|
    requires p.meshes == Dedup(MeshIds(ms[..n])) && MeshSlots(p.meshes, meshIndices, p.meshIndices)
    requires MaterialsAre(p, FirstInstanceMaterials(ms, n)) && p.areaLights == AreaLightsOf(ms, n, isEmissive)
    ensures r.meshes == Dedup(MeshIds(ms[..n + 1]))
    ensures MeshSlots(r.meshes, meshIndices, r.meshIndices)
    ensures MaterialsAre(r, FirstInstanceMaterials(ms, n + 1))
    ensures r.areaLights == AreaLightsOf(ms, n + 1, isEmissive)
    ensures r.materialIndicesDescriptors == p.materialIndicesDescriptors && r.primitiveMaterials == p.primitiveMaterials
  {
    if MeshOf(ms[n]).id !in p.meshes {
      r := ClaimNewMesh(p, ms, n, meshIndices, isEmissive);
    } else {
      SeenMeshAddsNothing(ms, n, isEmissive);
      r := p;
    }
  }

  /** A later instance of a mesh already claimed adds no mesh, no material and no area
      light to the references. */
  lemma SeenMeshAddsNothing(ms: seq<Visit>, n: nat, isEmissive: Material -> bool)
    requires AllMeshVisits(ms) && n < |ms| && MeshOf(ms[n]).id in Dedup(MeshIds(ms[..n]))
    ensures Dedup(MeshIds(ms[..n + 1])) == Dedup(MeshIds(ms[..n]))
    ensures FirstInstanceMaterials(ms, n + 1) == FirstInstanceMaterials(ms, n)
    ensures AreaLightsOf(ms, n + 1, isEmissive) == AreaLightsOf(ms, n, isEmissive)
  {
    MeshIdsSnoc(ms, n);
    DedupSnoc(MeshIds(ms[..n]), MeshOf(ms[n]).id);
    FirstInstanceMaterialsSnoc(ms, n);
  }

  /** The first instance of a mesh: the mesh takes the next slot and its submeshes are
      registered. */
  method ClaimNewMesh(p: Pass, ms: seq<Visit>, n: nat, meshIndices: map<nat, nat>, isEmissive: Material -> bool) returns (r: Pass)
    requires AllMeshVisits(ms) && n < |ms| && MeshOf(ms[n]).id !in p.meshes
    requires p.meshes == Dedup(MeshIds(ms[..n])) && MeshSlots(p.meshes, meshIndices, p.meshIndices)
    requires MaterialsAre(p, FirstInstanceMaterials(ms, n)) && p.areaLights == AreaLightsOf(ms, n, isEmissive)
    ensures r.meshes == Dedup(MeshIds(ms[..n + 1]))
    ensures MeshSlots(r.meshes, meshIndices, r.meshIndices)
    ensures MaterialsAre(r, FirstInstanceMaterials(ms, n + 1))
    ensures r.areaLights == AreaLightsOf(ms, n + 1, isEmissive)
    ensures r.materialIndicesDescriptors == p.materialIndicesDescriptors && r.primitiveMaterials == p.primitiveMaterials
  {
    var v := ms[n];
    MeshIdsSnoc(ms, n);
    DedupSnoc(MeshIds(ms[..n]), MeshOf(v).id);
    FirstInstanceMaterialsSnoc(ms, n);
    MeshSlotsSnoc(p.meshes, meshIndices, p.meshIndices, MeshOf(v).id);
    r := p.(meshes := p.meshes + [MeshOf(v).id], meshIndices := p.meshIndices[MeshOf(v).id := |p.meshes|]);
    r := RegisterSubmeshes(r, n, v, isEmissive, FirstInstanceMaterials(ms, n));
  }

  /** One listed instance: its mesh is claimed, then its material-indices descriptor is
      appended and its per-submesh pairs are written. */
  method RegisterInstance(p: Pass, ms: seq<Visit>, n: nat, meshIndices: map<nat, nat>, isEmissive: Material -> bool) returns (r: Pass)
    requires AllMeshVisits(ms) && n < |ms| && PassAt(p, ms, n, meshIndices, isEmissive)
    ensures PassAt(r, ms, n + 1, meshIndices, isEmissive)
  {
    MeshIdsSnoc(ms, n);
    r := ClaimMesh(p, ms, n, meshIndices, isEmissive);
    var t, pairs := InstancePairs(ms[n], MaterialIds(r.materials), r.materialIndex);
    PrimitivesSnoc(r.primitiveMaterials, ms, n, pairs);
    r := r.(materialIndex := t,
            materialIndicesDescriptors := r.materialIndicesDescriptors + [ms[n].id],
            primitiveMaterials := r.primitiveMaterials + [pairs]);
  }

  /** The registration loop of a hierarchy-updated frame over the listed mesh instances. */
  method RegisterPass(ms: seq<Visit>, meshIndices: map<nat, nat>, isEmissive: Material -> bool) returns (p: Pass)
    requires AllMeshVisits(ms)
    ensures p.meshes == Dedup(MeshIds(ms))
    ensures MeshSlots(p.meshes, meshIndices, p.meshIndices)
    ensures p.materials == FirstById(FirstInstanceMaterials(ms, |ms|))
    ensures IndexMatches(MaterialIds(p.materials), p.materialIndex)
    ensures p.areaLights == AreaLightsOf(ms, |ms|, isEmissive)
    ensures p.materialIndicesDescriptors == Ids(ms)
    ensures |p.primitiveMaterials| == |ms| && forall j :: 0 <= j < |ms| ==>
              PairsAre(ms[j], MaterialIds(FirstById(FirstInstanceMaterials(ms, j + 1))), p.primitiveMaterials[j])
  {
    p := Pass(meshIndices, [], [], map[], [], [], []);
    var n := 0;
    while n < |ms|
      invariant n <= |ms| && PassAt(p, ms, n, meshIndices, isEmissive)
    {
      p := RegisterInstance(p, ms, n, meshIndices, isEmissive);
      n := n + 1;
    }
    assert ms[..n] == ms;
    forall j | 0 <= j < |ms|
      ensures PairsAre(ms[j], MaterialIds(FirstById(FirstInstanceMaterials(ms, j + 1))), p.primitiveMaterials[j])
    {
      PrimitivesAreAt(p.primitiveMaterials, ms, n, j);
    }
  }
}

=== FILE: scene_graph.dfy ===
/** The Helios scene graph: a tree of typed nodes with two dirty flags, the child-list
    operations, the pre-order searches, and the TransformNode mutators.

    A node owns its children; the C++ parent pointer is modelled by the position in the
    tree. `NodeType` values and node defaults follow include/resource/scene.h. */
module SceneGraph {
  import opened Types

  // ---------------------------------------------------------------------------------------
  // Node kinds
  // ---------------------------------------------------------------------------------------

  /** `NodeType`, in declaration order: mesh 0, camera 1, directional 2, spot 3, point 4,
      IBL 5, root 6. */
  datatype NodeType =
    | MeshNodeType
    | CameraNodeType
    | DirectionalLightNodeType
    | SpotLightNodeType
    | PointLightNodeType
    | IblNodeType
    | RootNodeType

  /** The integer value of a `NodeType` enumerator. */
  function NodeTypeValue(t: NodeType): (v: nat)
    ensures v < 7
  {
    match t
    case MeshNodeType => 0
    case CameraNodeType => 1
    case DirectionalLightNodeType => 2
    case SpotLightNodeType => 3
    case PointLightNodeType => 4
    case IblNodeType => 5
    case RootNodeType => 6
  }

  /** The cast `(NodeType)v`; values outside the enumeration name no node type. */
  function NodeTypeOfValue(v: int): (r: Option<NodeType>)
    ensures r.Some? <==> 0 <= v < 7
    ensures r.Some? ==> NodeTypeValue(r.value) == v
  {
    if v == 0 then Some(MeshNodeType)
    else if v == 1 then Some(CameraNodeType)
    else if v == 2 then Some(DirectionalLightNodeType)
    else if v == 3 then Some(SpotLightNodeType)
    else if v == 4 then Some(PointLightNodeType)
    else if v == 5 then Some(IblNodeType)
    else if v == 6 then Some(RootNodeType)
    else None
  }

  /** The enumeration and the cast are inverse: every node type survives the trip through
      its integer value. */
  lemma NodeTypeValueRoundTrip(t: NodeType)
    ensures NodeTypeOfValue(NodeTypeValue(t)) == Some(t)
  {
  }

  /** The cached matrices of a TransformNode together with the values they are built from. */
  datatype Transform = Transform(
    position: Vec3,
    orientation: Quat,
    scale: Vec3,
    prevModel: Mat,
    model: Mat,
    modelWithoutScale: Mat)

  /** Zero position, identity orientation, unit scale, identity cached matrices. */
  const DefaultTransform: Transform := Transform(Zero3, QuatIdentity, One3, Identity, Identity, Identity)

  /** The per-kind state of a node: the closed set of node classes of the scene graph. */
  datatype Kind =
    | RootKind
    | MeshKind(mesh: Option<Mesh>, materialOverride: Option<Material>)
    | CameraKind(near: real, far: real, fov: real, focalLength: real, aperture: real, view: Mat, projection: Mat)
    | DirectionalKind(color: Vec3, intensity: real, radius: real)
    | SpotKind(color: Vec3, innerCone: real, outerCone: real, intensity: real, radius: real)
    | PointKind(color: Vec3, intensity: real, radius: real)
    | IblKind(image: Option<Cubemap>)

  function TypeOf(k: Kind): NodeType {
    match k
    case RootKind => RootNodeType
    case MeshKind(_, _) => MeshNodeType
    case CameraKind(_, _, _, _, _, _, _) => CameraNodeType
    case DirectionalKind(_, _, _) => DirectionalLightNodeType
    case SpotKind(_, _, _, _, _) => SpotLightNodeType
    case PointKind(_, _, _) => PointLightNodeType
    case IblKind(_) => IblNodeType
  }

  /** The member initialisers of each node class. */
  function DefaultKind(t: NodeType): (k: Kind)
    ensures TypeOf(k) == t
    ensures k.MeshKind? ==> k.mesh.None? && k.materialOverride.None?
    ensures k.IblKind? ==> k.image.None?
    ensures k.SpotKind? ==> k.innerCone < k.outerCone
    ensures k.CameraKind? ==> 0.0 < k.near < k.far && 0.0 < k.fov < 180.0
    ensures (k.DirectionalKind? || k.SpotKind? || k.PointKind?) ==> k.color == One3 && k.intensity == 1.0
  {
    match t
    case MeshNodeType => MeshKind(None, None)
    case CameraNodeType => CameraKind(1.0, 1000.0, 60.0, 8.0, 0.1, Identity, Identity)
    case DirectionalLightNodeType => DirectionalKind(One3, 1.0, 0.1)
    case SpotLightNodeType => SpotKind(One3, 40.0, 50.0, 1.0, 5.0)
    case PointLightNodeType => PointKind(One3, 1.0, 5.0)
    case IblNodeType => IblKind(None)
    case RootNodeType => RootKind
  }

  // ---------------------------------------------------------------------------------------
  // Nodes
  // ---------------------------------------------------------------------------------------

  /** A scene node. `xf` is meaningful only for TransformNodes (every kind but IBL). */
  datatype Node = Node(
    id: nat,
    name: string,
    kind: Kind,
    enabled: bool,
    transformDirty: bool,
    hierarchyDirty: bool,
    xf: Transform,
    children: seq<Node>)

  /** IBL nodes derive from `Node` directly; every other class derives from `TransformNode`. */
  predicate IsTransformNode(n: Node) {
    !n.kind.IblKind?
  }

  /** A freshly constructed node together with the next value of the global node counter. */
  datatype Created = Created(node: Node, nextId: nat)

  /** A node constructor: takes the next id from the counter and applies the member
      initialisers. */
  function NewNode(counter: nat, t: NodeType, name: string): (r: Created)
    ensures r.node.id == counter && r.nextId == counter + 1
    ensures r.node.name == name && TypeOf(r.node.kind) == t
    ensures r.node.enabled && r.node.transformDirty && r.node.hierarchyDirty
    ensures r.node.children == [] && r.node.xf == DefaultTransform
  {
    Created(Node(counter, name, DefaultKind(t), true, true, true, DefaultTransform, []), counter + 1)
  }

  /** The ids of a tree in pre-order: the node, then each child's tree in order. */
  function TreeIds(n: Node): seq<nat>
    decreases n
  {
    [n.id] + TreeIdsSeq(n.children)
  }

  function TreeIdsSeq(cs: seq<Node>): seq<nat>
    decreases cs
  {
    if |cs| == 0 then [] else TreeIdsSeq(cs[..|cs| - 1]) + TreeIds(cs[|cs| - 1])
  }

  /** The consecutive ids `lo`, ..., `hi - 1`. */
  function IdRange(lo: nat, hi: nat): (r: seq<nat>)
    requires lo <= hi
    ensures |r| == hi - lo
    ensures forall i :: 0 <= i < |r| ==> r[i] == lo + i
  {
    seq(hi - lo, i requires 0 <= i < hi - lo => lo + i)
  }

  /** Appending a child appends its tree's ids. */
  lemma AddChildIds(p: Node, c: Node)
    ensures TreeIds(AddChild(p, c)) == TreeIds(p) + TreeIds(c)
  {
    var cs := AddChild(p, c).children;
    assert cs[..|cs| - 1] == p.children;
  }

  function Size(n: Node): (s: nat)
    ensures s >= 1
    decreases n
  {
    1 + SizeSeq(n.children)
  }

  function SizeSeq(cs: seq<Node>): nat
    decreases cs
  {
    if |cs| == 0 then 0 else Size(cs[0]) + SizeSeq(cs[1..])
  }

  /** The strict descendants of `n` in pre-order (depth-first, children in order). */
  function Descendants(n: Node): seq<Node>
    decreases n
  {
    DescendantsSeq(n.children)
  }

  function DescendantsSeq(cs: seq<Node>): seq<Node>
    decreases cs
  {
    if |cs| == 0 then [] else [cs[0]] + Descendants(cs[0]) + DescendantsSeq(cs[1..])
  }

  /** Every descendant is a strictly smaller tree than the node it hangs under. */
  lemma {:induction false} DescendantsSmaller(n: Node)
    ensures forall d :: d in Descendants(n) ==> Size(d) < Size(n)
    decreases n
  {
    DescendantsSeqSmaller(n.children);
  }

  lemma {:induction false} DescendantsSeqSmaller(cs: seq<Node>)
    ensures forall d :: d in DescendantsSeq(cs) ==> Size(d) <= SizeSeq(cs)
    decreases cs
  {
    if |cs| > 0 {
      DescendantsSmaller(cs[0]);
      DescendantsSeqSmaller(cs[1..]);
    }
  }

  // ---------------------------------------------------------------------------------------
  // Child list
  // ---------------------------------------------------------------------------------------

  /** `add_child`: the child goes last and the parent becomes hierarchy-dirty. */
  function AddChild(p: Node, c: Node): (r: Node)
    ensures r.children == p.children + [c]
    ensures r.hierarchyDirty
    ensures r.(children := p.children, hierarchyDirty := p.hierarchyDirty) == p
  {
    p.(hierarchyDirty := true, children := p.children + [c])
  }

  /** A resource handed to the backend's deferred-deletion queue. */
  datatype Deletion = DeleteMesh(mesh: Mesh) | DeleteMaterial(material: Material) | DeleteCubemap(image: Cubemap)

  /** `mid_frame_material_cleanup`: a mesh node queues its material override. */
  function MaterialCleanup(n: Node): (ds: seq<Deletion>)
    ensures |ds| <= 1
    ensures ds != [] <==> n.kind.MeshKind? && n.kind.materialOverride.Some?
    ensures ds != [] ==> ds == [DeleteMaterial(n.kind.materialOverride.value)]
  {
    if n.kind.MeshKind? && n.kind.materialOverride.Some? then [DeleteMaterial(n.kind.materialOverride.value)] else []
  }

  /** `mid_frame_cleanup`: a mesh node queues its mesh and then its override, an IBL node its
      image, every other node nothing. Children are not visited. */
  function Cleanup(n: Node): (ds: seq<Deletion>)
    ensures |ds| <= 2
    ensures !n.kind.MeshKind? && !n.kind.IblKind? ==> ds == []
    ensures n.kind.MeshKind? ==> ds == (if n.kind.mesh.Some? then [DeleteMesh(n.kind.mesh.value)] else []) + MaterialCleanup(n)
    ensures n.kind.IblKind? ==> (ds != [] <==> n.kind.image.Some?)
  {
    match n.kind
    case MeshKind(m, _) => (if m.Some? then [DeleteMesh(m.value)] else []) + MaterialCleanup(n)
    case IblKind(img) => if img.Some? then [DeleteCubemap(img.value)] else []
    case _ => []
  }

  function ChildNames(p: Node): (names: seq<string>)
    ensures |names| == |p.children|
    ensures forall i :: 0 <= i < |p.children| ==> names[i] == p.children[i].name
  {
    seq(|p.children|, i requires 0 <= i < |p.children| => p.children[i].name)
  }

  /** The search loop of `remove_child`: the position of the first direct child with the
      name, or the child count when there is none. */
  method ChildIndex(p: Node, name: string) returns (i: nat)
    ensures i == IndexOf(ChildNames(p), name)
  {
    var cs := p.children;
    i := 0;
    while i < |cs| && cs[i].name != name
      invariant 0 <= i <= |cs|
      invariant forall j :: 0 <= j < i ==> cs[j].name != name
    {
      i := i + 1;
    }
    IndexOfCharacterised(ChildNames(p), name, i);
  }

  /** The outcome of `remove_child`. */
  datatype Removal = Removal(node: Node, removed: Option<Node>, deletions: seq<Deletion>)

  /** `remove_child`: the parent becomes hierarchy-dirty whatever happens; the first direct
      child carrying the name (and only that one) is cleaned up and erased, and the other
      children keep their order. */
  method RemoveChild(p: Node, name: string) returns (r: Removal)
    ensures r.node.hierarchyDirty
    ensures r.node.(children := p.children, hierarchyDirty := p.hierarchyDirty) == p
    ensures var i := IndexOf(ChildNames(p), name);
            if i < |p.children| then
              r.removed == Some(p.children[i])
              && r.node.children == p.children[..i] + p.children[i + 1..]
              && r.deletions == Cleanup(p.children[i])
            else
              r.removed.None? && r.node.children == p.children && r.deletions == []
  {
    var cs := p.children;
    var i := ChildIndex(p, name);
    if i < |cs| {
      r := Removal(p.(hierarchyDirty := true, children := cs[..i] + cs[i + 1..]), Some(cs[i]), Cleanup(cs[i]));
    } else {
      r := Removal(p.(hierarchyDirty := true), None, []);
    }
  }

  /** Removing by the name of a child just added, when no earlier child carries that name,
      gives back the child list from before the add and queues that child's cleanup. */
  lemma RemoveAfterAdd(p: Node, c: Node)
    requires c.name !in ChildNames(p)
    ensures IndexOf(ChildNames(AddChild(p, c)), c.name) == |p.children|
    ensures AddChild(p, c).children[..|p.children|] + AddChild(p, c).children[|p.children| + 1..] == p.children
  {
    var names := ChildNames(AddChild(p, c));
    assert names == ChildNames(p) + [c.name];
    IndexOfCharacterised(names, c.name, |p.children|);
  }

  // ---------------------------------------------------------------------------------------
  // Search
  // ---------------------------------------------------------------------------------------

  /** The two overloads of `find_child`. */
  datatype Query = ByName(name: string) | ByType(nodeType: NodeType)

  predicate Matches(n: Node, q: Query) {
    match q
    case ByName(s) => n.name == s
    case ByType(t) => TypeOf(n.kind) == t
  }

  /** The first element of `s` that matches `q`. */
  function FirstMatch(s: seq<Node>, q: Query): (r: Option<Node>)
    decreases |s|
  {
    if |s| == 0 then None else if Matches(s[0], q) then Some(s[0]) else FirstMatch(s[1..], q)
  }

  /** The search answers with a listed node that matches, and with nothing exactly when no
      listed node matches. */
  lemma {:induction false} FirstMatchFinds(s: seq<Node>, q: Query)
    ensures FirstMatch(s, q).Some? ==> FirstMatch(s, q).value in s && Matches(FirstMatch(s, q).value, q)
    ensures FirstMatch(s, q).None? <==> forall d :: d in s ==> !Matches(d, q)
    decreases |s|
  {
    if |s| > 0 && !Matches(s[0], q) {
      FirstMatchFinds(s[1..], q);
      assert s == [s[0]] + s[1..];
    }
  }

  lemma {:induction false} FirstMatchAppend(a: seq<Node>, b: seq<Node>, q: Query)
    ensures FirstMatch(a + b, q) == if FirstMatch(a, q).Some? then FirstMatch(a, q) else FirstMatch(b, q)
  {
    if |a| > 0 {
      assert (a + b)[1..] == a[1..] + b;
      FirstMatchAppend(a[1..], b, q);
    } else {
      assert a + b == b;
    }
  }

  /** The search over a node, then what lies below it, then what follows it. */
  lemma FirstMatchStep(x: Node, below: seq<Node>, after: seq<Node>, q: Query)
    ensures FirstMatch([x] + below + after, q)
            == if Matches(x, q) then Some(x)
               else if FirstMatch(below, q).Some? then FirstMatch(below, q)
               else FirstMatch(after, q)
  {
    assert ([x] + below + after)[1..] == below + after;
    FirstMatchAppend(below, after, q);
  }

  /** `find_child`: for each child in order, the child itself if it matches, otherwise the
      result of searching below it. The node itself is never tested. */
  function FindChild(n: Node, q: Query): (r: Option<Node>)
    decreases n
  {
    FindInChildren(n.children, q)
  }

  function FindInChildren(cs: seq<Node>, q: Query): (r: Option<Node>)
    decreases cs
  {
    if |cs| == 0 then None
    else if Matches(cs[0], q) then Some(cs[0])
    else
      var found := FindChild(cs[0], q);
      if found.Some? then found else FindInChildren(cs[1..], q)
  }

  /** `find_child` is a pre-order depth-first search: it returns the first matching strict
      descendant, and nothing exactly when no descendant matches. */
  lemma {:induction false} FindChildIsFirstMatch(n: Node, q: Query)
    ensures FindChild(n, q) == FirstMatch(Descendants(n), q)
    decreases n
  {
    FindInChildrenIsFirstMatch(n.children, q);
  }

  lemma {:induction false} FindInChildrenIsFirstMatch(cs: seq<Node>, q: Query)
    ensures FindInChildren(cs, q) == FirstMatch(DescendantsSeq(cs), q)
    decreases cs
  {
    if |cs| > 0 {
      FindChildIsFirstMatch(cs[0], q);
      FindInChildrenIsFirstMatch(cs[1..], q);
      FirstMatchStep(cs[0], Descendants(cs[0]), DescendantsSeq(cs[1..]), q);
    }
  }

  /** `find_child` never answers with the node it was asked on. */
  lemma FindChildNeverSelf(n: Node, q: Query)
    ensures FindChild(n, q).Some? ==> FindChild(n, q).value != n && FindChild(n, q).value in Descendants(n)
    ensures FindChild(n, q).None? <==> forall d :: d in Descendants(n) ==> !Matches(d, q)
  {
    FindChildIsFirstMatch(n, q);
    FirstMatchFinds(Descendants(n), q);
    DescendantsSmaller(n);
  }

  /** `Scene::find_node`: the root is tested first, then its descendants. */
  function FindNode(root: Node, name: string): (r: Option<Node>)
    ensures r.Some? ==> r.value.name == name
    ensures r.None? <==> root.name != name && forall d :: d in Descendants(root) ==> d.name != name
    ensures root.name == name ==> r == Some(root)
  {
    FindChildNeverSelf(root, ByName(name));
    FindChildIsFirstMatch(root, ByName(name));
    FirstMatchFinds(Descendants(root), ByName(name));
    if root.name == name then Some(root) else FindChild(root, ByName(name))
  }

  /** `Scene::find_camera`: the root if it is a camera, otherwise the first camera below it. */
  function FindCamera(root: Node): (r: Option<Node>)
    ensures r.Some? ==> r.value.kind.CameraKind?
    ensures r.None? <==> !root.kind.CameraKind? && forall d :: d in Descendants(root) ==> !d.kind.CameraKind?
    ensures root.kind.CameraKind? ==> r == Some(root)
  {
    FindChildNeverSelf(root, ByType(CameraNodeType));
    FindChildIsFirstMatch(root, ByType(CameraNodeType));
    FirstMatchFinds(Descendants(root), ByType(CameraNodeType));
    if root.kind.CameraKind? then Some(root) else FindChild(root, ByType(CameraNodeType))
  }

  // ---------------------------------------------------------------------------------------
  // Transform dirtiness
  // ---------------------------------------------------------------------------------------

  /** Every node of the subtree carries the transform-dirty flag. */
  predicate AllTransformDirty(n: Node)
    decreases n
  {
    n.transformDirty && forall i :: 0 <= i < |n.children| ==> AllTransformDirty(n.children[i])
  }

  /** The tree with every transform-dirty flag lowered: what a node looks like when that
      flag is ignored. */
  function ClearTransformFlags(n: Node): Node
    decreases n
  {
    n.(transformDirty := false,
       children := seq(|n.children|, i requires 0 <= i < |n.children| => ClearTransformFlags(n.children[i])))
  }

  /** `mark_transforms_as_dirty`: raises the transform flag on the node and on every
      descendant and changes nothing else. */
  function MarkTransformsDirty(n: Node): (r: Node)
    ensures AllTransformDirty(r)
    ensures ClearTransformFlags(r) == ClearTransformFlags(n)
    decreases n
  {
    var cs := seq(|n.children|, i requires 0 <= i < |n.children| => MarkTransformsDirty(n.children[i]));
    assert forall i :: 0 <= i < |cs| ==> ClearTransformFlags(cs[i]) == ClearTransformFlags(n.children[i]);
    n.(transformDirty := true, children := cs)
  }

  /** The TransformNode mutators. */
  datatype TransformOp =
    | SetFromLocalTransform(local: Mat)
    | SetFromGlobalTransform(global: Mat)
    | SetOrientation(q: Quat)
    | SetOrientationFromEulerYXZ(e: Vec3)
    | SetOrientationFromEulerXYZ(e: Vec3)
    | SetPosition(p: Vec3)
    | SetScale(s: Vec3)
    | Move(d: Vec3)
    | RotateEulerYXZ(e: Vec3)
    | RotateEulerXYZ(e: Vec3)

  /** What `glm::decompose` extracts from a matrix. */
  datatype Decomposition = Decomposition(scale: Vec3, orientation: Quat, position: Vec3)

  function Pitch(e: Vec3): Quat { QuatFromEulerDegrees(Vec3(e.x, 0.0, 0.0)) }
  function Yaw(e: Vec3): Quat { QuatFromEulerDegrees(Vec3(0.0, e.y, 0.0)) }
  function Roll(e: Vec3): Quat { QuatFromEulerDegrees(Vec3(0.0, 0.0, e.z)) }

  /** yaw * pitch * roll */
  function EulerYXZ(e: Vec3): Quat { QuatMul(QuatMul(Yaw(e), Pitch(e)), Roll(e)) }

  /** pitch * yaw * roll */
  function EulerXYZ(e: Vec3): Quat { QuatMul(QuatMul(Pitch(e), Yaw(e)), Roll(e)) }

  /** The local matrix a global one stands for: relative to the parent's unscaled matrix when
      the parent is a TransformNode, the matrix itself otherwise. */
  function LocalFromGlobal(parentFrame: Option<Mat>, global: Mat): Mat {
    if parentFrame.Some? then Mul(Inverse(parentFrame.value), global) else global
  }

  /** The position, orientation and scale after a mutator; the cached matrices are untouched
      until the next traversal. */
  function ApplyOp(xf: Transform, op: TransformOp, parentFrame: Option<Mat>, decompose: Mat -> Decomposition): (r: Transform)
    ensures r.(position := xf.position, orientation := xf.orientation, scale := xf.scale) == xf
  {
    match op
    case SetFromLocalTransform(m) =>
      var d := decompose(m);
      xf.(position := d.position, orientation := d.orientation, scale := d.scale)
    case SetFromGlobalTransform(m) =>
      var d := decompose(LocalFromGlobal(parentFrame, m));
      xf.(position := d.position, orientation := d.orientation, scale := d.scale)
    case SetOrientation(q) => xf.(orientation := q)
    case SetOrientationFromEulerYXZ(e) => xf.(orientation := EulerYXZ(e))
    case SetOrientationFromEulerXYZ(e) => xf.(orientation := EulerXYZ(e))
    case SetPosition(p) => xf.(position := p)
    case SetScale(s) => xf.(scale := s)
    case Move(d) => xf.(position := Add3(xf.position, d))
    case RotateEulerYXZ(e) => xf.(orientation := QuatMul(xf.orientation, EulerYXZ(e)))
    case RotateEulerXYZ(e) => xf.(orientation := QuatMul(xf.orientation, EulerXYZ(e)))
  }

  /** Every TransformNode mutator marks the node and all of its descendants transform-dirty
      and changes nothing but the node's own position, orientation or scale. `parentFrame`
      is the parent's unscaled local matrix when the parent is a TransformNode. */
  function EditTransform(n: Node, op: TransformOp, parentFrame: Option<Mat>, decompose: Mat -> Decomposition): (r: Node)
    requires IsTransformNode(n)
    ensures r.xf == ApplyOp(n.xf, op, parentFrame, decompose)
    ensures AllTransformDirty(r)
    ensures ClearTransformFlags(r) == ClearTransformFlags(n).(xf := r.xf)
    ensures r.hierarchyDirty == n.hierarchyDirty && r.enabled == n.enabled
  {
    MarkTransformsDirty(n).(xf := ApplyOp(n.xf, op, parentFrame, decompose))
  }

  /** `enable`: only the enabled flag changes; no dirty flag is touched. */
  function Enable(n: Node): (r: Node)
    ensures r.enabled
    ensures r.(enabled := n.enabled) == n
  {
    n.(enabled := true)
  }

  /** `disable`: only the enabled flag changes; no dirty flag is touched. */
  function Disable(n: Node): (r: Node)
    ensures !r.enabled
    ensures r.(enabled := n.enabled) == n
  {
    n.(enabled := false)
  }

  // ---------------------------------------------------------------------------------------
  // Resource setters and plain parameter setters
  // ---------------------------------------------------------------------------------------

  /** A node after a setter, with the deletions the setter queued. */
  datatype Edit = Edit(node: Node, deletions: seq<Deletion>)

  /** `MeshNode::set_mesh`: runs the full mesh cleanup (which also queues the current
      override, although the override stays set), then stores the mesh. No flag is raised. */
  function SetMesh(n: Node, mesh: Option<Mesh>): (r: Edit)
    requires n.kind.MeshKind?
    ensures r.node.kind == MeshKind(mesh, n.kind.materialOverride)
    ensures r.node.(kind := n.kind) == n
    ensures r.deletions == Cleanup(n)
  {
    Edit(n.(kind := n.kind.(mesh := mesh)), Cleanup(n))
  }

  /** `MeshNode::set_material_override`: queues only the previous override. */
  function SetMaterialOverride(n: Node, m: Option<Material>): (r: Edit)
    requires n.kind.MeshKind?
    ensures r.node.kind == MeshKind(n.kind.mesh, m)
    ensures r.node.(kind := n.kind) == n
    ensures r.deletions == MaterialCleanup(n)
  {
    Edit(n.(kind := n.kind.(materialOverride := m)), MaterialCleanup(n))
  }

  /** `IBLNode::set_image`: queues the previous image, then stores the new one. */
  function SetImage(n: Node, img: Option<Cubemap>): (r: Edit)
    requires n.kind.IblKind?
    ensures r.node.kind == IblKind(img)
    ensures r.node.(kind := n.kind) == n
    ensures r.deletions == Cleanup(n)
  {
    Edit(n.(kind := IblKind(img)), Cleanup(n))
  }

  /** The inline light and camera setters (`set_color`, `set_intensity`, cone angles,
      `set_fov`, ...): the node keeps its kind and no dirty flag changes. */
  function SetParameters(n: Node, k: Kind): (r: Node)
    requires TypeOf(k) == TypeOf(n.kind)
    requires k.CameraKind? || k.DirectionalKind? || k.SpotKind? || k.PointKind?
    ensures TypeOf(r.kind) == TypeOf(n.kind)
    ensures r.transformDirty == n.transformDirty && r.hierarchyDirty == n.hierarchyDirty
    ensures r.(kind := n.kind) == n
  {
    n.(kind := k)
  }

  /** `Scene::set_root_node`: the previous root (if any) runs its own cleanup only. */
  function SetRootNode(previous: Option<Node>, root: Node): (r: Edit)
    ensures r.node == root
    ensures previous.None? ==> r.deletions == []
    ensures previous.Some? ==> r.deletions == Cleanup(previous.value)
  {
    Edit(root, if previous.Some? then Cleanup(previous.value) else [])
  }
}

=== FILE: scene_update.dfy ===
/** `Scene::update` (src/engine/resource/scene.cpp:875-910): traverse the graph from the
    root, count the lights the path tracer will loop over, honour a pending forced update,
    then upload. The scene keeps its root, the persistent mesh-slot map, the area-light
    count of the last registration pass and the force-update request between frames. */
module SceneUpdate {
  import opened Types
  import opened SceneGraph
  import opened Traversal
  import opened Registrar
  import opened Upload

  datatype Scene = Scene(root: Node, meshIndices: map<nat, nat>, numAreaLights: nat, forceUpdate: bool)

  /** `Scene::force_update`: the next update is treated as hierarchy-updated. */
  function ForceUpdate(sc: Scene): (r: Scene)
    ensures r.forceUpdate && r.(forceUpdate := sc.forceUpdate) == sc
  {
    sc.(forceUpdate := true)
  }

  /** `num_lights` as `Scene::update` computes it: the area-light count the scene holds,
      every listed light, and one environment light when the IBL has an image or, failing
      that, any directional light exists. */
  function NumLights(numAreaLights: nat, rs: RenderState): (n: nat)
    ensures n >= numAreaLights + |rs.directionalLights| + |rs.spotLights| + |rs.pointLights|
    ensures n <= numAreaLights + |rs.directionalLights| + |rs.spotLights| + |rs.pointLights| + 1
  {
    numAreaLights + |rs.directionalLights| + |rs.spotLights| + |rs.pointLights|
      + (if IblHasImage(rs) then 1 else if |rs.directionalLights| > 0 then 1 else 0)
  }

  /** The count covers exactly the area lights plus the records written after them. */
  lemma NumLightsCountsRecords(numAreaLights: nat, rs: RenderState)
    requires Listed(rs)
    ensures NumLights(numAreaLights, rs) == numAreaLights + |OtherLights(rs)|
  {
  }

  lemma ListedKeepsLists(rs: RenderState, rs': RenderState)
    requires Listed(rs) && rs'.meshes == rs.meshes && rs'.directionalLights == rs.directionalLights
    requires rs'.pointLights == rs.pointLights && rs'.spotLights == rs.spotLights
    ensures Listed(rs')
  {
  }

  /** One frame of `Scene::update` on a render state the caller cleared or set up. The
      upload sees the traversed state with its light count and, when an update was forced,
      the hierarchy-updated state. The light count uses the area-light count held before
      this frame's registration pass, so on a hierarchy-updated frame it matches the number of
      light records written exactly when that pass left the area-light count unchanged. */
  method Update(sc: Scene, rs: RenderState, isEmissive: Material -> bool) returns (next: Scene, out: RenderState, u: Uploaded)
    requires var g := UpdateNode(sc.root, None, rs).rs; (sc.forceUpdate || g.state != Ready) ==> Listed(g)
    ensures var gathered := UpdateNode(sc.root, None, rs);
            next.root == gathered.node
            && out == gathered.rs.(numLights := NumLights(sc.numAreaLights, gathered.rs),
                                   state := if sc.forceUpdate then HierarchyUpdated else gathered.rs.state)
    ensures !next.forceUpdate
    ensures next.meshIndices == u.meshIndices && next.numAreaLights == u.numAreaLights
    ensures out.state == Ready ==> u == Uploaded(sc.meshIndices, sc.numAreaLights, None, [], [])
    ensures out.state != Ready ==> Listed(out) && InstancesWritten(u.instances, out.meshes)
    ensures out.state == TransformsUpdated ==>
              u.registration.None? && u.numAreaLights == sc.numAreaLights && u.lights == OtherLights(out)
    ensures out.state == HierarchyUpdated ==> Listed(out) && HierarchyUploaded(u, out, sc.meshIndices, isEmissive)
    ensures out.state == HierarchyUpdated ==> (out.numLights == |u.lights| <==> next.numAreaLights == sc.numAreaLights)
    ensures out.state == HierarchyUpdated ==> next.numAreaLights == |AreaLightsOf(out.meshes, |out.meshes|, isEmissive)|
  {
    var gathered := UpdateNode(sc.root, None, rs);
    var state := if sc.forceUpdate then HierarchyUpdated else gathered.rs.state;
    out := gathered.rs.(numLights := NumLights(sc.numAreaLights, gathered.rs), state := state);
    if state != Ready {
      ListedKeepsLists(gathered.rs, out);
      NumLightsCountsRecords(sc.numAreaLights, out);
    }
    u := CreateGpuResources(out, sc.meshIndices, sc.numAreaLights, isEmissive);
    next := Scene(gathered.node, u.meshIndices, u.numAreaLights, false);
  }
}

=== FILE: tlas.dfy ===
/** The top-level acceleration structure step of the legacy renderer (src/core/renderer.cpp):
    on a frame whose hierarchy changed, the instance records are copied to the device and
    the TLAS is built, or refitted when it already exists. Commands are modelled as the
    sequence the command buffer receives; barrier semantics beyond their stages and access
    masks, and the Vulkan objects themselves, are not modelled. */
module Tlas {
  import opened Types
  import opened Traversal

  /** An acceleration structure, by identity. */
  datatype Handle = Handle(id: nat)

  datatype Stage = TransferStage | BuildStage
  datatype Access = TransferWrite | StructureWrite | StructureRead

  datatype Command =
    | CopyInstances(dstOffset: nat, size: nat)
    | Barrier(srcStage: Stage, dstStage: Stage, srcAccess: set<Access>, dstAccess: set<Access>)
    | Build(update: bool, dst: Handle, src: Option<Handle>)

  /** The instance copy must be visible to the build. */
  const CopyToBuild: Command := Barrier(TransferStage, BuildStage, {TransferWrite}, {StructureWrite})
  /** The build must finish before the structure is read or built again. */
  const BuildToBuild: Command :=
    Barrier(BuildStage, BuildStage, {StructureWrite, StructureRead}, {StructureWrite, StructureRead})

  /** The renderer's TLAS after a frame, and the commands the frame recorded. */
  datatype Recorded = Recorded(tlas: Option<Handle>, commands: seq<Command>)

  /** A refit reads the structure it writes; a fresh build reads nothing. */
  predicate BuildSourceAgrees(c: Command)
    requires c.Build?
  {
    if c.update then c.src == Some(c.dst) else c.src == None
  }

  /** One frame's commands, in the only order the renderer records them. */
  predicate IsBlock(cmds: seq<Command>, tlas: Handle, copySize: nat) {
    |cmds| == 4
    && cmds[0] == CopyInstances(0, copySize)
    && cmds[1] == CopyToBuild
    && cmds[2].Build? && cmds[2].dst == tlas && BuildSourceAgrees(cmds[2])
    && cmds[3] == BuildToBuild
  }

  /** `Renderer::render`'s TLAS step. `tlas` is the scene's structure, `created` the one the
      backend would create, `recordSize` the size of one instance record. */
  function RecordTlas(tlas: Option<Handle>, state: SceneState, meshCount: nat, recordSize: nat, created: Handle): (r: Recorded)
    ensures state != HierarchyUpdated ==> r == Recorded(tlas, [])
    ensures state == HierarchyUpdated ==>
              r.tlas.Some? && (tlas.Some? ==> r.tlas == tlas)
              && IsBlock(r.commands, r.tlas.value, recordSize * meshCount)
              && (r.commands[2].update <==> tlas.Some?)
  {
    if state != HierarchyUpdated then Recorded(tlas, [])
    else
      var isUpdate := tlas.Some?;
      var t := if isUpdate then tlas.value else created;
      Recorded(Some(t), [
        CopyInstances(0, recordSize * meshCount),
        CopyToBuild,
        Build(isUpdate, t, if isUpdate then Some(t) else None),
        BuildToBuild])
  }

  /** The device-side instance buffer holds `capacity` records, so the copy stays inside
      it exactly when the scene has no more meshes than that. */
  lemma CopyFitsBuffer(tlas: Option<Handle>, meshCount: nat, recordSize: nat, capacity: nat, created: Handle)
    requires recordSize > 0
    ensures var r := RecordTlas(tlas, HierarchyUpdated, meshCount, recordSize, created);
            r.commands[0].size <= recordSize * capacity <==> meshCount <= capacity
  {
    if meshCount <= capacity {
      MulMonotone(recordSize, meshCount, capacity);
    } else {
      MulMonotone(recordSize, capacity + 1, meshCount);
    }
  }

  lemma MulMonotone(k: nat, a: nat, b: nat)
    requires a <= b
    ensures k * a <= k * b
  {
    assert k * b == k * a + k * (b - a);
  }

  /** A run of frames: the commands of each frame follow those of the frames before it. */
  function RecordFrames(tlas: Option<Handle>, states: seq<SceneState>, meshCount: nat, recordSize: nat, created: Handle): (r: Recorded)
    decreases |states|
  {
    if states == [] then Recorded(tlas, [])
    else
      var before := RecordFrames(tlas, states[..|states| - 1], meshCount, recordSize, created);
      var last := RecordTlas(before.tlas, states[|states| - 1], meshCount, recordSize, created);
      Recorded(last.tlas, before.commands + last.commands)
  }

  /** The number of fresh (non-refit) builds among the commands. */
  function FreshBuilds(cmds: seq<Command>): (n: nat)
    ensures n <= |cmds|
    decreases |cmds|
  {
    if cmds == [] then 0
    else FreshBuilds(cmds[..|cmds| - 1]) + (if cmds[|cmds| - 1].Build? && !cmds[|cmds| - 1].update then 1 else 0)
  }

  lemma {:induction false} FreshBuildsAppend(a: seq<Command>, b: seq<Command>)
    ensures FreshBuilds(a + b) == FreshBuilds(a) + FreshBuilds(b)
    decreases |b|
  {
    if b == [] {
      assert a + b == a;
    } else {
      FreshBuildsAppend(a, b[..|b| - 1]);
      assert (a + b)[..|a + b| - 1] == a + b[..|b| - 1];
    }
  }

  lemma FreshBuildsOfFrame(tlas: Option<Handle>, state: SceneState, meshCount: nat, recordSize: nat, created: Handle)
    ensures FreshBuilds(RecordTlas(tlas, state, meshCount, recordSize, created).commands)
            == if state == HierarchyUpdated && tlas.None? then 1 else 0
  {
    var cmds := RecordTlas(tlas, state, meshCount, recordSize, created).commands;
    if state == HierarchyUpdated {
      var c1, c2, c3 := cmds[..1], cmds[..2], cmds[..3];
      assert FreshBuilds(c1) == 0 by {
        assert c1[..0] == [];
      }
      assert FreshBuilds(c2) == 0 by {
        assert c2[..1] == c1;
      }
      assert FreshBuilds(c3) == (if tlas.None? then 1 else 0) by {
        assert c3[..2] == c2;
      }
      assert cmds[..3] == c3;
    }
  }

  /** Over any run of frames the TLAS is created at most once: on the first
      hierarchy-updated frame when none existed, and every later build is a refit. Once a
      hierarchy-updated frame has been recorded, the structure exists. */
  lemma {:induction false} BuiltAtMostOnce(tlas: Option<Handle>, states: seq<SceneState>, meshCount: nat, recordSize: nat, created: Handle)
    ensures var r := RecordFrames(tlas, states, meshCount, recordSize, created);
            FreshBuilds(r.commands) == (if tlas.None? && HierarchyUpdated in states then 1 else 0)
            && (r.tlas.Some? <==> tlas.Some? || HierarchyUpdated in states)
            && (tlas.Some? ==> r.tlas == tlas)
    decreases |states|
  {
    if states != [] {
      var init := states[..|states| - 1];
      var state := states[|states| - 1];
      BuiltAtMostOnce(tlas, init, meshCount, recordSize, created);
      var before := RecordFrames(tlas, init, meshCount, recordSize, created);
      var last := RecordTlas(before.tlas, state, meshCount, recordSize, created);
      FreshBuildsAppend(before.commands, last.commands);
      FreshBuildsOfFrame(before.tlas, state, meshCount, recordSize, created);
      assert states == init + [state];
      assert HierarchyUpdated in states <==> HierarchyUpdated in init || state == HierarchyUpdated;
    }
  }

  /** The commands of a run, one block per hierarchy-updated frame. */
  predicate Blocks(cmds: seq<Command>, tlas: Handle, copySize: nat)
    decreases |cmds|
  {
    if |cmds| < 4 then cmds == []
    else IsBlock(cmds[|cmds| - 4..], tlas, copySize) && Blocks(cmds[..|cmds| - 4], tlas, copySize)
  }

  /** Every frame of a run records either nothing or a whole block in order, copy, barrier,
      build, barrier, and every build targets the one structure of the run. */
  lemma {:induction false} FramesAreBlocks(tlas: Option<Handle>, states: seq<SceneState>, meshCount: nat, recordSize: nat, created: Handle)
    ensures var r := RecordFrames(tlas, states, meshCount, recordSize, created);
            var t := if tlas.Some? then tlas.value else created;
            Blocks(r.commands, t, recordSize * meshCount)
            && (r.tlas.Some? ==> r.tlas == Some(t))
            && (tlas.Some? ==> r.tlas == tlas)
    decreases |states|
  {
    if states != [] {
      var init := states[..|states| - 1];
      var state := states[|states| - 1];
      FramesAreBlocks(tlas, init, meshCount, recordSize, created);
      var before := RecordFrames(tlas, init, meshCount, recordSize, created);
      var last := RecordTlas(before.tlas, state, meshCount, recordSize, created);
      var cmds := before.commands + last.commands;
      if state == HierarchyUpdated {
        assert cmds[|cmds| - 4..] == last.commands;
        assert cmds[..|cmds| - 4] == before.commands;
      } else {
        assert cmds == before.commands;
      }
    }
  }
}

=== FILE: traversal.dfy ===
/** The per-frame traversal of the scene graph: every node's `update`, which refreshes the
    cached matrices of dirty TransformNodes, fills the `RenderState` lists in pre-order and
    escalates the scene state when something changed (src/engine/resource/scene.cpp). */
module Traversal {
  import opened Types
  import opened SceneGraph

  /** `SceneState`. The traversal only ever writes `HierarchyUpdated`. */
  datatype SceneState = Ready | HierarchyUpdated | TransformsUpdated

  /** A `RenderState` entry: the node as its own `update` left it, and the unscaled local
      matrix of its parent when that parent is a TransformNode. */
  datatype Visit = Visit(id: nat, name: string, kind: Kind, xf: Transform, parentFrame: Option<Mat>)

  /** `global_transform`: the parent's unscaled matrix times the local matrix, one level
      deep, or the local matrix alone when the parent is not a TransformNode. */
  function GlobalTransform(v: Visit): (m: Mat)
    ensures v.parentFrame.None? ==> m == v.xf.model
    ensures v.parentFrame.Some? ==> m == Mul(v.parentFrame.value, v.xf.model)
  {
    Frame(v.parentFrame, v.xf.model)
  }

  /** `TransformNode::forward`: the node's orientation applied to +z. */
  function Forward(v: Visit): Vec3Term {
    Rotated(v.xf.orientation, Vec3(0.0, 0.0, 1.0))
  }

  /** `TransformNode::global_position`: the node's position under its parent's unscaled
      matrix, one level deep, or the position itself when the parent is not a
      TransformNode. */
  function GlobalPosition(v: Visit): (p: Vec3Term)
    ensures v.parentFrame.None? ==> p == Stored(v.xf.position)
    ensures v.parentFrame.Some? ==> p == Transformed(v.parentFrame.value, v.xf.position)
  {
    if v.parentFrame.Some? then Transformed(v.parentFrame.value, v.xf.position) else Stored(v.xf.position)
  }

  /** Composition with an optional parent frame. */
  function Frame(parentFrame: Option<Mat>, local: Mat): Mat {
    if parentFrame.Some? then Mul(parentFrame.value, local) else local
  }

  /** The per-frame gathering state. */
  datatype RenderState = RenderState(
    meshes: seq<Visit>,
    directionalLights: seq<Visit>,
    spotLights: seq<Visit>,
    pointLights: seq<Visit>,
    camera: Option<Visit>,
    ibl: Option<Visit>,
    state: SceneState,
    width: nat,
    height: nat,
    numLights: nat)

  /** `RenderState::clear`: empty lists, no active camera or IBL, no lights, `Ready`; the
      viewport size is kept. */
  function Clear(rs: RenderState): (r: RenderState)
    ensures r.meshes == [] && r.directionalLights == [] && r.spotLights == [] && r.pointLights == []
    ensures r.camera.None? && r.ibl.None? && r.numLights == 0 && r.state == Ready
    ensures r.width == rs.width && r.height == rs.height
  {
    RenderState([], [], [], [], None, None, Ready, rs.width, rs.height, 0)
  }

  /** `RenderState::setup`: a cleared state for a viewport of the given size. */
  function Setup(rs: RenderState, width: nat, height: nat): (r: RenderState)
    ensures r.meshes == [] && r.directionalLights == [] && r.spotLights == [] && r.pointLights == []
    ensures r.camera.None? && r.ibl.None? && r.numLights == 0 && r.state == Ready
    ensures r.width == width && r.height == height
  {
    Clear(rs).(width := width, height := height)
  }

  /** Nothing of the previous frame survives `setup`: the state depends on the viewport
      size alone. */
  lemma SetupForgetsPrevious(a: RenderState, b: RenderState, width: nat, height: nat)
    ensures Setup(a, width, height) == Setup(b, width, height)
  {
  }

  /** The result of updating one node: the node after the frame, and the render state. */
  datatype Step = Step(node: Node, rs: RenderState)

  datatype StepSeq = StepSeq(nodes: seq<Node>, rs: RenderState)

  /** `TransformNode::update`: a transform-dirty node rebuilds its cached matrices from
      position, orientation and scale, keeps the previous model matrix, clears its flag and
      escalates the scene state. A clean node is left alone. */
  function LocalUpdate(n: Node, rs: RenderState): (r: Step)
    ensures !r.node.transformDirty
    ensures r.node.(xf := n.xf, transformDirty := n.transformDirty) == n
    ensures n.transformDirty ==> r.node.xf == n.xf.(prevModel := n.xf.model,
                                                   modelWithoutScale := TR(n.xf.position, n.xf.orientation),
                                                   model := TRS(n.xf.position, n.xf.orientation, n.xf.scale))
    ensures n.transformDirty ==> r.rs == rs.(state := HierarchyUpdated)
    ensures !n.transformDirty ==> r == Step(n, rs)
  {
    if n.transformDirty then
      var xf := n.xf.(prevModel := n.xf.model,
                      modelWithoutScale := TR(n.xf.position, n.xf.orientation),
                      model := Mul(TR(n.xf.position, n.xf.orientation), Scale(n.xf.scale)));
      Step(n.(xf := xf, transformDirty := false), rs.(state := HierarchyUpdated))
    else
      Step(n, rs)
  }

  /** `CameraNode::update` after the transform step: the projection from the field of view,
      the viewport size and the clip planes, and the view matrix as the inverse of the
      unscaled global transform. Other nodes are unchanged. */
  function CameraUpdate(n: Node, parentFrame: Option<Mat>, rs: RenderState): (r: Node)
    ensures TypeOf(r.kind) == TypeOf(n.kind)
    ensures r.(kind := n.kind) == n
    ensures !n.kind.CameraKind? ==> r == n
    ensures n.kind.CameraKind? ==>
              r.kind.projection == Perspective(n.kind.fov, rs.width, rs.height, n.kind.near, n.kind.far)
              && r.kind.view == Inverse(Frame(parentFrame, n.xf.modelWithoutScale))
              && r.kind.(view := n.kind.view, projection := n.kind.projection) == n.kind
  {
    if n.kind.CameraKind? then
      n.(kind := n.kind.(projection := Perspective(n.kind.fov, rs.width, rs.height, n.kind.near, n.kind.far),
                         view := Inverse(Frame(parentFrame, n.xf.modelWithoutScale))))
    else n
  }

  /** What a node contributes to the render state once updated: meshes that hold a mesh and
      every light go to their list; a camera or IBL fills its slot only if still empty. */
  function Collect(n: Node, parentFrame: Option<Mat>, rs: RenderState): RenderState {
    var v := Visit(n.id, n.name, n.kind, n.xf, parentFrame);
    match n.kind
    case MeshKind(mesh, _) => if mesh.Some? then rs.(meshes := rs.meshes + [v]) else rs
    case DirectionalKind(_, _, _) => rs.(directionalLights := rs.directionalLights + [v])
    case SpotKind(_, _, _, _, _) => rs.(spotLights := rs.spotLights + [v])
    case PointKind(_, _, _) => rs.(pointLights := rs.pointLights + [v])
    case CameraKind(_, _, _, _, _, _, _) => if rs.camera.None? then rs.(camera := Some(v)) else rs
    case IblKind(_) => if rs.ibl.None? then rs.(ibl := Some(v)) else rs
    case RootKind => rs
  }

  /** The part of an enabled node's `update` before its children: the transform step (not
      for IBL nodes), the camera matrices, collection, and escalation when hierarchy-dirty. */
  function Visited(n: Node, parentFrame: Option<Mat>, rs: RenderState): (r: Step)
    ensures r.node.children == n.children && r.node.id == n.id && r.node.enabled == n.enabled
    ensures TypeOf(r.node.kind) == TypeOf(n.kind) && r.node.hierarchyDirty == n.hierarchyDirty
  {
    var a := if IsTransformNode(n) then LocalUpdate(n, rs) else Step(n, rs);
    var m := CameraUpdate(a.node, parentFrame, a.rs);
    var rs1 := Collect(m, parentFrame, a.rs);
    Step(m, if m.hierarchyDirty then rs1.(state := HierarchyUpdated) else rs1)
  }

  /** The frame a node hands to its children: its unscaled matrix if it is a TransformNode. */
  function ChildFrame(n: Node): Option<Mat> {
    if IsTransformNode(n) then Some(n.xf.modelWithoutScale) else None
  }

  /** The `update` of every node class. A disabled node skips itself and its whole subtree.
      An enabled node is visited, clears its hierarchy flag and updates its children in
      order; the children see this node's unscaled matrix as their parent frame, except
      below an IBL node, which is not a TransformNode. */
  function UpdateNode(n: Node, parentFrame: Option<Mat>, rs: RenderState): (r: Step)
    decreases n
  {
    if !n.enabled then Step(n, rs)
    else
      var v := Visited(n, parentFrame, rs);
      var c := UpdateChildren(n.children, ChildFrame(v.node), v.rs);
      Step(v.node.(hierarchyDirty := false, children := c.nodes), c.rs)
  }

  /** `update_children`'s loop: each child in order, threading the render state. */
  function UpdateChildren(cs: seq<Node>, parentFrame: Option<Mat>, rs: RenderState): (r: StepSeq)
    ensures |r.nodes| == |cs|
    decreases cs
  {
    if |cs| == 0 then StepSeq([], rs)
    else
      var h := UpdateNode(cs[0], parentFrame, rs);
      var t := UpdateChildren(cs[1..], parentFrame, h.rs);
      StepSeq([h.node] + t.nodes, t.rs)
  }

  // ---------------------------------------------------------------------------------------
  // Reference definitions: what a traversal sees
  // ---------------------------------------------------------------------------------------

  /** The render-state destinations. */
  datatype Bucket = MeshBucket | DirectionalBucket | SpotBucket | PointBucket | CameraBucket | IblBucket

  predicate IsListBucket(b: Bucket) {
    !b.CameraBucket? && !b.IblBucket?
  }

  /** Whether a node belongs to a destination: meshes only when they hold a mesh, lights,
      cameras and IBL nodes always. */
  predicate InBucket(n: Node, b: Bucket) {
    match b
    case MeshBucket => n.kind.MeshKind? && n.kind.mesh.Some?
    case DirectionalBucket => n.kind.DirectionalKind?
    case SpotBucket => n.kind.SpotKind?
    case PointBucket => n.kind.PointKind?
    case CameraBucket => n.kind.CameraKind?
    case IblBucket => n.kind.IblKind?
  }

  /** Ids of the nodes of a destination that a traversal reaches, in pre-order: enabled
      nodes whose ancestors are all enabled. */
  function VisibleIds(n: Node, b: Bucket): seq<nat>
    decreases n
  {
    if !n.enabled then [] else (if InBucket(n, b) then [n.id] else []) + VisibleIdsSeq(n.children, b)
  }

  function VisibleIdsSeq(cs: seq<Node>, b: Bucket): seq<nat>
    decreases cs
  {
    if |cs| == 0 then [] else VisibleIds(cs[0], b) + VisibleIdsSeq(cs[1..], b)
  }

  /** A node that will escalate the state when visited: hierarchy-dirty, or transform-dirty
      and a TransformNode (an IBL node's transform flag is never looked at). */
  predicate Dirty(n: Node) {
    n.hierarchyDirty || (IsTransformNode(n) && n.transformDirty)
  }

  /** Some node the traversal reaches is dirty. */
  predicate AnyDirty(n: Node)
    decreases n
  {
    n.enabled && (Dirty(n) || AnyDirtySeq(n.children))
  }

  predicate AnyDirtySeq(cs: seq<Node>)
    decreases cs
  {
    |cs| > 0 && (AnyDirty(cs[0]) || AnyDirtySeq(cs[1..]))
  }

  function Ids(vs: seq<Visit>): (r: seq<nat>)
    ensures |r| == |vs|
    ensures forall i :: 0 <= i < |vs| ==> r[i] == vs[i].id
  {
    seq(|vs|, i requires 0 <= i < |vs| => vs[i].id)
  }

  function ListOf(rs: RenderState, b: Bucket): seq<Visit>
    requires IsListBucket(b)
  {
    match b
    case MeshBucket => rs.meshes
    case DirectionalBucket => rs.directionalLights
    case SpotBucket => rs.spotLights
    case PointBucket => rs.pointLights
  }

  function SlotId(v: Option<Visit>): Option<nat> {
    if v.Some? then Some(v.value.id) else None
  }

  /** A slot that keeps its first occupant. */
  function FirstOf(slot: Option<nat>, ids: seq<nat>): Option<nat> {
    if slot.Some? then slot else if |ids| > 0 then Some(ids[0]) else None
  }

  /** The render state agrees with the reference definitions: each list gained exactly the
      reached ids of its destination in pre-order, and each slot holds its first occupant. */
  predicate Gathered(before: RenderState, after: RenderState, listed: Bucket -> seq<nat>) {
    (forall b :: IsListBucket(b) ==> Ids(ListOf(after, b)) == Ids(ListOf(before, b)) + listed(b))
    && SlotId(after.camera) == FirstOf(SlotId(before.camera), listed(CameraBucket))
    && SlotId(after.ibl) == FirstOf(SlotId(before.ibl), listed(IblBucket))
    && after.width == before.width && after.height == before.height && after.numLights == before.numLights
  }

  // ---------------------------------------------------------------------------------------
  // Properties of the traversal
  // ---------------------------------------------------------------------------------------

  lemma FirstOfAppend(slot: Option<nat>, a: seq<nat>, b: seq<nat>)
    ensures FirstOf(FirstOf(slot, a), b) == FirstOf(slot, a + b)
  {
  }

  lemma CollectGathers(n: Node, parentFrame: Option<Mat>, rs: RenderState)
    ensures Gathered(rs, Collect(n, parentFrame, rs), b => if InBucket(n, b) then [n.id] else [])
    ensures Collect(n, parentFrame, rs).state == rs.state
  {
    var r := Collect(n, parentFrame, rs);
    var v := Visit(n.id, n.name, n.kind, n.xf, parentFrame);
    forall b | IsListBucket(b)
      ensures Ids(ListOf(r, b)) == Ids(ListOf(rs, b)) + (if InBucket(n, b) then [n.id] else [])
    {
      CollectList(n, parentFrame, rs, b);
      if InBucket(n, b) {
        IdsSnoc(ListOf(rs, b), v);
      } else {
        assert ListOf(rs, b) + [] == ListOf(rs, b);
      }
    }
  }

  lemma IdsSnoc(vs: seq<Visit>, v: Visit)
    ensures Ids(vs + [v]) == Ids(vs) + [v.id]
  {
  }

  /** Collecting appends the node's visit to its own list and leaves the others alone. */
  lemma CollectList(n: Node, parentFrame: Option<Mat>, rs: RenderState, b: Bucket)
    requires IsListBucket(b)
    ensures ListOf(Collect(n, parentFrame, rs), b)
            == ListOf(rs, b) + (if InBucket(n, b) then [Visit(n.id, n.name, n.kind, n.xf, parentFrame)] else [])
  {
  }

  /** Gathering composes: two consecutive stretches of a traversal gather the concatenation. */
  lemma GatheredTrans(r0: RenderState, r1: RenderState, r2: RenderState, f: Bucket -> seq<nat>, g: Bucket -> seq<nat>)
    requires Gathered(r0, r1, f) && Gathered(r1, r2, g)
    ensures Gathered(r0, r2, b => f(b) + g(b))
  {
    FirstOfAppend(SlotId(r0.camera), f(CameraBucket), g(CameraBucket));
    FirstOfAppend(SlotId(r0.ibl), f(IblBucket), g(IblBucket));
  }

  /** The traversal lists, in pre-order, exactly the reached meshes that hold a mesh and
      every reached light; the active camera and IBL are the first reached ones unless the
      slot was already taken; a disabled subtree contributes nothing and is left as it was. */
  lemma VisitedGathers(n: Node, parentFrame: Option<Mat>, rs: RenderState)
    ensures Gathered(rs, Visited(n, parentFrame, rs).rs, b => if InBucket(n, b) then [n.id] else [])
  {
    var a := if IsTransformNode(n) then LocalUpdate(n, rs) else Step(n, rs);
    var m := CameraUpdate(a.node, parentFrame, a.rs);
    var rs1 := Collect(m, parentFrame, a.rs);
    CollectGathers(m, parentFrame, a.rs);
    forall b
      ensures InBucket(m, b) == InBucket(n, b)
    {
    }
    GatheredTransfer(a.rs, rs1, rs, Visited(n, parentFrame, rs).rs,
                     b => if InBucket(m, b) then [m.id] else [], b => if InBucket(n, b) then [n.id] else []);
  }

  /** Gathering does not look at the scene state, nor at how the listed ids are named. */
  lemma GatheredTransfer(before: RenderState, after: RenderState, before': RenderState, after': RenderState,
                         f: Bucket -> seq<nat>, g: Bucket -> seq<nat>)
    requires Gathered(before, after, f)
    requires before'.(state := before.state) == before && after'.(state := after.state) == after
    requires forall b :: f(b) == g(b)
    ensures Gathered(before', after', g)
  {
    forall b | IsListBucket(b)
      ensures Ids(ListOf(after', b)) == Ids(ListOf(before', b)) + g(b)
    {
      assert ListOf(after', b) == ListOf(after, b) && ListOf(before', b) == ListOf(before, b);
    }
  }

  lemma {:induction false} UpdateNodeGathers(n: Node, parentFrame: Option<Mat>, rs: RenderState)
    ensures Gathered(rs, UpdateNode(n, parentFrame, rs).rs, b => VisibleIds(n, b))
    ensures !n.enabled ==> UpdateNode(n, parentFrame, rs) == Step(n, rs)
    decreases n
  {
    if n.enabled {
      var v := Visited(n, parentFrame, rs);
      VisitedGathers(n, parentFrame, rs);
      UpdateChildrenGathers(n.children, ChildFrame(v.node), v.rs);
      GatheredTrans(rs, v.rs, UpdateNode(n, parentFrame, rs).rs,
                    b => if InBucket(n, b) then [n.id] else [], b => VisibleIdsSeq(n.children, b));
    }
  }

  lemma {:induction false} UpdateChildrenGathers(cs: seq<Node>, parentFrame: Option<Mat>, rs: RenderState)
    ensures Gathered(rs, UpdateChildren(cs, parentFrame, rs).rs, b => VisibleIdsSeq(cs, b))
    decreases cs
  {
    if |cs| == 0 {
      assert forall b :: IsListBucket(b) ==> Ids(ListOf(rs, b)) + [] == Ids(ListOf(rs, b));
    } else {
      var h := UpdateNode(cs[0], parentFrame, rs);
      UpdateNodeGathers(cs[0], parentFrame, rs);
      UpdateChildrenGathers(cs[1..], parentFrame, h.rs);
      GatheredTrans(rs, h.rs, UpdateChildren(cs, parentFrame, rs).rs, b => VisibleIds(cs[0], b), b => VisibleIdsSeq(cs[1..], b));
    }
  }

  // ---------------------------------------------------------------------------------------
  // Reference definitions: what each listed visit carries
  // ---------------------------------------------------------------------------------------

  /** A node's transform once its own `update` ran: a dirty TransformNode rebuilds its
      unscaled and full local matrices from position, orientation and scale and keeps the
      old model matrix as the previous one; an IBL node or a clean node keeps its own. */
  function Refreshed(n: Node): Transform {
    if IsTransformNode(n) && n.transformDirty then
      n.xf.(prevModel := n.xf.model,
            modelWithoutScale := TR(n.xf.position, n.xf.orientation),
            model := TRS(n.xf.position, n.xf.orientation, n.xf.scale))
    else n.xf
  }

  /** The frame the children of `n` see: its refreshed unscaled matrix when it is a
      TransformNode, none below an IBL node. */
  function FrameBelow(n: Node): Option<Mat> {
    if IsTransformNode(n) then Some(Refreshed(n).modelWithoutScale) else None
  }

  /** The visits of a list destination a traversal appends, in pre-order: each reached node
      of the destination with its refreshed transform and its parent's frame. */
  function VisibleVisits(n: Node, parentFrame: Option<Mat>, b: Bucket): seq<Visit>
    requires IsListBucket(b)
    decreases n
  {
    if !n.enabled then []
    else
      (if InBucket(n, b) then [Visit(n.id, n.name, n.kind, Refreshed(n), parentFrame)] else [])
      + VisibleVisitsSeq(n.children, FrameBelow(n), b)
  }

  function VisibleVisitsSeq(cs: seq<Node>, parentFrame: Option<Mat>, b: Bucket): seq<Visit>
    requires IsListBucket(b)
    decreases cs
  {
    if |cs| == 0 then [] else VisibleVisits(cs[0], parentFrame, b) + VisibleVisitsSeq(cs[1..], parentFrame, b)
  }

  /** Each list gained exactly the visits `f` names for it. */
  ghost predicate ListsGained(before: RenderState, after: RenderState, f: Bucket -> seq<Visit>) {
    forall b :: IsListBucket(b) ==> ListOf(after, b) == ListOf(before, b) + f(b)
  }

  lemma ListsGainedTrans(r0: RenderState, r1: RenderState, r2: RenderState, f: Bucket -> seq<Visit>, g: Bucket -> seq<Visit>)
    requires ListsGained(r0, r1, f) && ListsGained(r1, r2, g)
    ensures ListsGained(r0, r2, b => f(b) + g(b))
  {
    forall b | IsListBucket(b)
      ensures ListOf(r2, b) == ListOf(r0, b) + (f(b) + g(b))
    {
      assert ListOf(r2, b) == ListOf(r0, b) + f(b) + g(b);
    }
  }

  /** Visiting one node appends its own visit, with its refreshed transform, and hands its
      children the refreshed frame. */
  lemma VisitedLists(n: Node, parentFrame: Option<Mat>, rs: RenderState)
    requires n.enabled
    ensures ListsGained(rs, Visited(n, parentFrame, rs).rs,
                        b => if IsListBucket(b) && InBucket(n, b) then [Visit(n.id, n.name, n.kind, Refreshed(n), parentFrame)] else [])
    ensures ChildFrame(Visited(n, parentFrame, rs).node) == FrameBelow(n)
  {
    var a := if IsTransformNode(n) then LocalUpdate(n, rs) else Step(n, rs);
    var m := CameraUpdate(a.node, parentFrame, a.rs);
    assert a.node.xf == Refreshed(n);
    forall b | IsListBucket(b)
      ensures ListOf(Visited(n, parentFrame, rs).rs, b)
              == ListOf(rs, b) + (if InBucket(n, b) then [Visit(n.id, n.name, n.kind, Refreshed(n), parentFrame)] else [])
    {
      CollectList(m, parentFrame, a.rs, b);
      assert InBucket(m, b) == InBucket(n, b);
      if InBucket(n, b) {
        assert m.kind == n.kind;
      } else {
        assert ListOf(rs, b) + [] == ListOf(rs, b);
      }
    }
  }

  /** Every visit the traversal lists carries the node's transform as its own `update`
      refreshed it and, as its parent frame, the refreshed unscaled matrix of its immediate
      parent when that parent is a TransformNode and none otherwise; the lists gain exactly
      these visits, in pre-order. */
  lemma {:induction false} UpdateNodeLists(n: Node, parentFrame: Option<Mat>, rs: RenderState)
    ensures ListsGained(rs, UpdateNode(n, parentFrame, rs).rs, b => if IsListBucket(b) then VisibleVisits(n, parentFrame, b) else [])
    decreases n
  {
    if n.enabled {
      var v := Visited(n, parentFrame, rs);
      VisitedLists(n, parentFrame, rs);
      UpdateChildrenLists(n.children, FrameBelow(n), v.rs);
      ListsGainedTrans(rs, v.rs, UpdateNode(n, parentFrame, rs).rs,
                       b => if IsListBucket(b) && InBucket(n, b) then [Visit(n.id, n.name, n.kind, Refreshed(n), parentFrame)] else [],
                       b => if IsListBucket(b) then VisibleVisitsSeq(n.children, FrameBelow(n), b) else []);
    } else {
      assert forall b :: IsListBucket(b) ==> ListOf(rs, b) + [] == ListOf(rs, b);
    }
  }

  lemma {:induction false} UpdateChildrenLists(cs: seq<Node>, parentFrame: Option<Mat>, rs: RenderState)
    ensures ListsGained(rs, UpdateChildren(cs, parentFrame, rs).rs, b => if IsListBucket(b) then VisibleVisitsSeq(cs, parentFrame, b) else [])
    decreases cs
  {
    if |cs| == 0 {
      assert forall b :: IsListBucket(b) ==> ListOf(rs, b) + [] == ListOf(rs, b);
    } else {
      var h := UpdateNode(cs[0], parentFrame, rs);
      UpdateNodeLists(cs[0], parentFrame, rs);
      UpdateChildrenLists(cs[1..], parentFrame, h.rs);
      ListsGainedTrans(rs, h.rs, UpdateChildren(cs, parentFrame, rs).rs,
                       b => if IsListBucket(b) then VisibleVisits(cs[0], parentFrame, b) else [],
                       b => if IsListBucket(b) then VisibleVisitsSeq(cs[1..], parentFrame, b) else []);
    }
  }

  /** The two reference definitions agree: the listed visits name the reached ids. */
  lemma {:induction false} VisibleVisitsIds(n: Node, parentFrame: Option<Mat>, b: Bucket)
    requires IsListBucket(b)
    ensures Ids(VisibleVisits(n, parentFrame, b)) == VisibleIds(n, b)
    decreases n
  {
    if n.enabled {
      VisibleVisitsSeqIds(n.children, FrameBelow(n), b);
      IdsAppend((if InBucket(n, b) then [Visit(n.id, n.name, n.kind, Refreshed(n), parentFrame)] else []),
                VisibleVisitsSeq(n.children, FrameBelow(n), b));
    }
  }

  lemma {:induction false} VisibleVisitsSeqIds(cs: seq<Node>, parentFrame: Option<Mat>, b: Bucket)
    requires IsListBucket(b)
    ensures Ids(VisibleVisitsSeq(cs, parentFrame, b)) == VisibleIdsSeq(cs, b)
    decreases cs
  {
    if |cs| > 0 {
      VisibleVisitsIds(cs[0], parentFrame, b);
      VisibleVisitsSeqIds(cs[1..], parentFrame, b);
      IdsAppend(VisibleVisits(cs[0], parentFrame, b), VisibleVisitsSeq(cs[1..], parentFrame, b));
    }
  }

  lemma IdsAppend(a: seq<Visit>, b: seq<Visit>)
    ensures Ids(a + b) == Ids(a) + Ids(b)
  {
  }

  lemma VisitedState(n: Node, parentFrame: Option<Mat>, rs: RenderState)
    ensures var r := Visited(n, parentFrame, rs).rs;
            (r.state == HierarchyUpdated <==> rs.state == HierarchyUpdated || Dirty(n))
            && (r.state != HierarchyUpdated ==> r.state == rs.state)
  {
    var a := if IsTransformNode(n) then LocalUpdate(n, rs) else Step(n, rs);
    var m := CameraUpdate(a.node, parentFrame, a.rs);
    CollectGathers(m, parentFrame, a.rs);
  }

  /** A disabled subtree is skipped by the traversal, dirty or not, and because disabling
      touches no dirty flag, the changes made to it meanwhile escalate the first traversal
      after it is enabled again. */
  lemma DisabledChangesSurface(n: Node, parentFrame: Option<Mat>, rs: RenderState)
    ensures UpdateNode(Disable(n), parentFrame, rs) == Step(Disable(n), rs)
    ensures UpdateNode(Enable(Disable(n)), parentFrame, rs).rs.state == HierarchyUpdated
            <==> rs.state == HierarchyUpdated || Dirty(n) || AnyDirtySeq(n.children)
  {
    UpdateNodeState(Enable(Disable(n)), parentFrame, rs);
  }

  /** Escalation: after a traversal the state is `HierarchyUpdated` exactly when it already
      was or some reached node was hierarchy-dirty or (as a TransformNode) transform-dirty;
      otherwise the state is untouched, so `TransformsUpdated` is never produced. */
  lemma {:induction false} UpdateNodeState(n: Node, parentFrame: Option<Mat>, rs: RenderState)
    ensures var r := UpdateNode(n, parentFrame, rs).rs;
            (r.state == HierarchyUpdated <==> rs.state == HierarchyUpdated || AnyDirty(n))
            && (r.state != HierarchyUpdated ==> r.state == rs.state)
    decreases n
  {
    if n.enabled {
      var v := Visited(n, parentFrame, rs);
      VisitedState(n, parentFrame, rs);
      UpdateChildrenState(n.children, ChildFrame(v.node), v.rs);
    }
  }

  lemma {:induction false} UpdateChildrenState(cs: seq<Node>, parentFrame: Option<Mat>, rs: RenderState)
    ensures var r := UpdateChildren(cs, parentFrame, rs).rs;
            (r.state == HierarchyUpdated <==> rs.state == HierarchyUpdated || AnyDirtySeq(cs))
            && (r.state != HierarchyUpdated ==> r.state == rs.state)
    decreases cs
  {
    if |cs| > 0 {
      var h := UpdateNode(cs[0], parentFrame, rs);
      UpdateNodeState(cs[0], parentFrame, rs);
      UpdateChildrenState(cs[1..], parentFrame, h.rs);
    }
  }

  /** Visiting clears the flags it looks at: no reached node of the updated tree is dirty,
      and the tree keeps its ids and enabled flags. */
  lemma {:induction false} UpdateNodeCleans(n: Node, parentFrame: Option<Mat>, rs: RenderState)
    ensures var r := UpdateNode(n, parentFrame, rs).node;
            !AnyDirty(r) && r.id == n.id && r.enabled == n.enabled && TypeOf(r.kind) == TypeOf(n.kind)
    decreases n
  {
    if n.enabled {
      var v := Visited(n, parentFrame, rs);
      assert !v.node.transformDirty || !IsTransformNode(n);
      UpdateChildrenCleans(n.children, ChildFrame(v.node), v.rs);
    }
  }

  lemma {:induction false} UpdateChildrenCleans(cs: seq<Node>, parentFrame: Option<Mat>, rs: RenderState)
    ensures !AnyDirtySeq(UpdateChildren(cs, parentFrame, rs).nodes)
    decreases cs
  {
    if |cs| > 0 {
      var h := UpdateNode(cs[0], parentFrame, rs);
      var r := UpdateChildren(cs, parentFrame, rs).nodes;
      UpdateNodeCleans(cs[0], parentFrame, rs);
      UpdateChildrenCleans(cs[1..], parentFrame, h.rs);
      assert r[1..] == UpdateChildren(cs[1..], parentFrame, h.rs).nodes;
    }
  }

  /** Re-traversing a graph that nothing touched since its last traversal leaves a cleared
      render state `Ready`. */
  lemma ReupdateIsReady(n: Node, parentFrame: Option<Mat>, rs: RenderState, nextFrame: Option<Mat>, next: RenderState)
    requires next.state == Ready
    ensures UpdateNode(UpdateNode(n, parentFrame, rs).node, nextFrame, next).rs.state == Ready
  {
    UpdateNodeCleans(n, parentFrame, rs);
    UpdateNodeState(UpdateNode(n, parentFrame, rs).node, nextFrame, next);
  }

  /** A newly constructed node escalates the scene state on its first traversal. */
  lemma NewNodeEscalates(counter: nat, t: NodeType, name: string, parentFrame: Option<Mat>, rs: RenderState)
    ensures UpdateNode(NewNode(counter, t, name).node, parentFrame, rs).rs.state == HierarchyUpdated
  {
    UpdateNodeState(NewNode(counter, t, name).node, parentFrame, rs);
  }

  /** Global transforms compose one level only: in a root -> a -> b chain of dirty
      TransformNodes, the mesh b is listed with a's rebuilt unscaled matrix as its frame and
      its global transform does not involve the root's transform. */
  lemma GlobalTransformOneLevel(root: Node, a: Node, b: Node, rs: RenderState)
    requires root.enabled && root.kind.RootKind? && root.children == [a]
    requires a.enabled && a.kind.RootKind? && a.transformDirty && a.children == [b]
    requires b.enabled && b.kind.MeshKind? && b.kind.mesh.Some? && b.transformDirty && b.children == []
    requires rs.meshes == []
    ensures var ms := UpdateNode(root, None, rs).rs.meshes;
            |ms| == 1 && ms[0].id == b.id
            && GlobalTransform(ms[0]) == Mul(TR(a.xf.position, a.xf.orientation), TRS(b.xf.position, b.xf.orientation, b.xf.scale))
  {
    var v := Visited(root, None, rs);
    var va := Visited(a, ChildFrame(v.node), v.rs);
    var vb := Visited(b, ChildFrame(va.node), va.rs);
    assert ChildFrame(va.node) == Some(TR(a.xf.position, a.xf.orientation));
    assert vb.rs.meshes == [Visit(b.id, b.name, b.kind, vb.node.xf, Some(TR(a.xf.position, a.xf.orientation)))];
    var ub := UpdateNode(b, ChildFrame(va.node), va.rs);
    assert UpdateChildren([], ChildFrame(vb.node), vb.rs).rs == vb.rs;
    assert ub.rs == UpdateChildren(b.children, ChildFrame(vb.node), vb.rs).rs;
    assert ub.rs == vb.rs;
    assert [b][1..] == [] && [a][1..] == [];
    var cb := UpdateChildren([b], ChildFrame(va.node), va.rs);
    assert UpdateChildren([], ChildFrame(va.node), ub.rs).rs == ub.rs;
    assert cb.rs == ub.rs;
    var ua := UpdateNode(a, ChildFrame(v.node), v.rs);
    assert ua.rs == cb.rs;
    var ca := UpdateChildren([a], ChildFrame(v.node), v.rs);
    assert UpdateChildren([], ChildFrame(v.node), ua.rs).rs == ua.rs;
    assert ca.rs == ua.rs;
  }
}

=== FILE: types.dfy ===
/** Shared vocabulary of the Helios scene model: optional values, opaque maths terms,
    colours, and the GPU-side resources (textures, materials, meshes) that scene nodes hold.

    Floating-point maths is out of scope: vectors and scalars are `real` values that are only
    stored and compared, and matrices and quaternions are terms of a free algebra, so that
    "which matrices were composed, in which order" is visible while no product is evaluated. */
module Types {

  datatype Option<+T> = None | Some(value: T)

  // ---------------------------------------------------------------------------------------
  // Capacities (include/resource/scene.h)
  // ---------------------------------------------------------------------------------------

  const MaxSceneMeshInstanceCount: nat := 1024
  const MaxSceneLightCount: nat := 100000
  const MaxSceneMaterialCount: nat := 4096
  const MaxSceneMaterialTextureCount: nat := MaxSceneMaterialCount * 4

  // ---------------------------------------------------------------------------------------
  // Opaque maths
  // ---------------------------------------------------------------------------------------

  datatype Vec3 = Vec3(x: real, y: real, z: real)

  const Zero3: Vec3 := Vec3(0.0, 0.0, 0.0)
  const One3: Vec3 := Vec3(1.0, 1.0, 1.0)

  function Add3(a: Vec3, b: Vec3): Vec3 {
    Vec3(a.x + b.x, a.y + b.y, a.z + b.z)
  }

  /** Rotations. `QuatIdentity` is what `glm::quat(glm::radians(glm::vec3(0)))` yields. */
  datatype Quat =
    | QuatIdentity
    | QuatValue(w: real, x: real, y: real, z: real)
    | QuatFromEulerDegrees(e: Vec3)
    | QuatMul(a: Quat, b: Quat)

  /** 4x4 matrices as terms: the constructors name the glm call that would have produced them. */
  datatype Mat =
    | Identity
    | Translate(t: Vec3)
    | Rotate(q: Quat)
    | Scale(s: Vec3)
    | Mul(a: Mat, b: Mat)
    | Inverse(m: Mat)
    | Perspective(fovDegrees: real, width: nat, height: nat, near: real, far: real)
    | Recomposed(position: Vec3, rotationDegrees: Vec3, scale: Vec3)

  /** The translate-rotate matrix cached as `m_model_matrix_without_scale` (T * R). */
  function TR(position: Vec3, orientation: Quat): Mat {
    Mul(Translate(position), Rotate(orientation))
  }

  /** The full local matrix cached as `m_model_matrix` ((T * R) * S). */
  function TRS(position: Vec3, orientation: Quat, scale: Vec3): Mat {
    Mul(TR(position, orientation), Scale(scale))
  }

  /** 3-vectors computed from a transform, as terms: a stored vector, a vector turned by a
      rotation (`q * v`), or a point carried by a matrix (`m * vec4(v, 1)`). */
  datatype Vec3Term =
    | Stored(v: Vec3)
    | Rotated(q: Quat, v: Vec3)
    | Transformed(m: Mat, v: Vec3)

  datatype Rgba = Rgba(r: real, g: real, b: real, a: real)

  const Black: Rgba := Rgba(0.0, 0.0, 0.0, 0.0)

  // ---------------------------------------------------------------------------------------
  // GPU resources referenced by the scene graph
  // ---------------------------------------------------------------------------------------

  /** A 2D texture; `id` is the resource identity the registrar deduplicates on. */
  datatype Texture = Texture(id: nat, path: string)

  /** A cubemap used by an IBL node. */
  datatype Cubemap = Cubemap(id: nat, path: string)

  /** Where a material's texture lives in its own texture list, and which channel it samples. */
  datatype TextureInfo = TextureInfo(arrayIndex: nat, channel: int)

  /** A material as `Material::create` receives it: its own texture list (entries may be
      absent when a texture failed to load), one optional info per texture role, and the
      scalar and colour fallbacks. */
  datatype Material = Material(
    id: nat,
    path: string,
    textures: seq<Option<Texture>>,
    albedoInfo: Option<TextureInfo>,
    normalInfo: Option<TextureInfo>,
    metallicInfo: Option<TextureInfo>,
    roughnessInfo: Option<TextureInfo>,
    emissiveInfo: Option<TextureInfo>,
    albedoValue: Rgba,
    emissiveValue: Rgba,
    metallicValue: real,
    roughnessValue: real)

  /** The texture a role refers to: the entry of the material's texture list at the
      role's array index, when the role was assigned one. */
  function RoleTexture(m: Material, info: Option<TextureInfo>): Option<Texture> {
    match info
    case None => None
    case Some(ti) => if ti.arrayIndex < |m.textures| then m.textures[ti.arrayIndex] else None
  }

  function AlbedoTexture(m: Material): Option<Texture> { RoleTexture(m, m.albedoInfo) }
  function NormalTexture(m: Material): Option<Texture> { RoleTexture(m, m.normalInfo) }
  function RoughnessTexture(m: Material): Option<Texture> { RoleTexture(m, m.roughnessInfo) }
  function MetallicTexture(m: Material): Option<Texture> { RoleTexture(m, m.metallicInfo) }
  function EmissiveTexture(m: Material): Option<Texture> { RoleTexture(m, m.emissiveInfo) }

  /** The array index reported by `roughness_texture_info()` / `metallic_texture_info()`. */
  function InfoIndex(info: Option<TextureInfo>): int {
    match info
    case None => -1
    case Some(ti) => ti.arrayIndex
  }

  /** A contiguous index range of a mesh drawn with one material. */
  datatype SubMesh = SubMesh(name: string, matIdx: nat, indexCount: nat, vertexCount: nat, baseVertex: nat, baseIndex: nat)

  /** A loaded mesh: its submeshes, and one material slot per authored material (a slot is
      absent when that material failed to load). `vertexTags` holds the `position.w`
      component the loader writes into each vertex. */
  datatype Mesh = Mesh(
    id: nat,
    path: string,
    submeshes: seq<SubMesh>,
    materials: seq<Option<Material>>,
    vertexTags: seq<nat>,
    indices: seq<nat>)

  /** Index of the first occurrence of `x` in `s`, or `|s|` when absent. */
  function IndexOf<T(==)>(s: seq<T>, x: T): (r: nat)
    ensures r <= |s|
    ensures r < |s| <==> x in s
    ensures r < |s| ==> s[r] == x
    ensures forall j :: 0 <= j < r ==> s[j] != x
  {
    if |s| == 0 then 0 else if s[0] == x then 0 else 1 + IndexOf(s[1..], x)
  }

  /** `IndexOf` is the only position before which `x` does not occur and at which it does
      (or the end of `s`). */
  lemma {:induction false} IndexOfCharacterised<T>(s: seq<T>, x: T, i: nat)
    requires i <= |s|
    requires forall j :: 0 <= j < i ==> s[j] != x
    requires i < |s| ==> s[i] == x
    ensures IndexOf(s, x) == i
  {
    if |s| > 0 && s[0] != x {
      IndexOfCharacterised(s[1..], x, i - 1);
    }
  }

  lemma IndexOfSnoc<T>(s: seq<T>, x: T, y: T)
    ensures y in s ==> IndexOf(s + [x], y) == IndexOf(s, y)
    ensures y !in s && y == x ==> IndexOf(s + [x], y) == |s|
  {
    if y in s {
      IndexOfCharacterised(s + [x], y, IndexOf(s, y));
    } else if y == x {
      IndexOfCharacterised(s + [x], y, |s|);
    }
  }

  /** `s` with later repeats removed, keeping first-occurrence order. */
  function Dedup<T(==,!new)>(s: seq<T>): (r: seq<T>)
    ensures forall x :: x in r <==> x in s
    ensures |r| <= |s|
    decreases |s|
  {
    if |s| == 0 then []
    else
      var d := Dedup(s[..|s| - 1]);
      assert forall x :: x in s <==> x in s[..|s| - 1] || x == s[|s| - 1];
      if s[|s| - 1] in d then d else d + [s[|s| - 1]]
  }

  predicate NoDuplicates<T(==)>(s: seq<T>) {
    forall i, j :: 0 <= i < j < |s| ==> s[i] != s[j]
  }

  lemma {:induction false} DedupHasNoDuplicates<T(!new)>(s: seq<T>)
    ensures NoDuplicates(Dedup(s))
    decreases |s|
  {
    if |s| > 0 {
      DedupHasNoDuplicates(s[..|s| - 1]);
    }
  }

  /** The set of the elements of `s`. */
  function Elements<T(!new)>(s: seq<T>): (r: set<T>)
    ensures forall x :: x in r <==> x in s
  {
    set x | x in s
  }

  /** A sequence without repeats has as many elements as the set of its elements. */
  lemma {:induction false} DistinctCount<T(!new)>(s: seq<T>)
    requires NoDuplicates(s)
    ensures |Elements(s)| == |s|
    decreases |s|
  {
    if |s| > 0 {
      var init := s[..|s| - 1];
      var last := s[|s| - 1];
      DistinctCount(init);
      assert Elements(s) == Elements(init) + {last};
      assert last !in init;
    }
  }

  /** Extending a sequence by one element extends its dedup by that element exactly
      when the element is new. */
  lemma DedupSnoc<T(!new)>(s: seq<T>, x: T)
    ensures Dedup(s + [x]) == if x in s then Dedup(s) else Dedup(s) + [x]
  {
    assert (s + [x])[..|s + [x]| - 1] == s;
  }
}

=== FILE: upload.dfy ===
/** What `Scene::create_gpu_resources` (src/engine/resource/scene.cpp:915-1311) writes on
    one frame: nothing on a ready frame; on a hierarchy-updated frame the registration pass
    of `Registrar`, the descriptor-set writes and the area lights; on every non-ready frame
    one instance record per listed mesh instance and the remaining light records.

    The light buffer is written from its first record on: `lights` is the sequence written
    there this frame. Mapped buffers keep what earlier frames wrote beyond that point. */
module Upload {
  import opened Types
  import opened SceneGraph
  import opened Traversal
  import opened Registrar

  // ---------------------------------------------------------------------------------------
  // The environment map and descriptor writes
  // ---------------------------------------------------------------------------------------

  /** The image bound as the environment map (binding 4 of the scene set). */
  datatype EnvironmentSource = IblImage(cubemapId: nat) | SkyModel | DefaultCubemap

  /** The active IBL node holds an image. */
  predicate IblHasImage(rs: RenderState) {
    rs.ibl.Some? && rs.ibl.value.kind.IblKind? && rs.ibl.value.kind.image.Some?
  }

  /** The active IBL's image if it has one, otherwise the sky model's cubemap when there is a
      directional light, otherwise the backend's default cubemap. */
  function EnvironmentMap(rs: RenderState): (e: EnvironmentSource)
    ensures e.IblImage? <==> IblHasImage(rs)
    ensures e.SkyModel? <==> !IblHasImage(rs) && |rs.directionalLights| > 0
    ensures e.IblImage? ==> e.cubemapId == rs.ibl.value.kind.image.value.id
  {
    if IblHasImage(rs) then IblImage(rs.ibl.value.kind.image.value.id)
    else if |rs.directionalLights| > 0 then SkyModel
    else DefaultCubemap
  }

  /** One `VkWriteDescriptorSet`, with the resources it points at (buffers and images are
      named by the mesh, node or texture they belong to). */
  datatype DescriptorWrite =
    | EnvironmentWrite(source: EnvironmentSource)
    | VertexBuffersWrite(meshIds: seq<nat>)
    | IndexBuffersWrite(meshIds: seq<nat>)
    | MaterialIndicesWrite(nodeIds: seq<nat>)
    | TexturesWrite(textureIds: seq<nat>)

  /** The environment write always comes first; each descriptor list is written only when
      it is non-empty, in the order vbo, ibo, material indices, textures. */
  function DescriptorWrites(env: EnvironmentSource, meshes: seq<nat>, nodes: seq<nat>, images: seq<nat>): (w: seq<DescriptorWrite>)
    ensures 1 <= |w| <= 5 && w[0] == EnvironmentWrite(env)
    ensures VertexBuffersWrite(meshes) in w <==> |meshes| > 0
    ensures IndexBuffersWrite(meshes) in w <==> |meshes| > 0
    ensures MaterialIndicesWrite(nodes) in w <==> |nodes| > 0
    ensures TexturesWrite(images) in w <==> |images| > 0
    ensures forall j :: 0 <= j < |w| ==> (w[j].EnvironmentWrite? <==> j == 0)
  {
    [EnvironmentWrite(env)]
      + (if |meshes| > 0 then [VertexBuffersWrite(meshes)] else [])
      + (if |meshes| > 0 then [IndexBuffersWrite(meshes)] else [])
      + (if |nodes| > 0 then [MaterialIndicesWrite(nodes)] else [])
      + (if |images| > 0 then [TexturesWrite(images)] else [])
  }

  // ---------------------------------------------------------------------------------------
  // Light records
  // ---------------------------------------------------------------------------------------

  /** The render state's lists as the C++ types guarantee them: every light list holds
      nodes of its class, and every listed mesh instance can be registered. */
  predicate Listed(rs: RenderState) {
    AllMeshVisits(rs.meshes)
    && (forall j :: 0 <= j < |rs.directionalLights| ==> rs.directionalLights[j].kind.DirectionalKind?)
    && (forall j :: 0 <= j < |rs.pointLights| ==> rs.pointLights[j].kind.PointKind?)
    && (forall j :: 0 <= j < |rs.spotLights| ==> rs.spotLights[j].kind.SpotKind?)
  }

  /** An environment-map record is written when the IBL has an image or any directional
      light exists (the sky model then stands in). */
  predicate HasEnvironmentLight(rs: RenderState) {
    IblHasImage(rs) || |rs.directionalLights| > 0
  }

  /** A directional light's record: colour, its forward direction, intensity and radius. */
  function DirectionalRecord(v: Visit): LightRecord
    requires v.kind.DirectionalKind?
  {
    DirectionalLight(v.id, v.kind.color, Forward(v), v.kind.intensity, v.kind.radius)
  }

  /** A point light's record: colour, intensity, its global position and radius. */
  function PointRecord(v: Visit): LightRecord
    requires v.kind.PointKind?
  {
    PointLight(v.id, v.kind.color, v.kind.intensity, GlobalPosition(v), v.kind.radius)
  }

  /** A spot light's record: colour, its forward direction, intensity, its global
      position, radius and the two cone angles. */
  function SpotRecord(v: Visit): LightRecord
    requires v.kind.SpotKind?
  {
    SpotLight(v.id, v.kind.color, Forward(v), v.kind.intensity, GlobalPosition(v), v.kind.radius,
              v.kind.innerCone, v.kind.outerCone)
  }

  /** The light records after the area lights: the environment record, then the
      directional, point and spot lights in list order. */
  function OtherLights(rs: RenderState): (r: seq<LightRecord>)
    requires Listed(rs)
    ensures |r| == (if HasEnvironmentLight(rs) then 1 else 0) + |rs.directionalLights| + |rs.pointLights| + |rs.spotLights|
  {
    (if HasEnvironmentLight(rs) then [EnvironmentLight] else [])
      + seq(|rs.directionalLights|, j requires 0 <= j < |rs.directionalLights| => DirectionalRecord(rs.directionalLights[j]))
      + seq(|rs.pointLights|, j requires 0 <= j < |rs.pointLights| => PointRecord(rs.pointLights[j]))
      + seq(|rs.spotLights|, j requires 0 <= j < |rs.spotLights| => SpotRecord(rs.spotLights[j]))
  }

  /** The records after the area lights are ordered by kind: the environment record first
      (when written), then directional (type 0), point (type 2) and spot (type 1) lights;
      none of them is an area light. */
  lemma OtherLightsOrder(rs: RenderState)
    requires Listed(rs)
    ensures var r := OtherLights(rs);
            var e := if HasEnvironmentLight(rs) then 1 else 0;
            var d := e + |rs.directionalLights|;
            var p := d + |rs.pointLights|;
            (forall j :: 0 <= j < |r| ==> !r[j].AreaLight?)
            && (forall j :: 0 <= j < |r| ==> (r[j].EnvironmentLight? <==> j < e))
            && (forall j :: e <= j < d ==> r[j] == DirectionalRecord(rs.directionalLights[j - e]) && LightTypeCode(r[j]) == 0)
            && (forall j :: d <= j < p ==> r[j] == PointRecord(rs.pointLights[j - d]) && LightTypeCode(r[j]) == 2)
            && (forall j :: p <= j < |r| ==> r[j] == SpotRecord(rs.spotLights[j - p]) && LightTypeCode(r[j]) == 1)
  {
  }

  /** Every record of `AreaLightsOf` is an area light. */
  lemma {:induction false} AreaLightsAreAreaLights(ms: seq<Visit>, n: nat, isEmissive: Material -> bool)
    requires AllMeshVisits(ms) && n <= |ms|
    ensures forall j :: 0 <= j < |AreaLightsOf(ms, n, isEmissive)| ==> AreaLightsOf(ms, n, isEmissive)[j].AreaLight?
  {
    if n > 0 {
      var init := AreaLightsOf(ms, n - 1, isEmissive);
      AreaLightsAreAreaLights(ms, n - 1, isEmissive);
      var tail: seq<LightRecord> := [];
      if IsFirstInstance(ms, n - 1) {
        var v := ms[n - 1];
        tail := InstanceAreaLights(v, n - 1, FirstInstanceMaterials(ms, n - 1), isEmissive, |MeshOf(v).submeshes|);
        InstanceAreaLightsAreAreaLights(v, n - 1, FirstInstanceMaterials(ms, n - 1), isEmissive, |MeshOf(v).submeshes|);
      }
      assert AreaLightsOf(ms, n, isEmissive) == init + tail;
      AllAreaAppend(init, tail);
    }
  }

  lemma AllAreaAppend(a: seq<LightRecord>, b: seq<LightRecord>)
    requires forall j :: 0 <= j < |a| ==> a[j].AreaLight?
    requires forall j :: 0 <= j < |b| ==> b[j].AreaLight?
    ensures forall j :: 0 <= j < |a + b| ==> (a + b)[j].AreaLight?
  {
  }

  lemma {:induction false} InstanceAreaLightsAreAreaLights(v: Visit, i: nat, seen: seq<Material>, isEmissive: Material -> bool, k: nat)
    requires IsMeshVisit(v) && k <= |MeshOf(v).submeshes|
    ensures forall j :: 0 <= j < |InstanceAreaLights(v, i, seen, isEmissive, k)| ==>
              InstanceAreaLights(v, i, seen, isEmissive, k)[j].AreaLight? && InstanceAreaLights(v, i, seen, isEmissive, k)[j].instance == i
  {
    if k > 0 {
      InstanceAreaLightsAreAreaLights(v, i, seen, isEmissive, k - 1);
    }
  }

  // ---------------------------------------------------------------------------------------
  // Instance records
  // ---------------------------------------------------------------------------------------

  /** The unscaled global matrix written as an instance's normal matrix. */
  function NormalMatrix(v: Visit): Mat {
    Frame(v.parentFrame, v.xf.modelWithoutScale)
  }

  /** The slot `operator[]` on the mesh-index map yields: the stored slot, or 0. */
  function MeshSlotOf(m: map<nat, nat>, id: nat): nat {
    if id in m then m[id] else 0
  }

  /** The instance loop: record `i` carries custom index `i`, the slot of its mesh, its
      global transform and its normal matrix. Reading a mesh id the map does not hold
      inserts it under 0 and yields 0. */
  method WriteInstances(ms: seq<Visit>, meshIndices: map<nat, nat>) returns (table: map<nat, nat>, records: seq<InstanceRecord>)
    requires AllMeshVisits(ms)
    ensures |records| == |ms|
    ensures forall i :: 0 <= i < |ms| ==>
              records[i] == InstanceRecord(i, MeshSlotOf(meshIndices, MeshOf(ms[i]).id), MeshOf(ms[i]).id, GlobalTransform(ms[i]), NormalMatrix(ms[i]))
    ensures forall x :: x in meshIndices ==> x in table && table[x] == meshIndices[x]
    ensures forall x :: x in table && x !in meshIndices ==> table[x] == 0 && x in MeshIds(ms)
  {
    table := meshIndices;
    records := [];
    var i := 0;
    while i < |ms|
      invariant i <= |ms| && |records| == i
      invariant forall j :: 0 <= j < i ==>
                  records[j] == InstanceRecord(j, MeshSlotOf(meshIndices, MeshOf(ms[j]).id), MeshOf(ms[j]).id, GlobalTransform(ms[j]), NormalMatrix(ms[j]))
      invariant forall x :: x in meshIndices ==> x in table && table[x] == meshIndices[x]
      invariant forall x :: x in table && x !in meshIndices ==> table[x] == 0 && x in MeshIds(ms[..i])
    {
      var id := MeshOf(ms[i]).id;
      var l := LookupOrInsert(table, id);
      assert l.value == MeshSlotOf(meshIndices, id);
      MeshIdsSnoc(ms, i);
      table := l.table;
      records := records + [InstanceRecord(i, l.value, id, GlobalTransform(ms[i]), NormalMatrix(ms[i]))];
      i := i + 1;
    }
    assert ms[..i] == ms;
  }

  /** After a pass, an instance's mesh slot is the position of its mesh among the distinct
      meshes in first-seen order. */
  lemma MeshSlotIsFirstSeen(ms: seq<Visit>, before: map<nat, nat>, after: map<nat, nat>, i: nat)
    requires AllMeshVisits(ms) && i < |ms| && MeshSlots(Dedup(MeshIds(ms)), before, after)
    ensures MeshOf(ms[i]).id in Dedup(MeshIds(ms))
    ensures MeshSlotOf(after, MeshOf(ms[i]).id) == IndexOf(Dedup(MeshIds(ms)), MeshOf(ms[i]).id)
  {
    var d := Dedup(MeshIds(ms));
    var id := MeshOf(ms[i]).id;
    assert MeshIds(ms)[i] == id;
    var k := IndexOf(d, id);
    DedupHasNoDuplicates(MeshIds(ms));
    assert after[d[k]] == k;
  }

  // ---------------------------------------------------------------------------------------
  // The upload
  // ---------------------------------------------------------------------------------------

  /** What a hierarchy-updated frame registers and binds. The vertex- and index-buffer
      descriptor lists both name the distinct meshes in slot order. */
  datatype Registration = Registration(
    vertexBuffers: seq<nat>,
    indexBuffers: seq<nat>,
    materials: seq<MaterialRecord>,
    images: seq<nat>,
    materialIndicesDescriptors: seq<nat>,
    primitiveMaterials: seq<seq<PrimitiveMaterial>>,
    writes: seq<DescriptorWrite>)

  /** The scene's `m_global_mesh_indices` and `m_num_area_lights` after the frame, the
      registration if one ran, and the records written to the instance and light buffers. */
  datatype Uploaded = Uploaded(
    meshIndices: map<nat, nat>,
    numAreaLights: nat,
    registration: Option<Registration>,
    instances: seq<InstanceRecord>,
    lights: seq<LightRecord>)

  /** The instance records of a frame that is not ready: one per listed instance, in
      order, carrying its slot, its mesh and its matrices. */
  ghost predicate InstancesWritten(instances: seq<InstanceRecord>, ms: seq<Visit>)
    requires AllMeshVisits(ms)
  {
    |instances| == |ms|
    && forall i :: 0 <= i < |ms| ==>
         instances[i].customIndex == i && instances[i].meshId == MeshOf(ms[i]).id
         && instances[i].transform == GlobalTransform(ms[i])
         && instances[i].normalMatrix == NormalMatrix(ms[i])
  }

  /** The buffers and descriptors the registration pass of a hierarchy-updated frame
      produces from the listed instances. */
  ghost predicate RegistrationIs(reg: Registration, rs: RenderState)
    requires Listed(rs)
  {
    var ms := rs.meshes;
    var mats := FirstById(FirstInstanceMaterials(ms, |ms|));
    reg.vertexBuffers == Dedup(MeshIds(ms))
    && reg.indexBuffers == Dedup(MeshIds(ms))
    && reg.materials == PackAll(mats).records
    && reg.images == PackAll(mats).images
    && reg.materialIndicesDescriptors == Ids(ms)
    && |reg.primitiveMaterials| == |ms|
    && (forall j :: 0 <= j < |ms| ==>
          PairsAre(ms[j], MaterialIds(FirstById(FirstInstanceMaterials(ms, j + 1))), reg.primitiveMaterials[j]))
    && reg.writes == DescriptorWrites(EnvironmentMap(rs), Dedup(MeshIds(ms)), Ids(ms), PackAll(mats).images)
  }

  /** What a hierarchy-updated frame uploads: the registration pass over the listed
      instances, the area lights leading the light records, and the mesh slots. */
  ghost predicate HierarchyUploaded(u: Uploaded, rs: RenderState, meshIndices: map<nat, nat>, isEmissive: Material -> bool)
    requires Listed(rs)
  {
    var ms := rs.meshes;
    var areas := AreaLightsOf(ms, |ms|, isEmissive);
    u.registration.Some? && RegistrationIs(u.registration.value, rs)
    && u.numAreaLights == |areas|
    && u.lights == areas + OtherLights(rs)
    && MeshSlots(Dedup(MeshIds(ms)), meshIndices, u.meshIndices)
    && |u.instances| == |ms|
    && forall i :: 0 <= i < |ms| ==> u.instances[i].meshIndex == IndexOf(Dedup(MeshIds(ms)), MeshOf(ms[i]).id)
  }

  /** `create_gpu_resources`: nothing on a ready frame; otherwise the instance records,
      and on a hierarchy-updated frame the registration pass first. A transforms-only
      frame keeps the area-light count and the mesh slots of the last pass. */
  method CreateGpuResources(rs: RenderState, meshIndices: map<nat, nat>, numAreaLights: nat, isEmissive: Material -> bool) returns (u: Uploaded)
    requires rs.state != Ready ==> Listed(rs)
    ensures rs.state == Ready ==> u == Uploaded(meshIndices, numAreaLights, None, [], [])
    ensures rs.state != Ready ==> InstancesWritten(u.instances, rs.meshes)
    ensures rs.state == TransformsUpdated ==>
              u.registration.None? && u.numAreaLights == numAreaLights && u.lights == OtherLights(rs)
              && forall x :: x in meshIndices ==> x in u.meshIndices && u.meshIndices[x] == meshIndices[x]
    ensures rs.state == HierarchyUpdated ==> HierarchyUploaded(u, rs, meshIndices, isEmissive)
  {
    if rs.state == Ready {
      return Uploaded(meshIndices, numAreaLights, None, [], []);
    } else if rs.state == HierarchyUpdated {
      u := UploadHierarchy(rs, meshIndices, isEmissive);
    } else {
      var table, instances := WriteInstances(rs.meshes, meshIndices);
      u := Uploaded(table, numAreaLights, None, instances, OtherLights(rs));
    }
  }

  /** The hierarchy-updated half of `create_gpu_resources`. */
  method UploadHierarchy(rs: RenderState, meshIndices: map<nat, nat>, isEmissive: Material -> bool) returns (u: Uploaded)
    requires Listed(rs)
    ensures InstancesWritten(u.instances, rs.meshes)
    ensures HierarchyUploaded(u, rs, meshIndices, isEmissive)
  {
    var reg, indices, areas := RegisterFrame(rs, meshIndices, isEmissive);
    var table, instances := WriteRegisteredInstances(rs.meshes, meshIndices, indices);
    u := Uploaded(table, |areas|, Some(reg), instances, areas + OtherLights(rs));
  }

  /** The instance loop after a registration pass: every lookup finds the slot the pass
      gave the instance's mesh. */
  method WriteRegisteredInstances(ms: seq<Visit>, before: map<nat, nat>, indices: map<nat, nat>) returns (table: map<nat, nat>, instances: seq<InstanceRecord>)
    requires AllMeshVisits(ms) && MeshSlots(Dedup(MeshIds(ms)), before, indices)
    ensures InstancesWritten(instances, ms) && MeshSlots(Dedup(MeshIds(ms)), before, table)
    ensures forall i :: 0 <= i < |ms| ==> instances[i].meshIndex == IndexOf(Dedup(MeshIds(ms)), MeshOf(ms[i]).id)
  {
    table, instances := WriteInstances(ms, indices);
    InstancesSeeSlots(ms, before, indices, table);
  }

  /** The registration half of a hierarchy-updated frame. */
  method RegisterFrame(rs: RenderState, meshIndices: map<nat, nat>, isEmissive: Material -> bool) returns (reg: Registration, indices: map<nat, nat>, areas: seq<LightRecord>)
    requires Listed(rs)
    ensures RegistrationIs(reg, rs)
    ensures areas == AreaLightsOf(rs.meshes, |rs.meshes|, isEmissive)
    ensures MeshSlots(Dedup(MeshIds(rs.meshes)), meshIndices, indices)
  {
    var p := RegisterPass(rs.meshes, meshIndices, isEmissive);
    var table := PackAll(p.materials);
    reg := Registration(p.meshes, p.meshes, table.records, table.images, p.materialIndicesDescriptors,
                        p.primitiveMaterials, DescriptorWrites(EnvironmentMap(rs), p.meshes, p.materialIndicesDescriptors, table.images));
    indices := p.meshIndices;
    areas := p.areaLights;
  }

  /** After a pass every listed mesh has a slot, so the instance loop's lookups insert
      nothing and each reads its mesh's first-seen position. */
  lemma InstancesSeeSlots(ms: seq<Visit>, before: map<nat, nat>, indices: map<nat, nat>, table: map<nat, nat>)
    requires AllMeshVisits(ms) && MeshSlots(Dedup(MeshIds(ms)), before, indices)
    requires forall x :: x in indices ==> x in table && table[x] == indices[x]
    requires forall x :: x in table && x !in indices ==> table[x] == 0 && x in MeshIds(ms)
    ensures MeshSlots(Dedup(MeshIds(ms)), before, table)
    ensures forall i :: 0 <= i < |ms| ==> MeshSlotOf(indices, MeshOf(ms[i]).id) == IndexOf(Dedup(MeshIds(ms)), MeshOf(ms[i]).id)
  {
    forall i | 0 <= i < |ms|
      ensures MeshSlotOf(indices, MeshOf(ms[i]).id) == IndexOf(Dedup(MeshIds(ms)), MeshOf(ms[i]).id)
    {
      MeshSlotIsFirstSeen(ms, before, indices, i);
    }
  }

  /** On a hierarchy-updated frame the area lights are exactly the leading records, and
      their number is the stored area-light count. */
  lemma AreaLightsLead(rs: RenderState, isEmissive: Material -> bool)
    requires Listed(rs)
    ensures var areas := AreaLightsOf(rs.meshes, |rs.meshes|, isEmissive);
            var lights := areas + OtherLights(rs);
            forall j :: 0 <= j < |lights| ==> (lights[j].AreaLight? <==> j < |areas|)
  {
    AreaLightsAreAreaLights(rs.meshes, |rs.meshes|, isEmissive);
    OtherLightsOrder(rs);
  }

  // ---------------------------------------------------------------------------------------
  // Capacities (include/resource/scene.h:14-17)
  // ---------------------------------------------------------------------------------------

  /** The texture ids some role of `mats` refers to. */
  ghost function ReferencedTextures(mats: seq<Material>): (r: set<nat>)
    ensures forall x :: x in r <==> Referenced(mats, x)
  {
    set j, x | 0 <= j < |mats| && x in PresentIds(Roles(mats[j])) :: x
  }

  /** The upload fits the buffers and the descriptor arrays `Scene` allocates with the
      capacities of scene.h. */
  ghost predicate WithinCapacities(u: Uploaded)
    requires u.registration.Some?
  {
    |u.instances| <= MaxSceneMeshInstanceCount
    && |u.lights| <= MaxSceneLightCount
    && |u.registration.value.materials| <= MaxSceneMaterialCount
    && |u.registration.value.images| <= MaxSceneMaterialTextureCount
  }

  /** `create_gpu_resources` compares no count with a capacity: a hierarchy-updated frame
      writes one instance record per listed instance, one light record per area and
      other light, one material record per distinct material id of the first instances
      and one image per distinct referenced texture, so the upload fits exactly when the
      scene itself does. */
  lemma UploadIgnoresCapacities(u: Uploaded, rs: RenderState, meshIndices: map<nat, nat>, isEmissive: Material -> bool)
    requires Listed(rs) && HierarchyUploaded(u, rs, meshIndices, isEmissive)
    ensures var ms := rs.meshes;
            var firsts := FirstInstanceMaterials(ms, |ms|);
            WithinCapacities(u) <==>
              |ms| <= MaxSceneMeshInstanceCount
              && |AreaLightsOf(ms, |ms|, isEmissive)| + |OtherLights(rs)| <= MaxSceneLightCount
              && |Elements(MaterialIds(firsts))| <= MaxSceneMaterialCount
              && |ReferencedTextures(FirstById(firsts))| <= MaxSceneMaterialTextureCount
  {
    MaterialCount(FirstInstanceMaterials(rs.meshes, |rs.meshes|));
    ImageCount(FirstById(FirstInstanceMaterials(rs.meshes, |rs.meshes|)));
  }

  /** One material record per distinct material id. */
  lemma MaterialCount(firsts: seq<Material>)
    ensures |PackAll(FirstById(firsts)).records| == |Elements(MaterialIds(firsts))|
  {
    var mats := FirstById(firsts);
    FirstByIdIds(firsts);
    DistinctCount(MaterialIds(mats));
    assert Elements(MaterialIds(mats)) == Elements(MaterialIds(firsts));
    assert |PackAll(mats).records| == |mats| == |MaterialIds(mats)|;
  }

  /** One image per distinct referenced texture. */
  lemma ImageCount(mats: seq<Material>)
    ensures |PackAll(mats).images| == |ReferencedTextures(mats)|
  {
    var images := PackAll(mats).images;
    PackAllImages(mats);
    DistinctCount(images);
    var refs := ReferencedTextures(mats);
    assert Elements(images) == refs by {
      forall x ensures x in images <==> x in refs {
      }
    }
  }

}
